=== FILE: README.md ===
# pyTigerGraph data loaders, modelled in Dafny

This project models the data loaders of pyTigerGraph's Graph Data Science
package (`pyTigerGraph/gds/dataloaders.py`). A loader batches a TigerGraph
graph for training, and this project covers what happens along the way:

- A constructor validates the vertex and edge attributes the caller wants
  against the graph schema.
- It works out the number of batches and builds the parameter dictionary.
- It builds the replacement table of the GSQL query it installs.
- Each traversal (`__iter__`, or the `data` property when there is a
  single batch) starts a pipeline of stages:
  - the REST requester (`_request_rest`) or the Kafka drain
    (`_download_from_kafka`) fills a task queue with raw batches;
  - the reader (`_read_data`) decodes each one with `_parse_data` into a
    data frame, a pair of frames, a PyG `Data` object or a DGL graph;
  - `__next__` hands the results out until the end-of-queue sentinel.
- `NeighborLoader.fetch` runs the same query for given seed vertices and
  decodes the answer directly.

The model is purely functional. Queues become sequences of
`Option<item>`, with `None` standing for the sentinel. A stage's run
becomes a `StageOutcome`: the items it queued, and whether it finished
(sentinel written), failed (it raised before writing the sentinel), or
is still waiting on its input. Python dictionaries whose order matters
become association lists (`Dicts`). Objects whose attributes are assigned
in sequence (the PyG `Data` object, DGL's `edata` and `ndata`) become the
last-write-wins fold of those assignments. The engine, the broker and the
random loader id are parameters.

Modules, one per file:

| module | file | models |
|---|---|---|
| `Errors` | errors.dfy | `Option`, `Result`, the exceptions the loaders raise |
| `Dicts` | dicts.dfy | insertion-ordered dictionaries, last-write-wins assignment |
| `Text` | text.dfy | `strip`, `replace`, `join`, `lower`, `str(n)` |
| `Tables` | tables.dfy | CSV cells and blobs, `"".join` of blobs |
| `Schema` | schema.dfy | `_get_schema` |
| `Attributes` | attributes.dfy | `_validate_vertex_attributes`, `_validate_edge_attributes` |
| `Columns` | columns.dfy | column layouts, `read_csv`, column access, the `primary_id` column |
| `Reindex` | reindex.dfy | the edge list of `_parse_data` (merge on `vid`, or cast) |
| `Stages` | stages.dfy | stage outcomes, `_request_rest`, `_read_data` |
| `Drain` | drain.dfy | `_download_from_kafka` |
| `Parser` | parser.dfy | `_parse_data` |
| `Loaders` | loaders.dfy | the four constructors, `_install_query`, `_start`, `fetch` |
| `Iteration` | iteration.dfy | `__iter__`, `__next__`, `data` |

## Model

| member | source | states |
|---|---|---|
| Schema.AttrMap | pyTigerGraph/gds/dataloaders.py:190-196 | The attribute names of a type are exactly the names listed. Each name maps to the declared type of its last listing, which is the element type for containers. |
| Schema.VertexAttrs | pyTigerGraph/gds/dataloaders.py:190-200 | A primary id stored as an attribute joins the map under its own name and type. Every other attribute keeps its listed type. Without that flag the map is the attribute map alone. |
| Schema.VertexSchema | pyTigerGraph/gds/dataloaders.py:187-200 | The vertex schema has one key per vertex type name, and no key twice. Each type maps to the attribute map of its last listing. |
| Schema.EdgeSchema | pyTigerGraph/gds/dataloaders.py:202-211 | The edge schema has one key per edge type name, and no key twice. Each type maps to the attribute map of its last listing, with no primary id. |
| Schema.VertexSchemaInOrder | pyTigerGraph/gds/dataloaders.py:187-200 | With distinct type names, the vertex schema lists every type once, in the engine's order, each with its attribute map. |
| Schema.EdgeSchemaInOrder | pyTigerGraph/gds/dataloaders.py:202-211 | With distinct type names, the edge schema lists every edge type once, in the engine's order, each with its attribute map. |
| Schema.Fill | pyTigerGraph/gds/dataloaders.py:187-211 | Filling a dictionary type by type keeps one key per name, at its first place, holding the value of its last listing. |
| Schema.GetSchema | pyTigerGraph/gds/dataloaders.py:183-212 | `_get_schema` returns a vertex and an edge schema whose keys are exactly the type names the engine lists, each once. With distinct names each schema is the engine's listing in order. |
| Schema.FirstTypeAttrs | pyTigerGraph/gds/dataloaders.py:974-975 | `next(iter(schema.values()))` fails exactly on an empty schema. Otherwise it gives the attribute map stored under the first key. |
| Schema.SetFirstTypeAttr | pyTigerGraph/gds/dataloaders.py:1066-1067 | Writing through the first type's map sets that one attribute. It keeps every key and leaves every other type untouched. |
| Text.Strip | pyTigerGraph/gds/dataloaders.py:225 | A stripped name neither starts nor ends with whitespace, and is no longer than the original. |
| Text.StripIsInnerSlice | pyTigerGraph/gds/dataloaders.py:225 | `strip` only removes characters from the two ends: the result is one slice of the original. |
| Text.StripIdempotent | pyTigerGraph/gds/dataloaders.py:225 | Stripping twice is stripping once. |
| Text.StripIgnoresPadding | pyTigerGraph/gds/dataloaders.py:225 | Whitespace added at either end does not change the stripped name. |
| Text.ReplaceAllAbsent | pyTigerGraph/gds/dataloaders.py:428 | `replace` leaves a key that does not contain the pattern unchanged. |
| Text.Join | pyTigerGraph/gds/dataloaders.py:973 | Joining no parts gives the empty string, and joining one part gives that part. |
| Text.JoinEnds | pyTigerGraph/gds/dataloaders.py:973 | With several parts the join opens with the first part and the separator; a nonempty join closes with the last part. |
| Text.JoinSplit | pyTigerGraph/gds/dataloaders.py:973 | Joining two nonempty runs of parts is joining each run, with the separator between them. |
| Text.Lower | pyTigerGraph/gds/dataloaders.py:517 | Lowercasing keeps the length and maps each character on its own. |
| Text.LowerIdempotent | pyTigerGraph/gds/dataloaders.py:568 | Lowercasing a lowercased format name changes nothing. |
| Text.NatToString | pyTigerGraph/gds/dataloaders.py:1017 | `str(n)` is a nonempty string of decimal digits, one digit long exactly when `n < 10`. |
| Text.NatToStringInjective | pyTigerGraph/gds/dataloaders.py:1017 | Different counters print differently. |
| Dicts.Get | pyTigerGraph/gds/dataloaders.py:1126 | A lookup succeeds exactly when the key is present. It returns a value stored under that key, and the only one when keys are unique. |
| Dicts.Put | pyTigerGraph/gds/dataloaders.py:189-198 | An assignment makes the key read back the new value and changes no other key. It keeps an existing key's place, appends a new key at the end, and keeps keys unique. |
| Dicts.PutAppends | pyTigerGraph/gds/dataloaders.py:189 | Assigning a new key appends the entry. |
| Dicts.LastWrite | pyTigerGraph/gds/dataloaders.py:614-718 | A key has a last assigned value exactly when some assignment names it, and that value was assigned to it. |
| Dicts.Assign | pyTigerGraph/gds/dataloaders.py:614-718 | After a run of attribute assignments, a key is present when it was present before or assigned since. It holds its last assigned value, or its old one. |
| Dicts.LastWriteAppend | pyTigerGraph/gds/dataloaders.py:614-718 | In two runs of assignments, the later run decides every key it assigns. |
| Dicts.LastWriteDecidedBy | pyTigerGraph/gds/dataloaders.py:614-718 | A key assigned in a middle run and never after keeps the middle run's last value. |
| Dicts.LastWriteAt | pyTigerGraph/gds/dataloaders.py:614-718 | An assignment that no later assignment to the same key follows decides that key. |
| Tables.Concat | pyTigerGraph/gds/dataloaders.py:399 | Joining no CSV pieces gives an empty blob. |
| Tables.ConcatAppend | pyTigerGraph/gds/dataloaders.py:399 | Joining pieces distributes over splitting the list of pieces. |
| Tables.ConcatSingles | pyTigerGraph/gds/dataloaders.py:399 | One-row pieces join into one row per piece, in order. |
| Attributes.StripAll | pyTigerGraph/gds/dataloaders.py:224-225 | Every name is replaced by its stripped form, and none is added or dropped. |
| Attributes.StripAllIdempotent | pyTigerGraph/gds/dataloaders.py:224-225 | Stripping a stripped list changes nothing. |
| Attributes.FirstLacking | pyTigerGraph/gds/dataloaders.py:227-234 | No type is reported exactly when every type has every name. A reported type is a type of the schema. |
| Attributes.CheckPerType | pyTigerGraph/gds/dataloaders.py:237-251 | The per-type loop passes exactly when every entry's type exists and its names are that type's attributes. Otherwise it reports an unknown type, a missing key or unavailable attributes. |
| Attributes.ValidateSelection | pyTigerGraph/gds/dataloaders.py:214-253 | A falsy selection gives `[]` and a string is rejected as deprecated. A list is accepted, stripped, exactly when every type has every stripped name. A nonempty per-type dict always raises. |
| Attributes.ValidateVertexAttributes | pyTigerGraph/gds/dataloaders.py:214-253 | A falsy selection gives the empty list and a non-empty string is rejected as deprecated. An accepted vertex selection is the empty list or the stripped list, and names attributes of every vertex type. A list is accepted exactly when that holds. |
| Attributes.ValidateEdgeAttributes | pyTigerGraph/gds/dataloaders.py:255-294 | As written: a falsy selection gives the empty list and a non-empty string is rejected as deprecated. An accepted selection is the empty list or the stripped list, and names attributes of every edge type; a list is accepted exactly when that holds. A per-type dict is checked against the vertex schema before it raises. |
| Attributes.ValidateEdgeAttributesCorrected | pyTigerGraph/gds/dataloaders.py:255-294 | With the edge schema on both sides, a per-type dict still raises, but never with a missing-key error. An accepted list names attributes of every edge type. |
| Attributes.CheckAgainstItselfNeverMissesKey | pyTigerGraph/gds/dataloaders.py:237-251 | When type membership and the allow-list come from the same schema, the lookup of an allowed type cannot fail. |
| Attributes.ValidateIdempotent | pyTigerGraph/gds/dataloaders.py:223-234 | Validating an accepted list again returns it unchanged. |
| Attributes.ValidateIgnoresPadding | pyTigerGraph/gds/dataloaders.py:224-229 | Padding the names with whitespace does not change the outcome. |
| Attributes.ValidateAllOrNothing | pyTigerGraph/gds/dataloaders.py:226-234 | A list with a name that some vertex type lacks is rejected as a whole. |
| Attributes.EdgePerTypeLooksUpVertexSchema | pyTigerGraph/gds/dataloaders.py:286 | For a graph with vertex type `Person` and edge type `Follows`, a per-type edge selection for `Follows` fails on the vertex schema lookup. |
| Columns.VertexColumns | pyTigerGraph/gds/dataloaders.py:528 | The vertex layout is `vid`, then the input features, the labels and the extra features, each in order. |
| Columns.EdgeColumns | pyTigerGraph/gds/dataloaders.py:529 | The edge layout is `source`, `target`, then the edge features, labels and extras, in order. |
| Columns.Decode | pyTigerGraph/gds/dataloaders.py:534 | The model's `read_csv` with names succeeds exactly when the names are distinct and every row has one field per name. A duplicate name is reported first. |
| Columns.IndexOf | pyTigerGraph/gds/dataloaders.py:522 | A column is found exactly when its name is present, at the first position carrying that name. |
| Columns.ColumnValues | pyTigerGraph/gds/dataloaders.py:522-525 | `df[n]` fails with a missing key exactly when no column is called `n`. Otherwise it gives that column's cell in every row. |
| Columns.InjectPrimaryId | pyTigerGraph/gds/dataloaders.py:558-559 | Assigning the id column needs one id per row. It replaces an existing `primary_id` column or appends one, keeping the table rectangular. |
| Columns.InjectPrimaryIdReadsBack | pyTigerGraph/gds/dataloaders.py:558-559 | After the assignment, `primary_id` reads back the ids and every other column reads back what it held. |
| Reindex.Matches | pyTigerGraph/gds/dataloaders.py:602 | The vertex rows one endpoint meets in the merge are exactly the rows with that id, in ascending order. |
| Reindex.MatchesUnique | pyTigerGraph/gds/dataloaders.py:602 | With distinct vertex ids, a present id matches exactly one row and an absent id matches none. |
| Reindex.Product | pyTigerGraph/gds/dataloaders.py:602-605 | One edge row yields every pairing of its source matches with its target matches. |
| Reindex.Join | pyTigerGraph/gds/dataloaders.py:599-606 | Every merged row comes from an edge row. Its two positions are vertex rows whose ids are that edge's source and target. |
| Reindex.JoinComplete | pyTigerGraph/gds/dataloaders.py:602-606 | Every edge whose endpoints both have vertices survives the merge, once for each such pair of vertices. |
| Reindex.JoinFiltersWhenIdsDistinct | pyTigerGraph/gds/dataloaders.py:599-606 | With distinct vertex ids the double merge is a filter: it keeps exactly the edges whose endpoints are both present, each once, in order. |
| Reindex.ProductOfUniqueIds | pyTigerGraph/gds/dataloaders.py:602-605 | With distinct ids, one edge row contributes itself when both endpoints are present and nothing otherwise. |
| Reindex.Vids | pyTigerGraph/gds/dataloaders.py:601 | The id map holds each vertex row's `vid`, numbered by row position. |
| Reindex.IntegerIdsMerge | pyTigerGraph/gds/dataloaders.py:599-606 | Integer vertex ids and integer endpoints always reindex without error. |
| Reindex.TextEndpointAgainstIntegerIds | pyTigerGraph/gds/dataloaders.py:602 | A text endpoint merged against integer ids raises instead of matching nothing. |
| Reindex.CastEndpoints | pyTigerGraph/gds/dataloaders.py:608-609 | Casting the endpoints to `long` succeeds exactly when every endpoint is an integer. It gives one pair per edge with the same values, and otherwise raises a cast error. |
| Reindex.KindOf | pyTigerGraph/gds/dataloaders.py:602-604 | A key column has no cells, holds only integers, or holds some text, exactly as its cells say. |
| Reindex.BuildEdgeList | pyTigerGraph/gds/dataloaders.py:599-609 | With `reindex`, the merges raise exactly when an endpoint column and the `vid` column are one integer and one text; otherwise every pair indexes two vertex rows whose ids are the edge's endpoints. Without it, the edge table is kept and the pairs are the cast endpoints, which fail exactly on a non-integer. |
| Stages.Payload | pyTigerGraph/gds/dataloaders.py:404-405 | The items of a stage are its queue entries before the sentinel, and a finished stage wrote one sentinel. |
| Stages.Emit | pyTigerGraph/gds/dataloaders.py:404-405 | Queuing items and then ending gives a well-terminated queue whose items are exactly those. |
| Stages.Shape | pyTigerGraph/gds/dataloaders.py:397-404 | `both` needs both batches and gives a pair. `vertex` and `edge` need their own batch. Any other response type fails on the first record. |
| Stages.ShapeAll | pyTigerGraph/gds/dataloaders.py:397-404 | The records are shaped in order, up to the first one that fails, which is reported. |
| Stages.RequestRest | pyTigerGraph/gds/dataloaders.py:384-405 | The requester queues each record's raw batch in order. It writes the sentinel exactly when every record shaped, and otherwise stops before the failing record. |
| Stages.FirstSentinel | pyTigerGraph/gds/dataloaders.py:470-475 | The first sentinel is preceded only by items. |
| Stages.ReadLoop | pyTigerGraph/gds/dataloaders.py:470-493 | The reader parses items in order. It finishes at a sentinel, fails at an item that does not parse, or waits when the input runs out. |
| Stages.ReadData | pyTigerGraph/gds/dataloaders.py:453-494 | The data queue holds one parsed batch per raw batch before the first sentinel, in order. It gets its sentinel exactly when a sentinel arrives and everything before it parsed. |
| Stages.ReadDataStopsAtSentinel | pyTigerGraph/gds/dataloaders.py:471-475 | Whatever follows the first sentinel is never read. |
| Stages.ReaderBehindStage | pyTigerGraph/gds/dataloaders.py:453-494 | Behind a well-terminated stage, the reader finishes exactly when that stage finished and all its items parsed. It never outruns that stage's items. |
| Stages.RestThenRead | pyTigerGraph/gds/dataloaders.py:384-494 | Over the REST path, the data queue is finished exactly when every record shaped and parsed. It then holds one parsed batch per record. |
| Drain.Companion | pyTigerGraph/gds/dataloaders.py:426-446 | A key has a companion exactly when it starts with `vertex` or `edge`. |
| Drain.SwapSideInvolutive | pyTigerGraph/gds/dataloaders.py:428-436 | Swapping the side word twice gives the key back. |
| Drain.CompanionOfPlainKey | pyTigerGraph/gds/dataloaders.py:428-436 | For a key whose batch id contains no side word, `replace` swaps exactly the leading side word, and the companion is again such a key. |
| Drain.Step | pyTigerGraph/gds/dataloaders.py:424-449 | One message raises exactly in tuple mode with a key that starts with neither side word. Otherwise it queues at most one item, which is a pair exactly in tuple mode. The counter grows by what it queued. |
| Drain.Feed | pyTigerGraph/gds/dataloaders.py:423-449 | Over one poll, the queue only grows and the counter counts the queued items. Items are pairs exactly in tuple mode, and a failure is an unrecognised key. |
| Drain.FeedAppend | pyTigerGraph/gds/dataloaders.py:423-449 | Feeding two runs of messages is feeding their concatenation, and stops at the first failure. |
| Drain.FeedPlain | pyTigerGraph/gds/dataloaders.py:447-449 | Outside tuple mode every message value is queued in arrival order, and the counter counts them. |
| Drain.DrainLoop | pyTigerGraph/gds/dataloaders.py:417-449 | The loop stops before its polls run out only when the count test holds before a poll, or a key was unrecognised. The counter equals the number of items queued. |
| Drain.DrainLoopFeedsTakenPolls | pyTigerGraph/gds/dataloaders.py:417-449 | The loop's state is the fold of the message step over exactly the polls it took. |
| Drain.Download | pyTigerGraph/gds/dataloaders.py:408-450 | The drain writes its sentinel exactly when no key raised and the `==` test holds on the number of items. Otherwise it raised on an unrecognised key in tuple mode, or it is still polling and has written no sentinel yet. Its items are pairs exactly in tuple mode. |
| Drain.DownloadCounts | pyTigerGraph/gds/dataloaders.py:415-449 | The drain's counter is the number of items it queued, which are the fold of the messages of the polls it took. A drain still polling took every poll. |
| Drain.DownloadPlain | pyTigerGraph/gds/dataloaders.py:447-450 | Outside tuple mode the drain forwards every value of the polls it took, in order, never raises, and finishes exactly when the count test accepts the number of values. |
| Drain.OvershootExample | pyTigerGraph/gds/dataloaders.py:418-449 | The count is compared only between polls and with `==`: with one batch wanted, a poll of two messages queues both, and the drain never writes its sentinel. |
| Drain.DownloadAtLeastFinishes | pyTigerGraph/gds/dataloaders.py:417-450 | With `>=` as the count test, a drain whose polls hold at least `num_batches` values finishes, and it takes no poll once the count is met. |
| Drain.FeedPairs | pyTigerGraph/gds/dataloaders.py:426-442 | In tuple mode, over distinct plain keys, no key raises. Every queued pair joins a vertex message and the edge message of the same batch. The buffer holds exactly the messages still waiting for their companion. |
| Drain.PairedBufferHasNoCompanions | pyTigerGraph/gds/dataloaders.py:429-442 | The buffer never holds a key together with its companion. |
| Drain.AllBatchesComplete | pyTigerGraph/gds/dataloaders.py:426-442 | When both halves of every batch have arrived, the buffer is empty and there is one pair per batch. |
| Drain.SideWordInsideId | pyTigerGraph/gds/dataloaders.py:428-438 | Replace-all also rewrites a side word inside the batch id. `edge_vertex1` waits for `vertex_vertex1`, which waits for `edge_edge1`, so both stay buffered and the batch is never delivered. |
| Drain.EdgeVertexCompanions | pyTigerGraph/gds/dataloaders.py:428-436 | The companions of `edge_vertex1` and `vertex_vertex1`, computed: they are not each other's. |
| Parser.DecodeRaw | pyTigerGraph/gds/dataloaders.py:528-566 | An unknown input format raises. A tuple is needed exactly for the graph formats. Each table gets its column layout. `graph_str` with ids adds the `primary_id` column and extra. Decode failures are only duplicate names, rows whose width differs from the names, or an id count mismatch. |
| Parser.AttrToTensor | pyTigerGraph/gds/dataloaders.py:512-526 | The features are read exactly when each one is declared, not string-typed and a column of the table. The result is those columns, in order. Otherwise the first problem is reported. |
| Parser.StringFeatureRejected | pyTigerGraph/gds/dataloaders.py:517-521 | A string-typed feature raises, naming that feature, once the features before it were fine. |
| Parser.ExtraFields | pyTigerGraph/gds/dataloaders.py:635-668 | Every extra column is read, in order, holding that column's cells: string-typed extras as plain lists, the others as one-column tensors. |
| Parser.OptionalTensor | pyTigerGraph/gds/dataloaders.py:621-627 | A tensor is built exactly when names are given, and it holds the named columns of the table, in order. The read fails exactly when one feature has a problem. |
| Parser.GatherFeatures | pyTigerGraph/gds/dataloaders.py:620-718 | Reading succeeds only with usable features. Each feature and label tensor is built exactly when its list is nonempty, and holds its table's columns. Each extra holds its column's cells, as a list for a string type and a tensor otherwise, one per name, in order, on both sides. |
| Parser.OptWrite | pyTigerGraph/gds/dataloaders.py:621-627 | The guarded assignment writes its key exactly when the tensor was built. |
| Parser.PygStore | pyTigerGraph/gds/dataloaders.py:614-718 | The PyG object holds exactly `edge_index`, the tensors that were built and the extras. `edge_index`, `edge_feat`, `edge_label`, `x` and `y` hold the edge list and the tensors unless an extra reuses the name. Each extra holds its field unless a later assignment reuses its name. |
| Parser.PygLastWrites | pyTigerGraph/gds/dataloaders.py:614-718 | The last assignments to `edge_index`, `x` and `y` are the edge list, the features and the labels, unless an extra of that name follows. |
| Parser.PygKeys | pyTigerGraph/gds/dataloaders.py:614-718 | An attribute of the PyG object is assigned exactly when it is `edge_index`, a tensor that was built, or an extra. |
| Parser.EdgeExtraData | pyTigerGraph/gds/dataloaders.py:635-642 | `extra_data` is created exactly when there are edge extras. |
| Parser.DglExtraDataAsWritten | pyTigerGraph/gds/dataloaders.py:685-687 | As written: with vertex extras, `extra_data` is a fresh dict that holds only vertex lists. |
| Parser.DglExtraData | pyTigerGraph/gds/dataloaders.py:635-692 | Corrected: `extra_data` exists exactly when there are extras, and holds every string extra of both sides. |
| Parser.DataWrites | pyTigerGraph/gds/dataloaders.py:621-668 | `edata` or `ndata` only receives tensors. `feat` and `label` hold the features and labels when built and not overwritten by an extra. |
| Parser.InferredNodes | pyTigerGraph/gds/dataloaders.py:611 | The node count `dgl.graph((u, v))` infers without `num_nodes`: every endpoint is below it, and a nonzero count is one more than some endpoint. |
| Parser.DglWith | pyTigerGraph/gds/dataloaders.py:610-718 | The DGL graph has the edge list and self-loop choice, and `feat` and `label` on both sides when built. Its `edata` and `ndata` never hold a plain list. Its node count is the inferred one. When every assigned tensor has one row per node or per edge, counting the self loops `add_self_loop` adds (line 613), the graph is consistent: all of `edata` and `ndata` fits. |
| Parser.SideWritesFit | pyTigerGraph/gds/dataloaders.py:621-718 | Every tensor one side assigns has one row per row of its table. A side with features, labels or a non-string extra assigns at least one tensor. |
| Parser.CheckedGraph | pyTigerGraph/gds/dataloaders.py:610-718 | PyG always builds its object. DGL raises `FeatureSizeMismatch` when a tensor's row count differs from the node or edge count it is assigned to. An accepted DGL graph is consistent. With vertex data its node count is the vertex row count. With edge data its edge count, self loops included, is the edge row count. |
| Parser.AssembledDglSized | pyTigerGraph/gds/dataloaders.py:596-719 | A DGL graph the graph half returns has the edge list's edges and the self-loop choice, and is consistent. With vertex data it has one node per vertex row. With edge data no self loop was counted on top of its edges. |
| Parser.TrailingIsolatedVertexFails | pyTigerGraph/gds/dataloaders.py:611-718 | As written, a reindexed DGL batch with vertex data whose last vertex has no edge raises, because the inferred node count is below the vertex count. |
| Parser.SelfLoopsLeaveNoEdges | pyTigerGraph/gds/dataloaders.py:612-668 | As written, with self loops and edge data a reindexed DGL batch is accepted only with no edges and no nodes. |
| Parser.DglIntended | pyTigerGraph/gds/dataloaders.py:610-718 | Corrected: the node count is given, and the edge data is sized by the edges before the self loops. When the tensors agree with those counts, all of `edata` and `ndata` fits. |
| Parser.CorrectedDglDataFits | pyTigerGraph/gds/dataloaders.py:610-718 | Corrected: with `num_nodes=len(vertices)` and the self loops added after the edge data, every tensor read from the tables fits, so DGL accepts every batch. |
| Parser.AssembleGraph | pyTigerGraph/gds/dataloaders.py:596-719 | A graph result has the requested kind. Its input features and labels are all non-string typed. `x`/`y` (PyG) or `feat`/`label` (DGL) hold the vertex table's columns unless a vertex extra takes the name. As written, DGL's `extra_data` exists exactly when there are extras, and names only vertex extras once the vertex side has some. With `reindex`, every edge joins two vertex positions of the batch. |
| Parser.ParseLowered | pyTigerGraph/gds/dataloaders.py:528-725 | Unknown input formats raise, and a graph output needs a graph input. A data frame output is the decoded table, or the pair exactly for a graph format. The output kind matches the format, and the features are non-string typed. With `reindex`, edges stay within the batch. A DGL graph returned is consistent: its node count is the inferred one, and its tensors fit its nodes and edges. With vertex data it has one node per vertex row. With edge data no self loop is counted on top of its edges. |
| Parser.ParseData | pyTigerGraph/gds/dataloaders.py:496-725 | An unknown input or output format raises. The result's kind follows `out_format` read case-insensitively: frames (two exactly for a graph input), a PyG object or a DGL graph. A graph output needs a graph input and non-string features. A DGL graph returned is consistent, with one node per vertex row when the vertex side has data, and no counted self loop when the edge side has data. |
| Parser.OutFormatCaseInsensitive | pyTigerGraph/gds/dataloaders.py:568-720 | The output format is matched case-insensitively. |
| Parser.StringFeatureFailsParse | pyTigerGraph/gds/dataloaders.py:671-677 | A string-typed vertex feature fails the whole batch in the graph formats. |
| Parser.DglExtraDataDropsEdgeLists | pyTigerGraph/gds/dataloaders.py:685-692 | As written, a string edge extra is lost whenever there are vertex extras. The corrected dict keeps it. |
| Parser.SeedExtraHidesEdgeText | pyTigerGraph/gds/dataloaders.py:685-692 | A direct `_parse_data` call for DGL with a string edge extra `text` and the vertex extra `is_seed`: as written the reset replaces `extra_data` and `text` is gone. |
| Parser.ExtraDataAgreesWithoutEdgeLists | pyTigerGraph/gds/dataloaders.py:635-692 | With no string edge extra, the as-written and the corrected `extra_data` agree. |
| Parser.ResetLatentForNumericExtras | pyTigerGraph/gds/dataloaders.py:635-692 | When every edge extra has a non-string declared type, the reset at the vertex side loses nothing. |
| Loaders.ResolveAddress | pyTigerGraph/gds/dataloaders.py:129-134 | The consumer or producer address is the specific one when given, otherwise the shared one. It is empty only when both are. |
| Loaders.FloorDiv | pyTigerGraph/gds/dataloaders.py:951 | Floor division rounds towards minus infinity for either sign of divisor. |
| Loaders.CeilDiv | pyTigerGraph/gds/dataloaders.py:951 | `math.ceil(a / b)` is the ceiling of the exact quotient. |
| Loaders.CeilingUnique | pyTigerGraph/gds/dataloaders.py:951 | The ceiling property pins the batch count down uniquely. |
| Loaders.CeilingCovers | pyTigerGraph/gds/dataloaders.py:951 | With a positive batch size, the batches hold every element, and dropping one batch would not. |
| Loaders.BatchCount | pyTigerGraph/gds/dataloaders.py:941-954 | Without a batch size the caller's count is kept. Otherwise it is the ceiling of the (filtered) total over the batch size. The edge-counting loaders raise exactly when given a filter. |
| Loaders.BaseParams | pyTigerGraph/gds/dataloaders.py:955-962 | The parameters carry the batch count and shuffle flag. Neighbour counts and hops appear exactly for the neighbour loader. A filter and the producer address appear exactly when given. No topic or seeds are set yet. |
| Loaders.UdfCalls | pyTigerGraph/gds/dataloaders.py:976-981 | Every name gets one printing call, in order, exactly when every name is declared with a printable type. Otherwise the first problem is reported. |
| Loaders.AttrsEntry | pyTigerGraph/gds/dataloaders.py:976-991 | With names, the placeholder maps to the calls joined by `+","+`. Without names, the placeholder and its leading separator map to the empty string. |
| Loaders.QueryReplacements | pyTigerGraph/gds/dataloaders.py:969-991 | The table installs exactly when each side the query reads has a first type with printable attributes. The suffix joins the selected names, and each side read gets its entry. |
| Loaders.AttrsEntryEmptyIffNoNames | pyTigerGraph/gds/dataloaders.py:976-991 | The replacement text is empty exactly when no names were selected. |
| Loaders.LoadableIsNumericTyped | pyTigerGraph/gds/dataloaders.py:35-40 | Every type the query can print is one the batch reader accepts as a feature. |
| Loaders.ReplacementsNumeric | pyTigerGraph/gds/dataloaders.py:969-991 | A loader whose query installs selects only non-string attributes. |
| Loaders.QueryTemplate | pyTigerGraph/gds/dataloaders.py:992-1005 | The query file ends in `_kloader.gsql` exactly when a producer address is set, and in `_hloader.gsql` otherwise. |
| Loaders.QueryTemplateInjective | pyTigerGraph/gds/dataloaders.py:992-1005 | Different loaders, or one loader with and without a producer, install different files. |
| Loaders.SelectAttributes | pyTigerGraph/gds/dataloaders.py:932-938 | Each kept list is its validator's result on the matching argument, the edge lists from the as-written validator, and names attributes of every type of its side. Resolution succeeds exactly when every validation the loader runs succeeds, and otherwise raises the first failure's error in constructor order. Vertex and edge loaders keep one list and leave the others empty. |
| Loaders.FirstError | pyTigerGraph/gds/dataloaders.py:932-938 | The error of the first failed validation, and none exactly when all succeed. |
| Loaders.Configure | pyTigerGraph/gds/dataloaders.py:939-967 | A configured loader is well formed and keeps the six selected lists. It is built exactly when the batch count and the query replacements succeed, and otherwise raises their error. Its id falls back to the random one. Its addresses, batch count, parameters, replacement table, query file and self-loop flag follow the constructor arguments. An edge count with a filter raises. |
| Loaders.NewLoader | pyTigerGraph/gds/dataloaders.py:885-967 | A constructed loader is well formed, with the fallback id, the resolved addresses and the batch count. Its lists are exactly the validators' results and are available in every type. It is built exactly when attribute resolution, the batch count and the query replacements all succeed; a failed resolution raises its error. An edge-counting loader with a batch size and a filter raises. |
| Loaders.Topic | pyTigerGraph/gds/dataloaders.py:1017 | The topic starts with the loader id and an underscore, and continues with at least one decimal digit and nothing else. |
| Loaders.TopicsDistinct | pyTigerGraph/gds/dataloaders.py:1017 | Two traversals of one loader never share a topic. |
| Loaders.Start | pyTigerGraph/gds/dataloaders.py:1008-1094 | A topic is set exactly when there is a consumer, named after the id and the counter. The neighbour loader records `is_seed` as `bool`. The input format follows the loader kind and transport. The reader gets the loader's lists, with `is_seed` added for neighbours, and non-string features. |
| Loaders.StartKeepsWf | pyTigerGraph/gds/dataloaders.py:1066-1067 | Recording `is_seed` as `bool` keeps every selected feature non-string typed. |
| Loaders.RespType | pyTigerGraph/gds/dataloaders.py:1038-1047 | The HTTP stage asks for both vertices and edges exactly for the neighbour and graph loaders; the others ask for their one kind. |
| Loaders.InFormat | pyTigerGraph/gds/dataloaders.py:1069-1072 | The raw format is one the reader knows. It is a graph format exactly for the neighbour and graph loaders, a vertex format exactly for the vertex loader, and a bytes format exactly when a broker is used. |
| Loaders.StartLoader | pyTigerGraph/gds/dataloaders.py:1015-1067 | Starting changes only the topic in the parameters and, for the neighbour loader, the `is_seed` type of the first vertex type; the loader stays well formed with its features non-string typed. |
| Loaders.ReaderConfig | pyTigerGraph/gds/dataloaders.py:1073-1092 | The reader gets the loader's lists, `is_seed` as an extra for neighbours, the attribute types of the first vertex and edge type, and reindexing on. Every selected feature, label and edge extra is non-string typed. |
| Loaders.Upstream | pyTigerGraph/gds/dataloaders.py:1015-1063 | The requesting stages of a traversal leave a well-terminated queue. |
| Loaders.ShapesAgree | pyTigerGraph/gds/dataloaders.py:1046-1072 | The requester's raw batches are pairs exactly when the reader expects a graph format. Decoding them fails only on malformed CSV. |
| Loaders.ReadBatch | pyTigerGraph/gds/dataloaders.py:476-492 | An unknown input or output format fails the batch. A parsed batch is frames (two exactly for a graph format), a PyG object or a DGL graph as the output format asks, case-insensitively. A graph batch comes from a graph format with non-string features. A DGL batch is consistent in its node and edge counts. |
| Loaders.ReadBatchEdgesWithin | pyTigerGraph/gds/dataloaders.py:476-492 | With `reindex` and a graph output whose `edge_index` no extra overwrites, a parsed batch only has edges between rows of its own vertex table. |
| Loaders.Traversal | pyTigerGraph/gds/dataloaders.py:1008-1094 | A traversal's data queue finishes exactly when its upstream finished and every raw batch parsed, and holds no more batches than upstream queued. |
| Loaders.Seed | pyTigerGraph/gds/dataloaders.py:1126 | A seed is its `primary_id` and `type`, and a missing key raises naming it, `primary_id` first. |
| Loaders.Seeds | pyTigerGraph/gds/dataloaders.py:1125-1126 | The seed list has one pair per vertex, in order, exactly when every vertex has both keys. |
| Loaders.FetchRequest | pyTigerGraph/gds/dataloaders.py:1111-1126 | A falsy argument sends nothing, and a non-list or a malformed element raises. Otherwise the request is one batch with the loader's neighbours and hops and the seeds in order. |
| Loaders.FetchSchema | pyTigerGraph/gds/dataloaders.py:1131-1133 | Fetching records `is_seed` as `bool` and `primary_id` as `str` on the first vertex type only. |
| Loaders.FetchConfig | pyTigerGraph/gds/dataloaders.py:1131-1151 | The fetch parser reads a graph string with `reindex` and the returned vertex keys as ids. It reads `is_seed` with a non-string type and `primary_id` with a string type. Every selected edge name is non-string typed, and so are the vertex features and labels when none is called `primary_id`. |
| Loaders.Fetch | pyTigerGraph/gds/dataloaders.py:1102-1153 | A falsy argument changes nothing and returns `None`, and request errors propagate. An empty answer raises, and a malformed first record raises. Otherwise the first record is parsed with the fetch configuration. |
| Loaders.FetchKeepsWf | pyTigerGraph/gds/dataloaders.py:1131-1133 | The fetch's schema change keeps the loader well formed when no selected attribute is called `primary_id`. |
| Loaders.FetchedEdgesWithin | pyTigerGraph/gds/dataloaders.py:1135-1151 | A fetched graph only has edges between vertices of the fetched batch. |
| Iteration.Restart | pyTigerGraph/gds/dataloaders.py:752-753 | A restart keeps the counter and the loader's identity. With a consumer it uses the topic named after the current counter. The new queue is that traversal's data queue. |
| Iteration.Data | pyTigerGraph/gds/dataloaders.py:773-784 | With several batches, `data` is the loader itself. With one batch, the first read starts a traversal and keeps its first item, and later reads return the kept item. The counter never moves. |
| Iteration.DataIsCached | pyTigerGraph/gds/dataloaders.py:777-782 | A second read of `data` returns what the first kept and starts nothing. |
| Iteration.Iter | pyTigerGraph/gds/dataloaders.py:749-756 | With one batch, `iter` goes through `data`. Otherwise it restarts, advances the counter by one and arms `__next__`. |
| Iteration.Next | pyTigerGraph/gds/dataloaders.py:758-770 | `next` raises before `iter`, stops with no queue or at the sentinel (disarming), and waits on an empty queue. Otherwise it returns the queue's first batch and drops it. |
| Iteration.NextAfterStopRaises | pyTigerGraph/gds/dataloaders.py:758-769 | After `StopIteration`, another `next` raises until `iter` is called again. |
| Iteration.ForLoop | pyTigerGraph/gds/dataloaders.py:758-770 | A `for` loop ends on the first outcome that is not a batch. |
| Iteration.ForLoopReadsQueue | pyTigerGraph/gds/dataloaders.py:758-770 | Looping over an armed loader yields the traversal's batches in order. It then stops if the traversal finished, and waits forever otherwise. |
| Iteration.ForLoopOverLoader | pyTigerGraph/gds/dataloaders.py:749-770 | `for batch in loader` with several batches sees exactly the batches of the traversal `iter` started. It ends with `StopIteration` when every stage finished. |
| Iteration.SuccessiveTraversalsUseDistinctTopics | pyTigerGraph/gds/dataloaders.py:753-754 | Successive `iter` calls use topics named after successive counters, so they never share a topic. |

## Left out

- Threads, the exit event, queue capacities and `_reset`'s draining, joins and topic deletion are left out. A traversal is modelled as the sequential composition of its stages' outcomes, and a restart simply drops the previous traversal.
- Failed stages are modelled as the code behaves: a stage that raises writes no sentinel, so a reader or `next` behind it waits forever (`Blocked`, `Hangs`).
- Drain.Download: the exit event that `_reset` sets from another thread is not modelled. A drain that has not met its count when its polls end is `Pending`, which means only that it is still polling and has written no sentinel yet. In the source the exit event ends the loop; the drain then writes its sentinel (line 450), and `_reset` drains it from the queue.
- Iteration.ForLoopOverLoader: a `for` loop behind a drain that is still polling waits; the model does not follow a `_reset` from another thread that would end it.
- `_request_kafka` (creating the topic and running the query with a producer) is left out, because it only talks to the engine and the broker. A broker traversal takes the polls it receives as a parameter (`Source.Broker`).
- Engine calls (`getSchema`, `getVertexCount`, `runInstalledQuery`, `install_query_file`) and the random loader id are parameters: a schema, the counts, the response records and `randomId`.
- The base class's `__init__` Kafka client construction, its connection errors and the `ImportError`s for missing torch, DGL or PyG are left out, because they are environment failures.
- The base class's `fetch`, `_install_query` and `_start`, which raise `NotImplementedError`, are left out. Every loader is modelled through its subclass.
- `_parse_data`'s pandas and torch numerics are abstracted. A cell is an integer or text, and `read_csv` is modelled on already-split rows, checking names and row widths. Type casts (`astype`), `str.split` on text columns, `hstack`/`squeeze` and float precision are not modelled; a tensor is the list of its columns.
- Columns.Decode: `read_csv` with names pads a row shorter than the names with NaN and succeeds, and reads the extra leading fields of uniformly wider rows as the index. The model has no missing cell and rejects every row whose width differs from the names.
- Reindex.KindOf: the merge's dtype check is modelled only for integer against text key columns. Float keys and the decoder's refusal of empty input are not modelled, and a column without cells is taken to merge with anything.
- Reindex.JoinFiltersWhenIdsDistinct: "in order" is the inner merge keeping the left table's order, as pandas 2.2 and later do. Earlier pandas versions group the merged rows by key, which reorders `edge_index`.
- Attributes.StripAll: the source strips the caller's list in place (lines 224-225 and 283-284), which the caller can see afterwards. The model returns the stripped list and leaves the argument unchanged.
- Tables.Concat: a blob is a sequence of rows, so `"".join` of CSV pieces is modelled as the concatenation of their rows. This assumes every piece the engine or the broker sends ends in a newline; a piece without one would run into the next piece's first row.
- Self loops are recorded as a flag on the graph (`selfLoops`), not materialised as extra edges. DGL's edge count (`NumEdges`) counts one loop per node when the flag is set.
- Parser.Fits: a tensor has one row per table row. `attr_to_tensor` ends with `squeeze()`, which turns the tensor of a one-row table into a row of its columns (or a scalar), so DGL's size check on one-row batches is not modelled.
- Parser.CheckedGraph: DGL's size check is made after all features are read. The source checks each assignment right after its read, so a batch with both a size mismatch and a later feature error raises the size error first in the source and the feature error in the model.
- Parser.InferredNodes: negative endpoints (only possible without `reindex`) and DGL's own refusal of them are not modelled; the inferred count only bounds the endpoints from above.
- Attributes.Selection: a selection that is truthy but neither a string, a list nor a dict (a tuple or a set) falls through to `return attributes` unvalidated (lines 253 and 294). The datatype cannot express such a value, so that path is not modelled.
- `Text.Lower`: lowercases ASCII letters only, not the full Unicode case mapping of Python's `str.lower`.
- Loaders.CeilDiv: the ceiling of the exact rational quotient; Python computes `math.ceil` on a float, which can differ for totals above 2^53.
- Loaders.BaseParams: the query parameter dictionary is a record of optional fields, because the engine reads parameters by name and their insertion order is unobservable.
- Loaders.QueryReplacements: only the entries for the suffix and the two attribute placeholders are modelled, not `install_query_file`'s text substitution.
- Loaders.FetchKeepsWf: stated only for loaders with no selected attribute called `primary_id`, because fetch overwrites that attribute's type with `str`.
- Drain.FeedPairs: the pairing property is stated for keys whose batch id does not itself contain `vertex` or `edge`; `Drain.SideWordInsideId` shows what replace-all does otherwise.
- Iteration.Restart: the source of each traversal's raw batches is a function of the loader's counter (`sources`), standing in for the engine and broker.

## Findings

The loaders' pipeline (`Loaders`, `Iteration`) runs the code as written: the edge validator that reads the vertex schema, the `extra_data` reset, the inferred DGL node count, the self loops before the edge data, and the `==` count test of the drain. Each corrected definition stands beside it with its intended property proved.

| source | as written | input that shows it | evidently intended | confidence | as-written member | corrected member |
|---|---|---|---|---|---|---|
| pyTigerGraph/gds/dataloaders.py:286 | the per-type branch of `_validate_edge_attributes` reads the allow-list from the vertex schema `_v_schema[etype]` | vertex type `Person`, edge type `Follows`, selection `{"Follows": [...]}`: `_v_schema["Follows"]` raises `KeyError` | the allow-list comes from the edge schema, as in the membership test on line 279, so the branch reaches its `NotImplementedError` | not executed | Attributes.ValidateEdgeAttributes, Attributes.EdgePerTypeLooksUpVertexSchema | Attributes.ValidateEdgeAttributesCorrected |
| pyTigerGraph/gds/dataloaders.py:685-687 | the DGL branch resets `data.extra_data = {}` before storing the vertex extras, after the edge extras were stored | a direct `_parse_data` call with `in_format="graph_str"`, `out_format="dgl"`, `e_extra_feats=["text"]` typed `STRING` and `v_extra_feats=["is_seed"]`: the vertex side resets `extra_data` and `text` is lost. No loader reaches it: `_udf_funcs` has no `STRING` entry (lines 35-40), so a loader with a string edge extra fails to install its query (975-981), and for non-string edge extras the two definitions agree | the vertex side adds to the dictionary the edge side created | not executed | Parser.DglExtraDataAsWritten, Parser.SeedExtraHidesEdgeText, Parser.DglExtraDataDropsEdgeLists | Parser.DglExtraData, Parser.ResetLatentForNumericExtras |
| pyTigerGraph/gds/dataloaders.py:611 | the DGL branch builds `dgl.graph((u, v))` without `num_nodes`, so the node count is one more than the largest endpoint, and every `ndata` assignment (673, 680, 697, 712) needs that many rows | vertex ids 7 and 8 with the extra `is_seed` typed `BOOL`, one edge 7 to 7, `reindex` and `out_format="dgl"`: the graph has one node and `ndata["is_seed"]` gets two rows, so DGL raises | `dgl.graph((u, v), num_nodes=len(vertices))` | not executed | Parser.TrailingIsolatedVertexFails | Parser.DglIntended, Parser.CorrectedDglDataFits |
| pyTigerGraph/gds/dataloaders.py:612-613 | `dgl.add_self_loop` runs before the edge data is assigned, so the graph has N more edges than the edge table has rows and every `edata` assignment (623, 630, 647, 662) raises | `add_self_loop=True`, `e_in_feats=["w"]`, `reindex`, any batch with an edge: the graph has more edges than `w` has rows | assign the edge data first and add the self loops last, which DGL pads | not executed | Parser.SelfLoopsLeaveNoEdges | Parser.DglIntended, Parser.CorrectedDglDataFits |
| pyTigerGraph/gds/dataloaders.py:418 | the Kafka drain compares the counter with `num_batches` using `==`, and only between polls | `num_batches=1` and polls `[k1, k2]` then `[k3]` outside tuple mode: the first poll queues two batches, the counter is 2, and `2 == 1` never holds again, so the drain keeps polling without a sentinel until `_reset` sets the exit event from another thread | the drain stops once it has delivered at least `num_batches` (`>=`) | not executed | Drain.OvershootExample | Drain.DownloadAtLeastFinishes |

=== FILE: attributes.dfy ===
/** The attribute resolver: `_validate_vertex_attributes` and
    `_validate_edge_attributes` check a caller's attribute selection against
    the schema cache and return the names with surrounding whitespace
    stripped. Validation is all-or-nothing: one unknown name rejects the
    whole selection. */
module Attributes {
  import opened Errors
  import opened Dicts
  import opened Text
  import opened Schema

  /** The shapes of selection a caller can pass. */
  datatype Selection =
    | Unset                                        // None
    | Str(s: string)                               // the deprecated single-string form
    | Names(names: seq<string>)                    // one list that applies to every type
    | PerType(entries: Dict<string, seq<string>>)  // type name -> list of names

  /** Python truthiness: `None`, `""`, `[]` and `{}` select nothing. */
  predicate Falsy(sel: Selection) {
    match sel
    case Unset => true
    case Str(s) => s == []
    case Names(ns) => ns == []
    case PerType(es) => es == []
  }

  /** The list after `attributes[i] = attributes[i].strip()` for every `i`. */
  function StripAll(names: seq<string>): (r: seq<string>)
    ensures |r| == |names|
    ensures forall i :: 0 <= i < |names| ==> r[i] == Strip(names[i])
  {
    seq(|names|, i requires 0 <= i < |names| => Strip(names[i]))
  }

  lemma StripAllIdempotent(names: seq<string>)
    ensures StripAll(StripAll(names)) == StripAll(names)
  {
    forall i | 0 <= i < |names| ensures Strip(Strip(names[i])) == Strip(names[i]) {
      StripIdempotent(names[i]);
    }
  }

  /** `not set(names) - allowlist`. */
  predicate Covers(names: seq<string>, attrs: TypeAttrs) {
    forall n :: n in names ==> n in attrs
  }

  /** Every name is an attribute of every type of `schema`. */
  predicate AvailableEverywhere(names: seq<string>, schema: Schema) {
    forall t :: 0 <= t < |schema| ==> Covers(names, schema[t].1)
  }

  /** The first type, in schema order, that lacks one of `names`: the type
      the `ValueError` message names. */
  function FirstLacking(names: seq<string>, schema: Schema): (r: Option<string>)
    ensures r.None? <==> AvailableEverywhere(names, schema)
    ensures r.Some? ==> r.value in Keys(schema)
    ensures r.Some? ==> exists t :: 0 <= t < |schema| && schema[t].0 == r.value
                                  && !Covers(names, schema[t].1)
                                  && AvailableEverywhere(names, schema[..t])
  {
    if schema == [] then None
    else if !Covers(names, schema[0].1) then
      assert AvailableEverywhere(names, schema[..0]);
      assert Keys(schema)[0] == schema[0].0;
      Some(schema[0].0)
    else
      var r := FirstLacking(names, schema[1..]);
      assert forall t :: 0 < t <= |schema| ==> schema[..t] == [schema[0]] + schema[1..][..t - 1];
      assert Keys(schema) == [schema[0].0] + Keys(schema[1..]);
      r
  }

  /** One entry of a per-type selection passes the checks of the dict branch. */
  predicate EntryAccepted(entry: (string, seq<string>), allow: Schema, lookup: Schema) {
    && entry.0 in Keys(allow)
    && Get(lookup, entry.0).Some?
    && Covers(StripAll(entry.1), Get(lookup, entry.0).value)
  }

  /** The dict branch's loop: the first failing check, in entry order.
      Membership is decided against `allow`, the allow-list is read from
      `lookup`. */
  function CheckPerType(entries: Dict<string, seq<string>>, allow: Schema, lookup: Schema): (r: Option<Error>)
    ensures r.None? <==> forall i :: 0 <= i < |entries| ==> EntryAccepted(entries[i], allow, lookup)
    ensures r.Some? ==> r.value.TypeUnavailable? || r.value.KeyMissing? || r.value.AttributesUnavailable?
  {
    if entries == [] then None
    else
      var (t, ns) := entries[0];
      if t !in Keys(allow) then Some(TypeUnavailable(t))
      else match Get(lookup, t)
        case None => Some(KeyMissing(t))
        case Some(attrs) =>
          if !Covers(StripAll(ns), attrs) then Some(AttributesUnavailable(t))
          else
            var r := CheckPerType(entries[1..], allow, lookup);
            assert forall i :: 1 <= i < |entries| ==> entries[i] == entries[1..][i - 1];
            r
  }

  /** The shared body of both validators. The list branch checks every
      type of `allow`; the dict branch checks membership in `allow` and
      reads each type's allow-list from `lookup`. */
  function ValidateSelection(sel: Selection, allow: Schema, lookup: Schema): (r: Result<seq<string>>)
    ensures Falsy(sel) ==> r == Ok([])
    ensures sel.Str? && !Falsy(sel) ==> r == Err(DeprecatedStringSelection)
    ensures sel.Names? && !Falsy(sel) ==>
              (r.Ok? <==> AvailableEverywhere(StripAll(sel.names), allow))
    ensures sel.Names? && r.Ok? ==> r.value == StripAll(sel.names)
    ensures sel.Names? && r.Err? ==> r.error.AttributesUnavailable? && r.error.typeName in Keys(allow)
    ensures sel.PerType? && !Falsy(sel) ==> r.Err?
    ensures sel.PerType? && !Falsy(sel) ==>
              ((forall i :: 0 <= i < |sel.entries| ==> EntryAccepted(sel.entries[i], allow, lookup))
               ==> r == Err(NotImplemented))
  {
    if Falsy(sel) then Ok([])
    else match sel
      case Unset => Ok([])
      case Str(_) => Err(DeprecatedStringSelection)
      case Names(ns) =>
        var stripped := StripAll(ns);
        (match FirstLacking(stripped, allow)
         case None => Ok(stripped)
         case Some(t) => Err(AttributesUnavailable(t)))
      case PerType(es) =>
        match CheckPerType(es, allow, lookup)
        case Some(e) => Err(e)
        case None => Err(NotImplemented)
  }

  /** `_validate_vertex_attributes`. */
  function ValidateVertexAttributes(sel: Selection, vSchema: Schema): (r: Result<seq<string>>)
    ensures r.Ok? ==> AvailableEverywhere(r.value, vSchema)
    ensures r.Ok? ==> (Falsy(sel) && r.value == []) || (sel.Names? && r.value == StripAll(sel.names))
    ensures Falsy(sel) ==> r == Ok([])
    ensures sel.Str? && !Falsy(sel) ==> r == Err(DeprecatedStringSelection)
    ensures sel.Names? ==> (r.Ok? <==> AvailableEverywhere(StripAll(sel.names), vSchema))
  {
    ValidateSelection(sel, vSchema, vSchema)
  }

  /** `_validate_edge_attributes` as written: its dict branch reads the
      allow-list from the VERTEX schema, so an edge type that is not also a
      vertex type fails the lookup. */
  function ValidateEdgeAttributes(sel: Selection, vSchema: Schema, eSchema: Schema): (r: Result<seq<string>>)
    ensures r.Ok? ==> AvailableEverywhere(r.value, eSchema)
    ensures r.Ok? ==> (Falsy(sel) && r.value == []) || (sel.Names? && r.value == StripAll(sel.names))
    ensures Falsy(sel) ==> r == Ok([])
    ensures sel.Str? && !Falsy(sel) ==> r == Err(DeprecatedStringSelection)
    ensures sel.Names? ==> (r.Ok? <==> AvailableEverywhere(StripAll(sel.names), eSchema))
    ensures sel.PerType? && !Falsy(sel) ==>
              (sel.entries[0].0 in Keys(eSchema) && sel.entries[0].0 !in Keys(vSchema)
               ==> r == Err(KeyMissing(sel.entries[0].0)))
  {
    ValidateSelection(sel, eSchema, vSchema)
  }

  /** `_validate_edge_attributes` with the dict branch reading the edge
      schema, as the vertex validator does for vertices. */
  function ValidateEdgeAttributesCorrected(sel: Selection, eSchema: Schema): (r: Result<seq<string>>)
    ensures r.Ok? ==> AvailableEverywhere(r.value, eSchema)
    ensures sel.PerType? && !Falsy(sel) ==> r.Err? && !r.error.KeyMissing?
    ensures sel.PerType? && !Falsy(sel) ==>
              ((forall i :: 0 <= i < |sel.entries| ==>
                  sel.entries[i].0 in Keys(eSchema) &&
                  Covers(StripAll(sel.entries[i].1), Get(eSchema, sel.entries[i].0).value))
               ==> r == Err(NotImplemented))
  {
    if sel.PerType? then
      CheckAgainstItselfNeverMissesKey(sel.entries, eSchema);
      ValidateSelection(sel, eSchema, eSchema)
    else
      ValidateSelection(sel, eSchema, eSchema)
  }

  /** When membership and allow-list come from the same schema, the lookup
      cannot fail. */
  lemma {:induction false} CheckAgainstItselfNeverMissesKey(entries: Dict<string, seq<string>>, schema: Schema)
    ensures CheckPerType(entries, schema, schema).Some? ==> !CheckPerType(entries, schema, schema).value.KeyMissing?
  {
    if entries != [] {
      var t := entries[0].0;
      if t in Keys(schema) {
        assert Get(schema, t).Some?;
        CheckAgainstItselfNeverMissesKey(entries[1..], schema);
      }
    }
  }

  /** Validating an accepted result again returns it unchanged. */
  lemma ValidateIdempotent(sel: Selection, allow: Schema, lookup: Schema)
    requires ValidateSelection(sel, allow, lookup).Ok?
    ensures ValidateSelection(Names(ValidateSelection(sel, allow, lookup).value), allow, lookup)
            == ValidateSelection(sel, allow, lookup)
  {
    if sel.Names? && !Falsy(sel) {
      StripAllIdempotent(sel.names);
    }
  }

  /** Padding a name with whitespace does not change the outcome:
      `" x "` and `"x"` resolve identically. */
  lemma ValidateIgnoresPadding(names: seq<string>, allow: Schema, lookup: Schema)
    ensures ValidateSelection(Names(names), allow, lookup)
            == ValidateSelection(Names(StripAll(names)), allow, lookup)
  {
    StripAllIdempotent(names);
  }

  /** A selection that names something missing from one type is rejected as
      a whole, naming a type of the schema. */
  lemma ValidateAllOrNothing(names: seq<string>, schema: Schema, t: int, n: string)
    requires 0 <= t < |schema|
    requires n in names && Strip(n) !in schema[t].1
    ensures ValidateVertexAttributes(Names(names), schema).Err?
  {
    var i :| 0 <= i < |names| && names[i] == n;
    assert StripAll(names)[i] == Strip(n);
    assert !Covers(StripAll(names), schema[t].1);
  }

  /** A graph with one vertex type `Person` and one edge type `Follows`
      (weight `w`): selecting `{"Follows": ["w"]}` for edges fails the
      vertex-schema lookup instead of reaching the `NotImplementedError`. */
  lemma EdgePerTypeLooksUpVertexSchema()
    ensures var vSchema: Schema := [("Person", map["age" := "INT"])];
            var eSchema: Schema := [("Follows", map["w" := "DOUBLE"])];
            var sel := PerType([("Follows", ["w"])]);
            && ValidateEdgeAttributes(sel, vSchema, eSchema) == Err(KeyMissing("Follows"))
            && ValidateEdgeAttributesCorrected(sel, eSchema) == Err(NotImplemented)
  {
    var vSchema: Schema := [("Person", map["age" := "INT"])];
    var eSchema: Schema := [("Follows", map["w" := "DOUBLE"])];
    assert Keys(eSchema) == ["Follows"];
    assert Keys(vSchema) == ["Person"];
    assert StripAll(["w"]) == ["w"] by {
      assert Strip("w") == "w";
    }
  }
}

=== FILE: columns.dfy ===
/** The tables `_parse_data` decodes: the positional column layout, the
    decoder's checks, column access by name, and the `primary_id` column
    the graph-string path can add. */
module Columns {
  import opened Errors
  import opened Tables

  /** A decoded CSV: column names and the rows under them. */
  datatype Table = Table(columns: seq<string>, rows: seq<Row>)

  /** Every row has one cell per column. */
  predicate Rectangular(t: Table) {
    forall i :: 0 <= i < |t.rows| ==> |t.rows[i]| == |t.columns|
  }

  predicate Distinct(cs: seq<string>) {
    forall i, j :: 0 <= i < j < |cs| ==> cs[i] != cs[j]
  }

  /** `["vid"] + v_in_feats + v_out_labels + v_extra_feats`. */
  function VertexColumns(vIn: seq<string>, vOut: seq<string>, vExtra: seq<string>): (cs: seq<string>)
    ensures |cs| == 1 + |vIn| + |vOut| + |vExtra|
    ensures cs[0] == "vid"
    ensures forall k :: 0 <= k < |vIn| ==> cs[1 + k] == vIn[k]
    ensures forall k :: 0 <= k < |vOut| ==> cs[1 + |vIn| + k] == vOut[k]
    ensures forall k :: 0 <= k < |vExtra| ==> cs[1 + |vIn| + |vOut| + k] == vExtra[k]
  {
    ["vid"] + vIn + vOut + vExtra
  }

  /** `["source", "target"] + e_in_feats + e_out_labels + e_extra_feats`. */
  function EdgeColumns(eIn: seq<string>, eOut: seq<string>, eExtra: seq<string>): (cs: seq<string>)
    ensures |cs| == 2 + |eIn| + |eOut| + |eExtra|
    ensures cs[0] == "source" && cs[1] == "target"
    ensures forall k :: 0 <= k < |eIn| ==> cs[2 + k] == eIn[k]
    ensures forall k :: 0 <= k < |eOut| ==> cs[2 + |eIn| + k] == eOut[k]
    ensures forall k :: 0 <= k < |eExtra| ==> cs[2 + |eIn| + |eOut| + k] == eExtra[k]
  {
    ["source", "target"] + eIn + eOut + eExtra
  }

  /** `read_csv(blob, header=None, names=columns)`: column names must be
      distinct and every row must have one field per name. */
  function Decode(blob: Blob, columns: seq<string>): (r: Result<Table>)
    ensures r.Ok? <==> Distinct(columns) && forall i :: 0 <= i < |blob| ==> |blob[i]| == |columns|
    ensures !Distinct(columns) ==> r == Err(DuplicateColumns)
    ensures r.Err? && Distinct(columns) ==> r.error == RowWidthMismatch
    ensures r.Ok? ==> r.value == Table(columns, blob) && Rectangular(r.value)
  {
    if !Distinct(columns) then Err(DuplicateColumns)
    else if exists i :: 0 <= i < |blob| && |blob[i]| != |columns| then Err(RowWidthMismatch)
    else Ok(Table(columns, blob))
  }

  /** The position of the first column called `n`. */
  function IndexOf(cs: seq<string>, n: string): (r: Option<nat>)
    ensures r.Some? <==> n in cs
    ensures r.Some? ==> r.value < |cs| && cs[r.value] == n
    ensures r.Some? ==> forall k :: 0 <= k < r.value ==> cs[k] != n
  {
    if cs == [] then None
    else if cs[0] == n then Some(0)
    else match IndexOf(cs[1..], n)
      case None => None
      case Some(k) => Some(k + 1)
  }

  /** `df[n]`: the cells of column `n`, row by row. */
  function ColumnValues(t: Table, n: string): (r: Result<seq<Value>>)
    requires Rectangular(t)
    ensures r.Ok? <==> n in t.columns
    ensures r.Err? ==> r.error == KeyMissing(n)
    ensures r.Ok? ==> |r.value| == |t.rows|
    ensures r.Ok? ==> forall i :: 0 <= i < |t.rows| ==> r.value[i] == t.rows[i][IndexOf(t.columns, n).value]
  {
    match IndexOf(t.columns, n)
    case None => Err(KeyMissing(n))
    case Some(k) => Ok(seq(|t.rows|, i requires 0 <= i < |t.rows| => t.rows[i][k]))
  }

  /** `vertices["primary_id"] = primary_id`: the ids become a column,
      replacing one of that name or added after the others; the list must
      have one id per row. */
  function InjectPrimaryId(t: Table, ids: seq<string>): (r: Result<Table>)
    requires Rectangular(t)
    ensures r.Ok? <==> |ids| == |t.rows|
    ensures r.Err? ==> r.error == LengthMismatch
    ensures r.Ok? ==> Rectangular(r.value) && |r.value.rows| == |t.rows|
    ensures r.Ok? ==> "primary_id" in r.value.columns
    ensures r.Ok? ==> r.value.columns == if "primary_id" in t.columns then t.columns
                                         else t.columns + ["primary_id"]
  {
    if |ids| != |t.rows| then Err(LengthMismatch)
    else match IndexOf(t.columns, "primary_id")
      case Some(k) =>
        Ok(Table(t.columns, seq(|t.rows|, i requires 0 <= i < |t.rows| => t.rows[i][k := Str(ids[i])])))
      case None =>
        Ok(Table(t.columns + ["primary_id"], seq(|t.rows|, i requires 0 <= i < |t.rows| => t.rows[i] + [Str(ids[i])])))
  }

  /** After injection the `primary_id` column reads back the ids, and every
      other column reads back what it held before. */
  lemma InjectPrimaryIdReadsBack(t: Table, ids: seq<string>, n: string)
    requires Rectangular(t) && Distinct(t.columns) && |ids| == |t.rows|
    ensures var u := InjectPrimaryId(t, ids).value;
            && ColumnValues(u, "primary_id") == Ok(seq(|ids|, i requires 0 <= i < |ids| => Str(ids[i])))
            && (n != "primary_id" ==> ColumnValues(u, n) == ColumnValues(t, n))
  {
    var u := InjectPrimaryId(t, ids).value;
    var expected := seq(|ids|, i requires 0 <= i < |ids| => Str(ids[i]));
    if "primary_id" !in t.columns {
      IndexOfAppend(t.columns, "primary_id", "primary_id");
      assert ColumnValues(u, "primary_id").value == expected;
      if n != "primary_id" {
        IndexOfAppend(t.columns, "primary_id", n);
        if n in t.columns {
          var j := IndexOf(t.columns, n).value;
          assert forall i :: 0 <= i < |t.rows| ==> u.rows[i][j] == t.rows[i][j];
          assert ColumnValues(u, n).value == ColumnValues(t, n).value;
        }
      }
    } else {
      var k := IndexOf(t.columns, "primary_id").value;
      assert ColumnValues(u, "primary_id").value == expected;
      if n != "primary_id" && n in t.columns {
        var j := IndexOf(t.columns, n).value;
        assert j != k;
        assert forall i :: 0 <= i < |t.rows| ==> u.rows[i][j] == t.rows[i][j];
        assert ColumnValues(u, n).value == ColumnValues(t, n).value;
      }
    }
  }

  lemma {:induction false} IndexOfAppend(cs: seq<string>, extra: string, n: string)
    requires extra !in cs
    ensures IndexOf(cs + [extra], n) == if n in cs then IndexOf(cs, n) else if n == extra then Some(|cs|) else None
  {
    if cs == [] {
      assert cs + [extra] == [extra];
    } else {
      assert (cs + [extra])[1..] == cs[1..] + [extra];
      if cs[0] != n {
        IndexOfAppend(cs[1..], extra, n);
        assert n in cs <==> n in cs[1..];
      }
    }
  }
}

=== FILE: dicts.dfy ===
/** Python dictionaries keep their keys in insertion order, and the loaders
    rely on it (`next(iter(schema.values()))`, `"".join(batch.values())`).
    A `Dict` is therefore an association list; `Put` overwrites in place
    and appends only new keys, exactly like `d[k] = v`. */
module Dicts {
  import opened Errors

  type Dict<K, V> = seq<(K, V)>

  function Keys<K, V>(d: Dict<K, V>): (ks: seq<K>)
    ensures |ks| == |d|
  {
    seq(|d|, i requires 0 <= i < |d| => d[i].0)
  }

  function Values<K, V>(d: Dict<K, V>): (vs: seq<V>)
    ensures |vs| == |d|
  {
    seq(|d|, i requires 0 <= i < |d| => d[i].1)
  }

  /** No key occurs twice: every `Dict` built with `Put` has this shape. */
  predicate UniqueKeys<K(==), V>(d: Dict<K, V>) {
    forall i, j :: 0 <= i < j < |d| ==> d[i].0 != d[j].0
  }

  /** `d.get(k)`: the value stored under the first occurrence of `k`. */
  function Get<K(==), V>(d: Dict<K, V>, k: K): (r: Option<V>)
    ensures r.Some? <==> k in Keys(d)
    ensures r.Some? ==> (k, r.value) in d
    ensures UniqueKeys(d) ==> forall i :: 0 <= i < |d| && d[i].0 == k ==> r == Some(d[i].1)
  {
    if d == [] then None
    else if d[0].0 == k then
      assert Keys(d)[0] == k;
      Some(d[0].1)
    else
      assert Keys(d) == [d[0].0] + Keys(d[1..]);
      Get(d[1..], k)
  }

  /** `d[k] = v`. */
  function Put<K(==,!new), V>(d: Dict<K, V>, k: K, v: V): (r: Dict<K, V>)
    ensures Get(r, k) == Some(v)
    ensures forall j :: j != k ==> Get(r, j) == Get(d, j)
    ensures k in Keys(d) ==> Keys(r) == Keys(d)
    ensures k !in Keys(d) ==> Keys(r) == Keys(d) + [k]
    ensures UniqueKeys(d) ==> UniqueKeys(r)
  {
    if d == [] then [(k, v)]
    else if d[0].0 == k then
      PutOverFirst(d, k, v);
      [(k, v)] + d[1..]
    else
      var rest := Put(d[1..], k, v);
      PutBehindFirst(d, k, v, rest);
      [d[0]] + rest
  }

  /** The contract of `Put`, as one predicate for its two cases. */
  ghost predicate PutSpec<K(!new), V>(d: Dict<K, V>, k: K, v: V, r: Dict<K, V>) {
    && Get(r, k) == Some(v)
    && (forall j :: j != k ==> Get(r, j) == Get(d, j))
    && (k in Keys(d) ==> Keys(r) == Keys(d))
    && (k !in Keys(d) ==> Keys(r) == Keys(d) + [k])
    && (UniqueKeys(d) ==> UniqueKeys(r))
  }

  lemma PutOverFirst<K(!new), V>(d: Dict<K, V>, k: K, v: V)
    requires d != [] && d[0].0 == k
    ensures PutSpec(d, k, v, [(k, v)] + d[1..])
  {
    ConsFacts((k, v), d[1..]);
    ConsFacts(d[0], d[1..]);
    assert d == [d[0]] + d[1..];
  }

  lemma PutBehindFirst<K(!new), V>(d: Dict<K, V>, k: K, v: V, rest: Dict<K, V>)
    requires d != [] && d[0].0 != k
    requires PutSpec(d[1..], k, v, rest)
    ensures PutSpec(d, k, v, [d[0]] + rest)
  {
    ConsFacts(d[0], rest);
    ConsFacts(d[0], d[1..]);
    assert d == [d[0]] + d[1..];
  }

  /** How `Keys`, `Get` and `UniqueKeys` see one entry placed in front of a
      dictionary. */
  lemma ConsFacts<K, V>(x: (K, V), d: Dict<K, V>)
    ensures Keys([x] + d) == [x.0] + Keys(d)
    ensures forall j :: Get([x] + d, j) == if x.0 == j then Some(x.1) else Get(d, j)
    ensures UniqueKeys([x] + d) <==> UniqueKeys(d) && x.0 !in Keys(d)
  {
    ConsKeys(x, d);
    ConsGet(x, d);
    ConsUnique(x, d);
  }

  lemma ConsKeys<K, V>(x: (K, V), d: Dict<K, V>)
    ensures Keys([x] + d) == [x.0] + Keys(d)
  {
  }

  lemma ConsGet<K, V>(x: (K, V), d: Dict<K, V>)
    ensures forall j :: Get([x] + d, j) == if x.0 == j then Some(x.1) else Get(d, j)
  {
    assert ([x] + d)[1..] == d;
  }

  lemma ConsUnique<K, V>(x: (K, V), d: Dict<K, V>)
    ensures UniqueKeys([x] + d) <==> UniqueKeys(d) && x.0 !in Keys(d)
  {
    if UniqueKeys(d) && x.0 !in Keys(d) {
      forall i, j | 0 <= i < j < |[x] + d|
        ensures ([x] + d)[i].0 != ([x] + d)[j].0
      {
        if i == 0 {
          assert Keys(d)[j - 1] == d[j - 1].0;
        }
      }
    }
    if UniqueKeys([x] + d) {
      forall j | 0 <= j < |d| ensures Keys(d)[j] != x.0 {
        assert ([x] + d)[0] == x && ([x] + d)[j + 1] == d[j];
      }
      forall i, j | 0 <= i < j < |d| ensures d[i].0 != d[j].0 {
        assert ([x] + d)[i + 1] == d[i] && ([x] + d)[j + 1] == d[j];
      }
    }
  }

  /** Storing a new key appends it at the end. */
  lemma {:induction false} PutAppends<K(!new), V>(d: Dict<K, V>, k: K, v: V)
    requires k !in Keys(d)
    ensures Put(d, k, v) == d + [(k, v)]
  {
    if d != [] {
      assert Keys(d)[0] == d[0].0;
      assert forall i :: 0 <= i < |d| - 1 ==> Keys(d[1..])[i] == Keys(d)[i + 1];
      PutAppends(d[1..], k, v);
      assert Put(d, k, v) == [d[0]] + Put(d[1..], k, v);
      assert [d[0]] + (d[1..] + [(k, v)]) == d + [(k, v)];
    }
  }

  /** The value the last of a run of assignments gives `k`, if any does. */
  function LastWrite<K(==), V>(writes: seq<(K, V)>, k: K): (r: Option<V>)
    ensures r.None? <==> forall i :: 0 <= i < |writes| ==> writes[i].0 != k
    ensures r.Some? ==> exists i :: 0 <= i < |writes| && writes[i] == (k, r.value)
                                    && forall j :: i < j < |writes| ==> writes[j].0 != k
  {
    if writes == [] then None
    else if writes[|writes| - 1].0 == k then Some(writes[|writes| - 1].1)
    else
      var r := LastWrite(writes[..|writes| - 1], k);
      LastWriteSkips(writes, k, r);
      r
  }

  /** A final assignment to another key does not change `k`'s last write. */
  lemma LastWriteSkips<K, V>(writes: seq<(K, V)>, k: K, r: Option<V>)
    requires writes != [] && writes[|writes| - 1].0 != k
    requires var init := writes[..|writes| - 1];
             && (r.None? <==> forall i :: 0 <= i < |init| ==> init[i].0 != k)
             && (r.Some? ==> exists i :: 0 <= i < |init| && init[i] == (k, r.value)
                                         && forall j :: i < j < |init| ==> init[j].0 != k)
    ensures r.None? <==> forall i :: 0 <= i < |writes| ==> writes[i].0 != k
    ensures r.Some? ==> exists i :: 0 <= i < |writes| && writes[i] == (k, r.value)
                                    && forall j :: i < j < |writes| ==> writes[j].0 != k
  {
    var init := writes[..|writes| - 1];
    assert forall i :: 0 <= i < |init| ==> init[i] == writes[i];
    if r.Some? {
      var i :| 0 <= i < |init| && init[i] == (k, r.value) && forall j :: i < j < |init| ==> init[j].0 != k;
      assert writes[i] == (k, r.value) && forall j :: i < j < |writes| ==> writes[j].0 != k;
    }
  }

  /** An assignment that is never followed by another to the same key
      decides that key. */
  lemma LastWriteAt<K, V>(writes: seq<(K, V)>, i: int)
    requires 0 <= i < |writes|
    requires forall j :: i < j < |writes| ==> writes[j].0 != writes[i].0
    ensures LastWrite(writes, writes[i].0) == Some(writes[i].1)
  {
    var k := writes[i].0;
    var r := LastWrite(writes, k);
    assert r.Some?;
    var i' :| 0 <= i' < |writes| && writes[i'] == (k, r.value) && forall j :: i' < j < |writes| ==> writes[j].0 != k;
    assert i' == i;
  }

  /** The store after `obj[k] = v` for each assignment in turn, when the
      order of the keys is not observed: each key ends up bound to its last
      assignment, and keys never assigned keep their old value. */
  function Assign<K(==,!new), V>(m: map<K, V>, writes: seq<(K, V)>): (r: map<K, V>)
    ensures forall k :: k in r <==> k in m || LastWrite(writes, k).Some?
    ensures forall k :: k in r ==> r[k] == if LastWrite(writes, k).Some? then LastWrite(writes, k).value else m[k]
  {
    if writes == [] then m
    else
      var last := writes[|writes| - 1];
      Assign(m, writes[..|writes| - 1])[last.0 := last.1]
  }

  /** Assignments made later win: a run of assignments split in two. */
  lemma {:induction false} LastWriteAppend<K, V>(a: seq<(K, V)>, b: seq<(K, V)>, k: K)
    ensures LastWrite(a + b, k) == if LastWrite(b, k).Some? then LastWrite(b, k) else LastWrite(a, k)
  {
    if b == [] {
      assert a + b == a;
    } else {
      var init := b[..|b| - 1];
      assert (a + b)[..|a + b| - 1] == a + init;
      assert (a + b)[|a + b| - 1] == b[|b| - 1];
      if b[|b| - 1].0 != k {
        LastWriteAppend(a, init, k);
      }
    }
  }

  /** A key assigned in `mid` and never after keeps `mid`'s last value. */
  lemma LastWriteDecidedBy<K, V>(pre: seq<(K, V)>, mid: seq<(K, V)>, post: seq<(K, V)>, k: K)
    requires LastWrite(mid, k).Some?
    requires forall i :: 0 <= i < |post| ==> post[i].0 != k
    ensures LastWrite(pre + mid + post, k) == LastWrite(mid, k)
  {
    LastWriteAppend(pre + mid, post, k);
    LastWriteAppend(pre, mid, k);
  }
}

=== FILE: drain.dfy ===
/** `_download_from_kafka`: the stage that drains the broker topic onto the
    reading queue.

    The consumer's polls are an input sequence: each poll is the list of
    messages it returned (an empty poll is the `continue` case). The end of
    the sequence is where the model stops looking: a stage that has not
    met its count by then is still polling and has written no sentinel
    yet. In the source such a stage leaves its loop when `_reset` sets
    the exit event, writes its sentinel after the loop (line 450) and
    `_reset` drains it from the queue; that path is not modelled. In tuple mode
    the drain pairs each vertex message with the edge message of the same
    batch, keyed `vertex<id>` / `edge<id>`; otherwise every message value
    is forwarded as it arrives. */
module Drain {
  import opened Errors
  import opened Text
  import opened Tables
  import opened Stages

  /** A broker message: the decoded key and the raw value. */
  datatype Message = Message(key: string, value: Blob)

  /** The drain's local variables: `buffer`, `delivered_batch`, and what it
      has put on the reading queue so far. */
  datatype DrainState = DrainState(buffer: map<string, Blob>, delivered: nat, queued: seq<Raw>)

  const Start: DrainState := DrainState(map[], 0, [])

  /** The key a message pairs with: `key.replace("vertex", "edge")` for
      vertex keys, `key.replace("edge", "vertex")` for edge keys. Python's
      `replace` rewrites every occurrence, not just the prefix. */
  function Companion(key: string): (r: Option<string>)
    ensures r.Some? <==> "vertex" <= key || "edge" <= key
  {
    if "vertex" <= key then Some(ReplaceAll(key, "vertex", "edge"))
    else if "edge" <= key then Some(ReplaceAll(key, "edge", "vertex"))
    else None
  }

  /** The intended companion: the side word at the front swapped, the batch
      id after it kept. */
  function SwapSide(key: string): (r: string)
    requires "vertex" <= key || "edge" <= key
    ensures "vertex" <= key ==> "edge" <= r && r[4..] == key[6..]
    ensures !("vertex" <= key) ==> "vertex" <= r && r[6..] == key[4..]
  {
    if "vertex" <= key then "edge" + key[6..] else "vertex" + key[4..]
  }

  lemma SwapSideInvolutive(key: string)
    requires "vertex" <= key || "edge" <= key
    ensures SwapSide(SwapSide(key)) == key
  {
    var s := SwapSide(key);
    if "vertex" <= key {
      assert s[0] == 'e' && !("vertex" <= s);
      assert key == "vertex" + key[6..];
    } else {
      assert "vertex" <= s;
      assert key == "edge" + key[4..];
    }
  }

  /** A batch id that does not itself contain a side word. */
  predicate PlainId(id: string) {
    !Contains(id, "vertex") && !Contains(id, "edge")
  }

  /** A key made of a side word and a plain batch id. */
  predicate PlainKey(key: string) {
    || ("vertex" <= key && PlainId(key[6..]))
    || ("edge" <= key && PlainId(key[4..]))
  }

  /** For plain keys, replace-all swaps exactly the side word. */
  lemma CompanionOfPlainKey(key: string)
    requires PlainKey(key)
    ensures Companion(key) == Some(SwapSide(key))
    ensures PlainKey(SwapSide(key))
  {
    if "vertex" <= key {
      assert key[0] == 'v' && !("edge" <= key);
      ReplaceAllAbsent(key[6..], "vertex", "edge");
      assert ReplaceAll(key, "vertex", "edge") == "edge" + ReplaceAll(key[6..], "vertex", "edge");
    } else {
      ReplaceAllAbsent(key[4..], "edge", "vertex");
      assert ReplaceAll(key, "edge", "vertex") == "vertex" + ReplaceAll(key[4..], "edge", "vertex");
    }
  }

  /** One message, as the body of the `for message in msgs` loop handles it. */
  function Step(st: DrainState, m: Message, outTuple: bool): (r: Result<DrainState>)
    ensures r.Err? <==> outTuple && Companion(m.key).None?
    ensures r.Err? ==> r.error == UnrecognizedKey(m.key)
    ensures r.Ok? ==> st.queued <= r.value.queued && |r.value.queued| <= |st.queued| + 1
    ensures r.Ok? ==> r.value.delivered - st.delivered == |r.value.queued| - |st.queued|
    ensures r.Ok? && |r.value.queued| > |st.queued| ==> r.value.queued[|st.queued|].Both? == outTuple
    ensures !outTuple ==> r == Ok(DrainState(st.buffer, st.delivered + 1, st.queued + [One(m.value)]))
    ensures outTuple && r.Ok? ==>
              var c := Companion(m.key).value;
              if c in st.buffer then
                && r.value.buffer == st.buffer - {c}
                && r.value.queued == st.queued + [if "vertex" <= m.key then Both(m.value, st.buffer[c])
                                                  else Both(st.buffer[c], m.value)]
              else
                && r.value.buffer == st.buffer[m.key := m.value]
                && r.value.queued == st.queued
  {
    if !outTuple then
      Ok(DrainState(st.buffer, st.delivered + 1, st.queued + [One(m.value)]))
    else if "vertex" <= m.key then
      var c := ReplaceAll(m.key, "vertex", "edge");
      if c in st.buffer then
        Ok(DrainState(st.buffer - {c}, st.delivered + 1, st.queued + [Both(m.value, st.buffer[c])]))
      else
        Ok(st.(buffer := st.buffer[m.key := m.value]))
    else if "edge" <= m.key then
      var c := ReplaceAll(m.key, "edge", "vertex");
      if c in st.buffer then
        Ok(DrainState(st.buffer - {c}, st.delivered + 1, st.queued + [Both(st.buffer[c], m.value)]))
      else
        Ok(st.(buffer := st.buffer[m.key := m.value]))
    else
      Err(UnrecognizedKey(m.key))
  }

  /** The drain state after some messages, and the error if one of them raised. */
  datatype Fed = Fed(state: DrainState, failure: Option<Error>)

  /** The messages of one poll, in order; the first one that raises stops
      the stage with the state it had reached. */
  function Feed(st: DrainState, msgs: seq<Message>, outTuple: bool): (r: Fed)
    ensures st.queued <= r.state.queued
    ensures r.state.delivered - st.delivered == |r.state.queued| - |st.queued|
    ensures forall i :: |st.queued| <= i < |r.state.queued| ==> r.state.queued[i].Both? == outTuple
    ensures r.failure.Some? ==> outTuple && r.failure.value.UnrecognizedKey?
    decreases |msgs|
  {
    if msgs == [] then Fed(st, None)
    else
      var f := Feed(st, msgs[..|msgs| - 1], outTuple);
      if f.failure.Some? then f
      else match Step(f.state, msgs[|msgs| - 1], outTuple)
        case Err(e) => Fed(f.state, Some(e))
        case Ok(s) => Fed(s, None)
  }

  /** Feeding two runs of messages is feeding their concatenation. */
  lemma {:induction false} FeedAppend(st: DrainState, a: seq<Message>, b: seq<Message>, outTuple: bool)
    ensures Feed(st, a + b, outTuple) ==
            (var f := Feed(st, a, outTuple);
             if f.failure.Some? then f else Feed(f.state, b, outTuple))
    decreases |b|
  {
    if b == [] {
      assert a + b == a;
    } else {
      var b' := b[..|b| - 1];
      FeedAppend(st, a, b', outTuple);
      assert (a + b)[..|a + b| - 1] == a + b';
      assert (a + b)[|a + b| - 1] == b[|b| - 1];
    }
  }

  /** Outside tuple mode every message value is queued, in arrival order. */
  lemma {:induction false} FeedPlain(st: DrainState, msgs: seq<Message>)
    ensures Feed(st, msgs, false).failure.None?
    ensures Feed(st, msgs, false).state.buffer == st.buffer
    ensures Feed(st, msgs, false).state.queued ==
            st.queued + seq(|msgs|, i requires 0 <= i < |msgs| => One(msgs[i].value))
    ensures Feed(st, msgs, false).state.delivered == st.delivered + |msgs|
    decreases |msgs|
  {
    if msgs != [] {
      var init := msgs[..|msgs| - 1];
      FeedPlain(st, init);
      var ones := seq(|msgs|, i requires 0 <= i < |msgs| => One(msgs[i].value));
      var initOnes := seq(|init|, i requires 0 <= i < |init| => One(init[i].value));
      assert ones == initOnes + [One(msgs[|msgs| - 1].value)];
    }
  }

  /** What the `while` loop has done when it stops. `taken` counts the
      polls it consumed. */
  datatype Drained = Drained(state: DrainState, failure: Option<Error>, taken: nat)

  /** The test run before every poll: `delivered_batch == num_batches` as
      written, or `>=`, which also stops after a poll that overshot. */
  datatype CountTest = Equal | AtLeast

  predicate Reached(test: CountTest, delivered: int, numBatches: int) {
    match test
    case Equal => delivered == numBatches
    case AtLeast => delivered >= numBatches
  }

  /** The `while` loop: the count test runs before every poll (never inside
      one), and the loop also stops when the polls given to it run out. */
  function DrainLoop(test: CountTest, polls: seq<seq<Message>>, numBatches: int, outTuple: bool, st: DrainState): (r: Drained)
    ensures r.taken <= |polls|
    ensures Reached(test, st.delivered, numBatches) ==> r == Drained(st, None, 0)
    ensures r.failure.None? && r.taken < |polls| ==> Reached(test, r.state.delivered, numBatches)
    ensures r.failure.Some? ==> r.taken > 0 && outTuple && r.failure.value.UnrecognizedKey?
    ensures st.queued <= r.state.queued
    ensures r.state.delivered - st.delivered == |r.state.queued| - |st.queued|
    ensures forall i :: |st.queued| <= i < |r.state.queued| ==> r.state.queued[i].Both? == outTuple
    decreases |polls|
  {
    if Reached(test, st.delivered, numBatches) || polls == [] then Drained(st, None, 0)
    else
      var f := Feed(st, polls[0], outTuple);
      if f.failure.Some? then Drained(f.state, f.failure, 1)
      else
        var d := DrainLoop(test, polls[1..], numBatches, outTuple, f.state);
        Drained(d.state, d.failure, d.taken + 1)
  }

  /** The loop's state is the fold of `Step` over exactly the polls it took. */
  lemma {:induction false} DrainLoopFeedsTakenPolls(test: CountTest, polls: seq<seq<Message>>, numBatches: int, outTuple: bool, st: DrainState)
    ensures var d := DrainLoop(test, polls, numBatches, outTuple, st);
            Fed(d.state, d.failure) == Feed(st, Concat(polls[..d.taken]), outTuple)
    decreases |polls|
  {
    var d := DrainLoop(test, polls, numBatches, outTuple, st);
    if Reached(test, st.delivered, numBatches) || polls == [] {
      assert polls[..0] == [];
    } else {
      var f := Feed(st, polls[0], outTuple);
      ConcatTake(polls, d.taken);
      if f.failure.None? {
        var d' := DrainLoop(test, polls[1..], numBatches, outTuple, f.state);
        assert d == Drained(d'.state, d'.failure, d'.taken + 1);
        var rest := Concat(polls[1..][..d'.taken]);
        DrainLoopFeedsTakenPolls(test, polls[1..], numBatches, outTuple, f.state);
        assert Feed(f.state, rest, outTuple) == Fed(d'.state, d'.failure);
        FeedAppend(st, polls[0], rest, outTuple);
        assert Feed(st, polls[0] + rest, outTuple) == Feed(f.state, rest, outTuple);
      } else {
        assert d == Drained(f.state, f.failure, 1);
        assert polls[1..][..0] == [];
        FeedAppend(st, polls[0], [], outTuple);
      }
    }
  }

  /** The messages of the first `n` polls: the first poll's, then those of
      the next `n - 1`. */
  lemma ConcatTake(polls: seq<seq<Message>>, n: nat)
    requires 0 < n <= |polls|
    ensures Concat(polls[..n]) == polls[0] + Concat(polls[1..][..n - 1])
  {
    assert polls[..n][1..] == polls[1..][..n - 1];
  }

  /** `_download_from_kafka`: the pairs (or values) delivered, then one
      `None` once the count test stops the loop; an unrecognised key raises
      before any sentinel is written. When the polls run out before the
      count is reached the stage is still polling and has written no
      sentinel yet, so the ending is `Pending`; only the exit event set by
      another thread's `_reset` would end the loop, and the sentinel then
      written is drained by `_reset`. */
  function Download(test: CountTest, polls: seq<seq<Message>>, numBatches: int, outTuple: bool): (o: StageOutcome<Raw>)
    ensures WellTerminated(o)
    ensures o.ending.Failed? ==> outTuple && o.ending.error.UnrecognizedKey?
    ensures !o.ending.Failed? ==> (o.ending.Finished? <==> Reached(test, |Payload(o)|, numBatches))
    ensures forall i :: 0 <= i < |Payload(o)| ==> Payload(o)[i].Both? == outTuple
  {
    var d := DrainLoop(test, polls, numBatches, outTuple, Start);
    Emit(d.state.queued,
         if d.failure.Some? then Failed(d.failure.value)
         else if Reached(test, d.state.delivered, numBatches) then Finished
         else Pending)
  }

  /** The drain's counter equals the number of items it queued, the outcome
      is fixed by the messages of the polls it took, and it is left without
      a sentinel only after taking every poll. */
  lemma DownloadCounts(test: CountTest, polls: seq<seq<Message>>, numBatches: int, outTuple: bool)
    ensures var d := DrainLoop(test, polls, numBatches, outTuple, Start);
            var o := Download(test, polls, numBatches, outTuple);
            && Payload(o) == d.state.queued
            && d.state.delivered == |d.state.queued|
            && Feed(Start, Concat(polls[..d.taken]), outTuple) == Fed(d.state, d.failure)
            && (o.ending.Finished? <==> d.failure.None? && Reached(test, d.state.delivered, numBatches))
            && (o.ending.Pending? ==> d.taken == |polls|)
  {
    DrainLoopFeedsTakenPolls(test, polls, numBatches, outTuple, Start);
  }

  /** Outside tuple mode the stage forwards every value of the polls it
      took, in arrival order, never raises, and finishes exactly when the
      count test accepts the number of values forwarded. */
  lemma DownloadPlain(test: CountTest, polls: seq<seq<Message>>, numBatches: int)
    ensures var o := Download(test, polls, numBatches, false);
            var d := DrainLoop(test, polls, numBatches, false, Start);
            var taken := Concat(polls[..d.taken]);
            && !o.ending.Failed?
            && Payload(o) == seq(|taken|, i requires 0 <= i < |taken| => One(taken[i].value))
            && (o.ending.Finished? <==> Reached(test, |taken|, numBatches))
            && (o.ending.Pending? ==> d.taken == |polls|)
  {
    var d := DrainLoop(test, polls, numBatches, false, Start);
    DrainLoopFeedsTakenPolls(test, polls, numBatches, false, Start);
    FeedPlain(Start, Concat(polls[..d.taken]));
  }

  /** As written, the count is compared only between polls and with `==`:
      one poll carrying more messages than wanted overshoots `num_batches`,
      the test never holds again, and the stage keeps polling without a
      sentinel, although more values than wanted were delivered; it stops
      only when another thread's `_reset` sets the exit event. */
  lemma OvershootExample(a: Blob, b: Blob, c: Blob)
    ensures var o := Download(Equal, [[Message("k1", a), Message("k2", b)], [Message("k3", c)]], 1, false);
            o.ending.Pending? && Payload(o) == [One(a), One(b), One(c)]
  {
    var polls := [[Message("k1", a), Message("k2", b)], [Message("k3", c)]];
    var p0 := polls[0];
    var p1 := polls[1];
    FeedPlain(Start, p0);
    var s1 := Feed(Start, p0, false).state;
    assert s1.queued == [One(a), One(b)];
    FeedPlain(s1, p1);
    var s2 := Feed(s1, p1, false).state;
    assert s2.queued == [One(a), One(b), One(c)];
    assert polls[1..][1..] == [] && polls[1..][0] == p1;
    assert DrainLoop(Equal, polls[1..][1..], 1, false, s2) == Drained(s2, None, 0);
    assert DrainLoop(Equal, polls[1..], 1, false, s1) == Drained(s2, None, 1);
    assert DrainLoop(Equal, polls, 1, false, Start) == Drained(s2, None, 2);
  }

  /** With `>=`, outside tuple mode, the stage writes its sentinel whenever
      the polls carry at least `num_batches` values, and it never forwards
      values from a poll that began after the count was reached. */
  lemma DownloadAtLeastFinishes(polls: seq<seq<Message>>, numBatches: int)
    ensures var o := Download(AtLeast, polls, numBatches, false);
            |Concat(polls)| >= numBatches ==> o.ending.Finished?
    ensures var d := DrainLoop(AtLeast, polls, numBatches, false, Start);
            0 < d.taken ==> |Concat(polls[..d.taken - 1])| < numBatches
  {
    var o := Download(AtLeast, polls, numBatches, false);
    var d := DrainLoop(AtLeast, polls, numBatches, false, Start);
    DownloadPlain(AtLeast, polls, numBatches);
    if o.ending.Pending? {
      assert polls[..d.taken] == polls;
    }
    if 0 < d.taken {
      DrainLoopStopsAtCount(polls, numBatches, Start, d.taken - 1);
    }
  }

  /** With `>=`, outside tuple mode, every poll the loop took began while
      fewer than `num_batches` values had been forwarded. */
  lemma {:induction false} DrainLoopStopsAtCount(polls: seq<seq<Message>>, numBatches: int, st: DrainState, k: nat)
    requires k < DrainLoop(AtLeast, polls, numBatches, false, st).taken
    ensures st.delivered + |Concat(polls[..k])| < numBatches
    decreases |polls|
  {
    if k == 0 {
      assert polls[..0] == [];
    } else {
      FeedPlain(st, polls[0]);
      var f := Feed(st, polls[0], false);
      DrainLoopStopsAtCount(polls[1..], numBatches, f.state, k - 1);
      ConcatTake(polls, k);
    }
  }

  function KeysOf(msgs: seq<Message>): (ks: seq<string>)
    ensures |ks| == |msgs| && forall i :: 0 <= i < |msgs| ==> ks[i] == msgs[i].key
  {
    seq(|msgs|, i requires 0 <= i < |msgs| => msgs[i].key)
  }

  /** `msgs` delivered `v` under key `k`. */
  predicate Sent(msgs: seq<Message>, k: string, v: Blob) {
    exists i :: 0 <= i < |msgs| && msgs[i] == Message(k, v)
  }

  /** A queued pair whose vertex half and edge half came from the two
      messages of one batch. */
  ghost predicate CompletePair(msgs: seq<Message>, item: Raw) {
    && item.Both?
    && exists k :: "vertex" <= k && Sent(msgs, k, item.vertexBlob) && Sent(msgs, SwapSide(k), item.edgeBlob)
  }

  /** Distinct keys made of a side word and a plain batch id. */
  predicate WellKeyed(msgs: seq<Message>) {
    && (forall i :: 0 <= i < |msgs| ==> PlainKey(msgs[i].key))
    && (forall i, j :: 0 <= i < j < |msgs| ==> msgs[i].key != msgs[j].key)
  }

  /** `k` is a plain key that arrived and whose companion has not. */
  ghost predicate Unmatched(msgs: seq<Message>, k: string) {
    k in KeysOf(msgs) && PlainKey(k) && SwapSide(k) !in KeysOf(msgs)
  }

  /** The pairing invariant: the buffer holds exactly the messages whose
      companion has not arrived, every queued item is a complete pair, and
      every message is either buffered or half of a delivered pair. */
  ghost predicate Paired(msgs: seq<Message>, st: DrainState) {
    && BufferIsUnmatched(msgs, st.buffer)
    && BufferWasSent(msgs, st.buffer)
    && AllPairsComplete(msgs, st.queued)
    && 2 * st.delivered + |st.buffer.Keys| == |msgs|
    && st.delivered == |st.queued|
  }

  ghost predicate BufferIsUnmatched(msgs: seq<Message>, buffer: map<string, Blob>) {
    forall k :: k in buffer <==> Unmatched(msgs, k)
  }

  ghost predicate BufferWasSent(msgs: seq<Message>, buffer: map<string, Blob>) {
    forall k :: k in buffer ==> Sent(msgs, k, buffer[k])
  }

  ghost predicate AllPairsComplete(msgs: seq<Message>, queued: seq<Raw>) {
    forall i :: 0 <= i < |queued| ==> CompletePair(msgs, queued[i])
  }

  lemma SentExtends(msgs: seq<Message>, m: Message, k: string, v: Blob)
    requires Sent(msgs, k, v)
    ensures Sent(msgs + [m], k, v)
  {
    var i :| 0 <= i < |msgs| && msgs[i] == Message(k, v);
    assert (msgs + [m])[i] == msgs[i];
  }

  lemma SentLast(msgs: seq<Message>, m: Message)
    ensures Sent(msgs + [m], m.key, m.value)
  {
    assert (msgs + [m])[|msgs|] == m;
  }

  /** How one more message changes which keys are unmatched: it becomes
      unmatched itself unless its companion arrived, in which case the
      companion stops being unmatched. */
  lemma UnmatchedAfter(msgs: seq<Message>, m: Message, j: string)
    requires PlainKey(m.key) && m.key !in KeysOf(msgs)
    requires forall i :: 0 <= i < |msgs| ==> PlainKey(msgs[i].key)
    ensures j != m.key && j != SwapSide(m.key) ==> (Unmatched(msgs + [m], j) <==> Unmatched(msgs, j))
    ensures !Unmatched(msgs + [m], SwapSide(m.key))
    ensures Unmatched(msgs + [m], m.key) <==> SwapSide(m.key) !in KeysOf(msgs)
  {
    var ks := KeysOf(msgs + [m]);
    assert ks == KeysOf(msgs) + [m.key];
    SwapSideInvolutive(m.key);
    if PlainKey(j) {
      SwapSideInvolutive(j);
    }
  }

  /** Every queued pair stays complete when more messages arrive. */
  lemma PairsExtend(msgs: seq<Message>, m: Message, queued: seq<Raw>)
    requires AllPairsComplete(msgs, queued)
    ensures AllPairsComplete(msgs + [m], queued)
  {
    forall i | 0 <= i < |queued| ensures CompletePair(msgs + [m], queued[i]) {
      var item := queued[i];
      var w :| "vertex" <= w && Sent(msgs, w, item.vertexBlob) && Sent(msgs, SwapSide(w), item.edgeBlob);
      SentExtends(msgs, m, w, item.vertexBlob);
      SentExtends(msgs, m, SwapSide(w), item.edgeBlob);
    }
  }

  /** A message whose companion is buffered completes a pair. */
  lemma PairingStepKeepsPaired(msgs: seq<Message>, st: DrainState, m: Message)
    requires Paired(msgs, st)
    requires PlainKey(m.key) && m.key !in KeysOf(msgs)
    requires forall i :: 0 <= i < |msgs| ==> PlainKey(msgs[i].key)
    requires SwapSide(m.key) in st.buffer
    ensures Step(st, m, true).Ok?
    ensures Paired(msgs + [m], Step(st, m, true).value)
  {
    var k := m.key;
    var c := SwapSide(k);
    CompanionOfPlainKey(k);
    var item := if "vertex" <= k then Both(m.value, st.buffer[c]) else Both(st.buffer[c], m.value);
    var r := DrainState(st.buffer - {c}, st.delivered + 1, st.queued + [item]);
    assert Step(st, m, true) == Ok(r);
    PairedAfterPairing(msgs, st, m, item);
  }

  lemma PairedAfterPairing(msgs: seq<Message>, st: DrainState, m: Message, item: Raw)
    requires Paired(msgs, st)
    requires PlainKey(m.key) && m.key !in KeysOf(msgs)
    requires forall i :: 0 <= i < |msgs| ==> PlainKey(msgs[i].key)
    requires SwapSide(m.key) in st.buffer
    requires item == if "vertex" <= m.key then Both(m.value, st.buffer[SwapSide(m.key)])
                     else Both(st.buffer[SwapSide(m.key)], m.value)
    ensures Paired(msgs + [m], DrainState(st.buffer - {SwapSide(m.key)}, st.delivered + 1, st.queued + [item]))
  {
    var c := SwapSide(m.key);
    var buffer := st.buffer - {c};
    assert BufferIsUnmatched(msgs + [m], buffer) by {
      UnmatchedAfterPairing(msgs, st.buffer, m);
    }
    assert BufferWasSent(msgs + [m], buffer) by {
      SentAfterRemoval(msgs, st.buffer, m, c);
    }
    assert AllPairsComplete(msgs + [m], st.queued + [item]) by {
      PairCompletes(msgs, st.buffer, m, item);
      PairsExtend(msgs, m, st.queued);
      AppendCompletePair(msgs + [m], st.queued, item);
    }
    assert |buffer.Keys| == |st.buffer.Keys| - 1 by {
      assert buffer.Keys == st.buffer.Keys - {c};
    }
  }

  lemma UnmatchedAfterPairing(msgs: seq<Message>, buffer: map<string, Blob>, m: Message)
    requires BufferIsUnmatched(msgs, buffer)
    requires PlainKey(m.key) && m.key !in KeysOf(msgs)
    requires forall i :: 0 <= i < |msgs| ==> PlainKey(msgs[i].key)
    requires SwapSide(m.key) in buffer
    ensures BufferIsUnmatched(msgs + [m], buffer - {SwapSide(m.key)})
  {
    forall j ensures j in buffer - {SwapSide(m.key)} <==> Unmatched(msgs + [m], j) {
      UnmatchedAfter(msgs, m, j);
    }
  }

  lemma UnmatchedAfterBuffering(msgs: seq<Message>, buffer: map<string, Blob>, m: Message)
    requires BufferIsUnmatched(msgs, buffer)
    requires PlainKey(m.key) && m.key !in KeysOf(msgs)
    requires forall i :: 0 <= i < |msgs| ==> PlainKey(msgs[i].key)
    requires SwapSide(m.key) !in KeysOf(msgs)
    ensures BufferIsUnmatched(msgs + [m], buffer[m.key := m.value])
  {
    forall j ensures j in buffer[m.key := m.value] <==> Unmatched(msgs + [m], j) {
      UnmatchedAfter(msgs, m, j);
    }
  }

  lemma SentAfterRemoval(msgs: seq<Message>, buffer: map<string, Blob>, m: Message, c: string)
    requires BufferWasSent(msgs, buffer)
    ensures BufferWasSent(msgs + [m], buffer - {c})
  {
    forall j | j in buffer - {c} ensures Sent(msgs + [m], j, (buffer - {c})[j]) {
      SentExtends(msgs, m, j, buffer[j]);
    }
  }

  lemma SentAfterBuffering(msgs: seq<Message>, buffer: map<string, Blob>, m: Message)
    requires BufferWasSent(msgs, buffer)
    ensures BufferWasSent(msgs + [m], buffer[m.key := m.value])
  {
    SentLast(msgs, m);
    var b := buffer[m.key := m.value];
    forall j | j in b ensures Sent(msgs + [m], j, b[j]) {
      if j != m.key {
        SentExtends(msgs, m, j, buffer[j]);
      }
    }
  }

  lemma AppendCompletePair(msgs: seq<Message>, queued: seq<Raw>, item: Raw)
    requires AllPairsComplete(msgs, queued)
    requires CompletePair(msgs, item)
    ensures AllPairsComplete(msgs, queued + [item])
  {
    forall i | 0 <= i < |queued + [item]| ensures CompletePair(msgs, (queued + [item])[i]) {
      if i < |queued| {
        assert (queued + [item])[i] == queued[i];
      }
    }
  }

  lemma PairCompletes(msgs: seq<Message>, buffer: map<string, Blob>, m: Message, item: Raw)
    requires PlainKey(m.key)
    requires SwapSide(m.key) in buffer && Sent(msgs, SwapSide(m.key), buffer[SwapSide(m.key)])
    requires item == if "vertex" <= m.key then Both(m.value, buffer[SwapSide(m.key)])
                     else Both(buffer[SwapSide(m.key)], m.value)
    ensures CompletePair(msgs + [m], item)
  {
    var k := m.key;
    var c := SwapSide(k);
    SwapSideInvolutive(k);
    SentLast(msgs, m);
    SentExtends(msgs, m, c, buffer[c]);
    if "vertex" <= k {
      assert Sent(msgs + [m], k, item.vertexBlob) && Sent(msgs + [m], SwapSide(k), item.edgeBlob);
    } else {
      assert "vertex" <= c;
      assert Sent(msgs + [m], c, item.vertexBlob) && Sent(msgs + [m], SwapSide(c), item.edgeBlob);
    }
  }

  /** A message whose companion is not buffered is buffered itself. */
  lemma BufferingStepKeepsPaired(msgs: seq<Message>, st: DrainState, m: Message)
    requires Paired(msgs, st)
    requires PlainKey(m.key) && m.key !in KeysOf(msgs)
    requires forall i :: 0 <= i < |msgs| ==> PlainKey(msgs[i].key)
    requires SwapSide(m.key) !in st.buffer
    ensures Step(st, m, true).Ok?
    ensures Paired(msgs + [m], Step(st, m, true).value)
  {
    var k := m.key;
    var c := SwapSide(k);
    CompanionOfPlainKey(k);
    SwapSideInvolutive(k);
    var r := st.(buffer := st.buffer[k := m.value]);
    assert Step(st, m, true) == Ok(r);
    PairedAfterBuffering(msgs, st, m);
  }

  /** A message whose companion is not buffered: neither it nor its
      companion was sent before. */
  lemma BufferingFresh(msgs: seq<Message>, buffer: map<string, Blob>, m: Message)
    requires BufferIsUnmatched(msgs, buffer)
    requires PlainKey(m.key) && m.key !in KeysOf(msgs)
    requires SwapSide(m.key) !in buffer
    ensures SwapSide(m.key) !in KeysOf(msgs) && m.key !in buffer
  {
    var c := SwapSide(m.key);
    CompanionOfPlainKey(m.key);
    SwapSideInvolutive(m.key);
    assert !Unmatched(msgs, c);
    assert !Unmatched(msgs, m.key);
  }

  lemma PairedAfterBuffering(msgs: seq<Message>, st: DrainState, m: Message)
    requires Paired(msgs, st)
    requires PlainKey(m.key) && m.key !in KeysOf(msgs)
    requires forall i :: 0 <= i < |msgs| ==> PlainKey(msgs[i].key)
    requires SwapSide(m.key) !in st.buffer
    ensures Paired(msgs + [m], st.(buffer := st.buffer[m.key := m.value]))
  {
    var k := m.key;
    var b := st.buffer[k := m.value];
    BufferingFresh(msgs, st.buffer, m);
    assert BufferIsUnmatched(msgs + [m], b) by {
      UnmatchedAfterBuffering(msgs, st.buffer, m);
    }
    assert BufferWasSent(msgs + [m], b) by {
      SentAfterBuffering(msgs, st.buffer, m);
    }
    assert AllPairsComplete(msgs + [m], st.queued) by {
      PairsExtend(msgs, m, st.queued);
    }
    assert |b.Keys| == |st.buffer.Keys| + 1 by {
      assert b.Keys == st.buffer.Keys + {k};
    }
  }

  /** In tuple mode, over distinct plain keys: no key raises, the buffer
      holds exactly the unmatched messages, and every queued item is a
      complete pair from one batch. */
  lemma {:induction false} FeedPairs(msgs: seq<Message>)
    requires WellKeyed(msgs)
    ensures Feed(Start, msgs, true).failure.None?
    ensures Paired(msgs, Feed(Start, msgs, true).state)
    decreases |msgs|
  {
    if msgs == [] {
      assert KeysOf(msgs) == [];
    } else {
      var init := msgs[..|msgs| - 1];
      var m := msgs[|msgs| - 1];
      WellKeyedSplit(msgs);
      FeedPairs(init);
      var st := Feed(Start, init, true).state;
      if SwapSide(m.key) in st.buffer {
        PairingStepKeepsPaired(init, st, m);
      } else {
        BufferingStepKeepsPaired(init, st, m);
      }
      assert Feed(Start, msgs, true) == Fed(Step(st, m, true).value, None);
    }
  }

  lemma WellKeyedSplit(msgs: seq<Message>)
    requires WellKeyed(msgs) && msgs != []
    ensures WellKeyed(msgs[..|msgs| - 1])
    ensures msgs == msgs[..|msgs| - 1] + [msgs[|msgs| - 1]]
    ensures PlainKey(msgs[|msgs| - 1].key)
    ensures msgs[|msgs| - 1].key !in KeysOf(msgs[..|msgs| - 1])
  {
    var init := msgs[..|msgs| - 1];
    forall i | 0 <= i < |init| ensures KeysOf(init)[i] != msgs[|msgs| - 1].key {
      assert init[i] == msgs[i];
    }
  }

  /** The buffer never holds a key together with its companion. */
  lemma PairedBufferHasNoCompanions(msgs: seq<Message>, st: DrainState, k: string)
    requires Paired(msgs, st)
    requires k in st.buffer
    ensures PlainKey(k) && Companion(k) == Some(SwapSide(k)) && SwapSide(k) !in st.buffer
  {
    assert Unmatched(msgs, k);
    CompanionOfPlainKey(k);
    SwapSideInvolutive(k);
    assert !Unmatched(msgs, SwapSide(k));
  }

  /** When both messages of every batch have arrived, the buffer is empty
      and one pair was delivered per batch. */
  lemma AllBatchesComplete(msgs: seq<Message>)
    requires WellKeyed(msgs)
    requires forall i :: 0 <= i < |msgs| ==> SwapSide(msgs[i].key) in KeysOf(msgs)
    ensures var st := Feed(Start, msgs, true).state;
            st.buffer == map[] && 2 * st.delivered == |msgs| && |st.queued| == st.delivered
  {
    FeedPairs(msgs);
    var st := Feed(Start, msgs, true).state;
    forall k ensures !Unmatched(msgs, k) {
      if k in KeysOf(msgs) {
        var i :| 0 <= i < |msgs| && KeysOf(msgs)[i] == k;
        assert SwapSide(msgs[i].key) in KeysOf(msgs);
      }
    }
    assert st.buffer.Keys == {};
  }

  /** Replace-all reaches into the batch id: an edge message whose id
      contains "vertex" names a companion that never arrives, so this
      batch is never delivered. The batch id here is `_vertex1`. */
  lemma SideWordInsideId(a: Blob, b: Blob)
    ensures var st := Feed(Start, [Message("edge" + "_vertex1", a), Message("vertex" + "_vertex1", b)], true);
            && st.failure.None?
            && st.state.delivered == 0
            && "edge" + "_vertex1" in st.state.buffer && "vertex" + "_vertex1" in st.state.buffer
  {
    var e1, v1 := "edge" + "_vertex1", "vertex" + "_vertex1";
    var m1 := Message(e1, a);
    var m2 := Message(v1, b);
    EdgeVertexCompanions();
    var s1 := Step(Start, m1, true);
    assert s1 == Ok(DrainState(map[e1 := a], 0, []));
    assert |"edge" + "_edge1"| != |e1|;
    var s2 := Step(s1.value, m2, true);
    assert s2 == Ok(DrainState(map[e1 := a, v1 := b], 0, []));
    var msgs := [m1, m2];
    assert msgs[..1] == [m1];
    assert [m1][..0] == [];
    assert Feed(Start, [m1], true) == Fed(s1.value, None);
  }

  /** The two companions of the example keys, computed: the edge key's
      companion is the vertex key, but the vertex key's companion has the
      side word inside the id replaced too. */
  lemma EdgeVertexCompanions()
    ensures Companion("edge" + "_vertex1") == Some("vertex" + "_vertex1")
    ensures Companion("vertex" + "_vertex1") == Some("edge" + "_edge1")
  {
    EdgeKeyCompanion();
    VertexKeyCompanion();
    var e1, v1 := "edge" + "_vertex1", "vertex" + "_vertex1";
    assert e1[0] != "vertex"[0] && "edge" <= e1;
    assert "vertex" <= v1;
  }

  lemma EdgeKeyCompanion()
    ensures ReplaceAll("edge" + "_vertex1", "edge", "vertex") == "vertex" + "_vertex1"
  {
    EdgeKeyTail();
    ReplaceAllHead("edge", "_vertex1", "vertex");
  }

  /** No `edge` occurs in `_vertex1`. */
  lemma EdgeKeyTail()
    ensures ReplaceAll("_vertex1", "edge", "vertex") == "_vertex1"
  {
    NoStartKeeps("_vertex1", "edge", "vertex");
  }

  /** `replace` leaves alone a string in which no position starts the
      pattern: each position either differs from the pattern's first
      character, or is followed by a character that differs from its
      second, or is too near the end. */
  lemma {:induction false} NoStartKeeps(s: string, pat: string, rep: string)
    requires |pat| >= 2
    requires forall i :: 0 <= i < |s| ==> s[i] != pat[0] || i + |pat| > |s| || s[i + 1] != pat[1]
    ensures ReplaceAll(s, pat, rep) == s
    decreases |s|
  {
    if s != [] {
      assert forall i :: 0 <= i < |s| - 1 ==> s[1..][i] == s[i + 1];
      NoStartKeeps(s[1..], pat, rep);
      ReplaceAllSkip(s[0], s[1..], pat, rep);
      assert [s[0]] + s[1..] == s;
    }
  }

  lemma VertexKeyCompanion()
    ensures ReplaceAll("vertex" + "_vertex1", "vertex", "edge") == "edge" + "_edge1"
  {
    assert "_vertex1" == ['_'] + ("vertex" + "1");
    ReplaceAllHead("vertex", "_vertex1", "edge");
    ReplaceAllSkip('_', "vertex" + "1", "vertex", "edge");
    ReplaceAllHead("vertex", "1", "edge");
    assert "1" == ['1'] + "";
    ReplaceAllSkip('1', "", "vertex", "edge");
    assert ['_'] + ("edge" + ['1']) == "_edge1";
  }

  /** `replace` on a string that starts with the pattern. */
  lemma ReplaceAllHead(pat: string, t: string, rep: string)
    requires pat != []
    ensures ReplaceAll(pat + t, pat, rep) == rep + ReplaceAll(t, pat, rep)
  {
    assert pat <= pat + t;
    assert (pat + t)[|pat|..] == t;
  }

  /** `replace` on a string that does not start with the pattern. */
  lemma ReplaceAllSkip(c: char, t: string, pat: string, rep: string)
    requires |pat| >= 2 && (c != pat[0] || |t| + 1 < |pat| || (t != [] && t[0] != pat[1]))
    ensures ReplaceAll([c] + t, pat, rep) == [c] + ReplaceAll(t, pat, rep)
  {
    assert ([c] + t)[1..] == t;
    var s := [c] + t;
    if |t| + 1 >= |pat| {
      if c != pat[0] {
        assert s[0] != pat[0];
      } else {
        assert s[1] == t[0] && s[1] != pat[1];
      }
    }
  }
}

=== FILE: errors.dfy ===
/** Failure-carrying values shared by every stage of the loader pipeline.

    Each constructor of `Error` stands for one exception the loaders raise;
    the comment after it names the Python exception class. */
module Errors {

  datatype Option<+T> = None | Some(value: T)

  datatype Error =
    | DeprecatedStringSelection         // ValueError: a bare string attribute selection
    | TypeUnavailable(typeName: string)  // ValueError: per-type selection names an unknown type
    | AttributesUnavailable(typeName: string) // ValueError: a selected name is not an attribute of the type
    | NotImplemented                     // NotImplementedError
    | KeyMissing(key: string)            // KeyError on a dict lookup
    | NoTypes                            // StopIteration from next(iter(...)) over an empty schema
    | UnrecognizedKey(key: string)       // ValueError: broker message key with an unknown prefix
    | UnboundData                        // UnboundLocalError: unknown response type in the REST stage
    | StringFeature(column: string)      // TypeError: string-typed feature or label column
    | GraphFormatNeedsGraph              // ValueError: PyG/DGL output without a vertex and an edge table
    | DuplicateColumns                   // ValueError from the CSV decoder: repeated column names
    | RowWidthMismatch                   // decode error: a row whose width differs from the column list
    | NotATuple                          // the raw unit does not have the shape the input format expects
    | CastError                          // an edge endpoint that is not an integer
    | MergeKeyMismatch                   // ValueError: merging an integer key column with a text one
    | FeatureSizeMismatch                // DGLError: a feature's row count differs from the node or edge count
    | LengthMismatch                     // ValueError: assigned column length differs from the row count
    | BadFetchInput                      // ValueError: fetch() input not a list of two-key dicts
    | NotAnIterator                      // TypeError: __next__ before __iter__
    | EmptyResponse                      // IndexError: the query answered with no records

  datatype Result<+T> = Ok(value: T) | Err(error: Error) {

    predicate IsFailure() {
      Err?
    }

    function PropagateFailure<U>(): Result<U>
      requires Err?
    {
      Err(error)
    }

    function Extract(): T
      requires Ok?
    {
      value
    }
  }
}

=== FILE: iteration.dfy ===
/** The iteration protocol of the loaders: `__iter__`, `__next__` and the
    `data` property, over the data queue of the current traversal. A
    traversal's data queue is the reading stage's output (see
    `Loaders.Traversal`); `sources(n)` is what the engine or the broker
    delivers to the traversal started when the loader's counter was `n`. */
module Iteration {
  import opened Errors
  import opened Stages
  import opened Parser
  import opened Loaders

  /** A loader and its traversal state. `queue` is what is left to read of
      the current data queue, `None` when no traversal has been started;
      `cache` is `_data`, the one batch kept when `num_batches == 1`. */
  datatype State = State(loader: Loader, iterations: nat, armed: bool,
                         cache: Option<Parsed>, queue: Option<seq<Option<Parsed>>>)

  /** A freshly constructed loader. */
  function Initial(l: Loader): State {
    State(l, 0, false, None, None)
  }

  /** `_reset()` then `_start()`: the previous traversal is dropped and a
      new one begins under the current counter. */
  function Restart(st: State, sources: nat -> Source): (r: (State, Plan))
    requires Wf(st.loader)
    ensures Wf(r.0.loader)
    ensures r.0.iterations == st.iterations && r.0.armed == st.armed && r.0.cache == st.cache
    ensures r.0.loader.loaderId == st.loader.loaderId && r.0.loader.consumer == st.loader.consumer
    ensures r.0.loader.numBatches == st.loader.numBatches && r.0.loader.kind == st.loader.kind
    ensures r.1.topic.Some? <==> st.loader.consumer != []
    ensures r.1.topic.Some? ==> r.1.topic.value == Topic(st.loader.loaderId, st.iterations)
    ensures r.0.queue == Some(Traversal(r.0.loader, r.1, sources(st.iterations)).queue)
  {
    var s := Start(st.loader, st.iterations);
    (st.(loader := s.loader, queue := Some(Traversal(s.loader, s.plan, sources(st.iterations)).queue)), s.plan)
  }

  /** What reading `data` gives. */
  datatype DataOutcome =
    | Batch(value: Option<Parsed>)  // the single batch (or `None` when the traversal had none)
    | Itself                        // the loader, when it has several batches
    | Hangs                         // `_data_q.get()` waits for an item that never comes

  /** The `data` property. With one batch, the first read starts a
      traversal and keeps its first item; later reads return the kept item
      without touching the engine. The counter is not advanced. */
  function Data(st: State, sources: nat -> Source): (r: (State, DataOutcome))
    requires Wf(st.loader)
    ensures Wf(r.0.loader) && r.0.iterations == st.iterations && r.0.armed == st.armed
    ensures r.0.loader.loaderId == st.loader.loaderId && r.0.loader.numBatches == st.loader.numBatches
    ensures st.loader.numBatches != 1 ==> r == (st, Itself)
    ensures st.loader.numBatches == 1 && st.cache.Some? ==> r == (st, Batch(st.cache))
    ensures st.loader.numBatches == 1 && st.cache.None? ==>
              var q := Traversal(r.0.loader, Restart(st, sources).1, sources(st.iterations)).queue;
              && r.0.loader == Restart(st, sources).0.loader
              && (q == [] ==> r.1 == Hangs)
              && (q != [] ==> r.1 == Batch(q[0]) && r.0.cache == q[0] && r.0.queue == Some(q[1..]))
  {
    if st.loader.numBatches != 1 then (st, Itself)
    else if st.cache.Some? then (st, Batch(st.cache))
    else
      var (s, _) := Restart(st, sources);
      var q := s.queue.value;
      if q == [] then (s, Hangs)
      else (s.(cache := q[0], queue := Some(q[1..])), Batch(q[0]))
  }

  /** A second read of `data` returns what the first one kept, and starts
      nothing. */
  lemma DataIsCached(st: State, sources: nat -> Source)
    requires Wf(st.loader) && st.loader.numBatches == 1
    requires Data(st, sources).1.Batch? && Data(st, sources).1.value.Some?
    ensures var (s1, d1) := Data(st, sources);
            Data(s1, sources) == (s1, d1)
  {
  }

  /** What `iter(loader)` gives: a one-element list iterator over `data`,
      or the loader itself. */
  datatype IterOutcome = OverData(data: DataOutcome) | OverLoader

  /** `__iter__`. With several batches it drops any running traversal,
      starts the next one, advances the counter and arms `__next__`. */
  function Iter(st: State, sources: nat -> Source): (r: (State, IterOutcome))
    requires Wf(st.loader)
    ensures Wf(r.0.loader)
    ensures r.0.loader.loaderId == st.loader.loaderId && r.0.loader.consumer == st.loader.consumer
    ensures r.0.loader.numBatches == st.loader.numBatches
    ensures st.loader.numBatches == 1 ==> r == (Data(st, sources).0, OverData(Data(st, sources).1))
    ensures st.loader.numBatches != 1 ==>
              && r.1 == OverLoader && r.0.armed && r.0.iterations == st.iterations + 1
              && r.0.queue == Restart(st, sources).0.queue && r.0.loader == Restart(st, sources).0.loader
  {
    if st.loader.numBatches == 1 then
      var (s, d) := Data(st, sources);
      (s, OverData(d))
    else
      var (s, _) := Restart(st, sources);
      (s.(iterations := st.iterations + 1, armed := true), OverLoader)
  }

  /** What one `next(loader)` gives. */
  datatype NextOutcome =
    | Item(batch: Parsed)
    | Stop                    // `StopIteration`
    | Raised(error: Error)    // `TypeError` before `__iter__`
    | Blocked                 // `_data_q.get()` waits for an item that never comes

  /** `__next__`. */
  function Next(st: State): (r: (State, NextOutcome))
    ensures r.0.loader == st.loader && r.0.iterations == st.iterations && r.0.cache == st.cache
    ensures !st.armed ==> r == (st, Raised(NotAnIterator))
    ensures st.armed && st.queue.None? ==> r == (st.(armed := false), Stop)
    ensures r.1.Stop? ==> !r.0.armed
    ensures r.1.Blocked? <==> st.armed && st.queue == Some([])
    ensures r.1.Blocked? ==> r.0 == st
    ensures r.1.Item? <==> st.armed && st.queue.Some? && st.queue.value != [] && st.queue.value[0].Some?
    ensures r.1.Item? ==> st.queue.value[0] == Some(r.1.batch) && r.0 == st.(queue := Some(st.queue.value[1..]))
    ensures r.1.Stop? && st.queue.Some? ==> st.queue.value[0] == None && r.0.queue == Some(st.queue.value[1..])
  {
    if !st.armed then (st, Raised(NotAnIterator))
    else match st.queue
      case None => (st.(armed := false), Stop)
      case Some(q) =>
        if q == [] then (st, Blocked)
        else match q[0]
          case None => (st.(armed := false, queue := Some(q[1..])), Stop)
          case Some(d) => (st.(queue := Some(q[1..])), Item(d))
  }

  /** After `StopIteration` the loader is no longer an iterator: another
      `next` raises until `iter` is called again. */
  lemma NextAfterStopRaises(st: State)
    requires Next(st).1.Stop?
    ensures Next(Next(st).0).1 == Raised(NotAnIterator)
  {
  }

  function QueueLength(st: State): nat {
    if st.queue.Some? then |st.queue.value| else 0
  }

  /** A `for` loop's calls to `next`: the items up to the first outcome
      that is not an item. */
  function ForLoop(st: State): (r: (State, seq<Parsed>, NextOutcome))
    ensures !r.2.Item?
    decreases QueueLength(st)
  {
    var (s, o) := Next(st);
    if o.Item? then
      var (s', items, end) := ForLoop(s);
      (s', [o.batch] + items, end)
    else (s, [], o)
  }

  /** Looping over an armed loader yields the items of its data queue in
      order, then stops when the queue holds its sentinel and waits forever
      when a stage ended without one. */
  lemma {:induction false} ForLoopReadsQueue(st: State, o: StageOutcome<Parsed>)
    requires WellTerminated(o)
    requires st.armed && st.queue == Some(o.queue)
    ensures ForLoop(st).1 == Payload(o)
    ensures ForLoop(st).2 == if o.ending.Finished? then Stop else Blocked
    ensures o.ending.Finished? ==> !ForLoop(st).0.armed && ForLoop(st).0.queue == Some([])
    decreases |o.queue|
  {
    var q := o.queue;
    if q != [] && q[0].Some? {
      var rest := StageOutcome(q[1..], o.ending);
      assert WellTerminated(rest);
      assert Payload(o) == [q[0].value] + Payload(rest);
      ForLoopReadsQueue(Next(st).0, rest);
    } else if q != [] {
      assert |Payload(o)| == 0 && |q| == 1 && q[1..] == [];
      assert Next(st) == (st.(armed := false, queue := Some([])), Stop);
    }
  }

  /** `for batch in loader` with several batches: the loop sees exactly the
      batches of the traversal `__iter__` started, in queue order, and ends
      with `StopIteration` when every stage finished. */
  lemma ForLoopOverLoader(st: State, sources: nat -> Source)
    requires Wf(st.loader) && st.loader.numBatches != 1
    ensures var (s1, _) := Iter(st, sources);
            var (s0, plan) := Restart(st, sources);
            var o := Traversal(s0.loader, plan, sources(st.iterations));
            && ForLoop(s1).1 == Payload(o)
            && ForLoop(s1).2 == (if o.ending.Finished? then Stop else Blocked)
  {
    var (s1, _) := Iter(st, sources);
    var (s0, plan) := Restart(st, sources);
    var o := Traversal(s0.loader, plan, sources(st.iterations));
    ForLoopReadsQueue(s1, o);
  }

  /** Successive `iter` calls start traversals under successive counters,
      so with a broker they read different topics. */
  lemma SuccessiveTraversalsUseDistinctTopics(st: State, sources: nat -> Source)
    requires Wf(st.loader) && st.loader.numBatches != 1 && st.loader.consumer != []
    ensures var s1 := Iter(st, sources).0;
            && Restart(st, sources).1.topic == Some(Topic(st.loader.loaderId, st.iterations))
            && Restart(s1, sources).1.topic == Some(Topic(st.loader.loaderId, st.iterations + 1))
            && Restart(st, sources).1.topic != Restart(s1, sources).1.topic
  {
    var id, n := st.loader.loaderId, st.iterations;
    var s1 := IterAdvances(st, sources);
    RestartTopic(st, sources);
    RestartTopic(s1, sources);
    TopicsDistinct(id, n, n + 1);
  }

  /** `__iter__` with several batches advances the counter and keeps the
      loader's identity and consumer. */
  lemma IterAdvances(st: State, sources: nat -> Source) returns (s1: State)
    requires Wf(st.loader) && st.loader.numBatches != 1
    ensures s1 == Iter(st, sources).0
    ensures Wf(s1.loader) && s1.iterations == st.iterations + 1
    ensures s1.loader.loaderId == st.loader.loaderId && s1.loader.consumer == st.loader.consumer
  {
    s1 := Iter(st, sources).0;
  }

  /** The topic a restart reads. */
  lemma RestartTopic(st: State, sources: nat -> Source)
    requires Wf(st.loader)
    ensures Restart(st, sources).1.topic == if st.loader.consumer != [] then Some(Topic(st.loader.loaderId, st.iterations)) else None
  {
  }
}

=== FILE: loaders.dfy ===
/** The four loaders of `dataloaders.py` as configurations: what each
    constructor derives from its arguments (attribute lists, the batch
    count, the query parameters, the query text replacements), what `_start`
    hands to the pipeline stages, and what `NeighborLoader.fetch` sends and
    parses. Engine calls (the count queries, the query itself) are replaced
    by their answers, passed in as parameters. */
module Loaders {
  import opened Errors
  import opened Dicts
  import opened Text
  import opened Tables
  import opened Schema
  import Attributes
  import opened Columns
  import opened Stages
  import opened Drain
  import opened Parser

  datatype LoaderKind = NeighborLoader | EdgeLoader | VertexLoader | GraphLoader

  /** The loaders whose query reads vertex attributes. */
  predicate ReadsVertices(k: LoaderKind) { !k.EdgeLoader? }

  /** The loaders whose query reads edge attributes. */
  predicate ReadsEdges(k: LoaderKind) { !k.VertexLoader? }

  /** The loaders that batch over edges rather than vertices. */
  predicate CountsEdges(k: LoaderKind) { k.EdgeLoader? || k.GraphLoader? }

  // ---------------------------------------------------------------------
  // Broker addresses

  /** `specific if specific else shared`: a consumer or producer address
      falls back to the shared `kafkaAddress`; an empty address means the
      loader does not use the broker on that side. */
  function ResolveAddress(specific: string, shared: string): (r: string)
    ensures r == specific || r == shared
    ensures r != [] <==> specific != [] || shared != []
    ensures specific != [] ==> r == specific
  {
    if specific != [] then specific else shared
  }

  // ---------------------------------------------------------------------
  // Batch count

  /** Python's `a // b`: the quotient rounded towards minus infinity. */
  function FloorDiv(a: int, b: int): (q: int)
    requires b != 0
    ensures b > 0 ==> q * b <= a < q * b + b
    ensures b < 0 ==> q * b + b < a <= q * b
  {
    if b > 0 then
      var q := a / b;
      assert a == q * b + a % b;
      q
    else
      var q := (-a) / (-b);
      assert -a == q * (-b) + (-a) % (-b);
      q
  }

  /** `r` is the ceiling of the exact quotient `a / b`. */
  predicate IsCeiling(r: int, a: int, b: int) {
    && (b > 0 ==> (r - 1) * b < a <= r * b)
    && (b < 0 ==> r * b <= a < (r - 1) * b)
  }

  /** `math.ceil(a / b)` on exact rationals. */
  function CeilDiv(a: int, b: int): (r: int)
    requires b != 0
    ensures IsCeiling(r, a, b)
  {
    -FloorDiv(-a, b)
  }

  /** The ceiling is unique: `IsCeiling` pins the batch count down. */
  lemma CeilingUnique(r1: int, r2: int, a: int, b: int)
    requires b != 0 && IsCeiling(r1, a, b) && IsCeiling(r2, a, b)
    ensures r1 == r2
  {
  }

  /** With a positive batch size, `r` batches hold every element and one
      fewer would not. */
  lemma CeilingCovers(r: int, a: nat, b: int)
    requires b > 0 && IsCeiling(r, a, b)
    ensures r >= 0
    ensures r * b >= a
    ensures a > 0 ==> r >= 1 && (r - 1) * b < a
  {
  }

  function Sum(xs: seq<nat>): (s: nat)
    ensures xs == [] ==> s == 0
  {
    if xs == [] then 0 else xs[0] + Sum(xs[1..])
  }

  /** The count queries' answers, one entry per type: every element of the
      type, and those whose `filter_by` attribute is non-zero. */
  datatype Counts = Counts(all: seq<nat>, filtered: seq<nat>)

  /** The number the batch size divides: filtered vertices when a filter
      is given, otherwise all elements of the kind the loader batches. */
  function BatchedTotal(filterBy: string, counts: Counts): nat {
    if filterBy != [] then Sum(counts.filtered) else Sum(counts.all)
  }

  /** The batch count of a constructor. Without a batch size the caller's
      `num_batches` is kept; with one, the count is the ceiling of the
      element count over the batch size. The edge and graph loaders cannot
      count filtered edges and refuse a filter together with a batch size. */
  function BatchCount(kind: LoaderKind, batchSize: int, numBatches: int, filterBy: string, counts: Counts): (r: Result<int>)
    ensures batchSize == 0 ==> r == Ok(numBatches)
    ensures r.Err? <==> batchSize != 0 && filterBy != [] && CountsEdges(kind)
    ensures r.Err? ==> r.error == NotImplemented
    ensures r.Ok? && batchSize != 0 ==> IsCeiling(r.value, BatchedTotal(filterBy, counts), batchSize)
  {
    if batchSize == 0 then Ok(numBatches)
    else if filterBy != [] && CountsEdges(kind) then Err(NotImplemented)
    else Ok(CeilDiv(BatchedTotal(filterBy, counts), batchSize))
  }

  // ---------------------------------------------------------------------
  // Query payload

  /** The query's parameter dictionary. Only the presence and value of
      each key reach the engine, so the dictionary is a record of optional
      fields. */
  datatype Params = Params(
    numBatches: int,
    numNeighbors: Option<int>, numHops: Option<int>,   // neighbour loader and `fetch` only
    filterBy: Option<string>,
    shuffle: Option<bool>,                             // not sent by `fetch`
    kafkaAddress: Option<string>,
    kafkaTopic: Option<string>,                        // set by `_start` when consuming from the broker
    inputVertices: Option<seq<(string, string)>>)      // `fetch`: (primary id, type) of each seed

  /** The parameters a constructor sets: `num_batches`, the neighbour
      loader's `num_neighbors` and `num_hops`, `filter_by` when a filter is
      given, `shuffle`, and `kafka_address` when a producer address is
      known. The topic is left for `_start`. */
  function BaseParams(kind: LoaderKind, numBatches: int, numNeighbors: int, numHops: int,
                      filterBy: string, shuffle: bool, producer: string): (p: Params)
    ensures p.numBatches == numBatches && p.shuffle == Some(shuffle)
    ensures p.numNeighbors.Some? <==> kind.NeighborLoader?
    ensures p.numHops.Some? <==> kind.NeighborLoader?
    ensures kind.NeighborLoader? ==> p.numNeighbors == Some(numNeighbors) && p.numHops == Some(numHops)
    ensures p.filterBy.Some? <==> filterBy != []
    ensures p.filterBy.Some? ==> p.filterBy.value == filterBy
    ensures p.kafkaAddress.Some? <==> producer != []
    ensures p.kafkaAddress.Some? ==> p.kafkaAddress.value == producer
    ensures p.kafkaTopic.None? && p.inputVertices.None?
  {
    Params(numBatches,
           if kind.NeighborLoader? then Some(numNeighbors) else None,
           if kind.NeighborLoader? then Some(numHops) else None,
           if filterBy != [] then Some(filterBy) else None,
           Some(shuffle),
           if producer != [] then Some(producer) else None,
           None, None)
  }

  // ---------------------------------------------------------------------
  // Query text replacements

  /** `_udf_funcs`: the engine function that prints an attribute of each
      supported type. */
  function UdfName(ty: string): Option<string> {
    if ty == "INT" then Some("int_to_string")
    else if ty == "BOOL" then Some("bool_to_string")
    else if ty == "FLOAT" || ty == "DOUBLE" then Some("float_to_string")
    else None
  }

  /** What stops an attribute from being printed by the query: it is not
      declared (`KeyError` on the name), or its type has no printing
      function (`KeyError` on the type). */
  function Unloadable(n: string, types: TypeAttrs): Option<Error> {
    if n !in types then Some(KeyMissing(n))
    else if UdfName(types[n]).None? then Some(KeyMissing(types[n]))
    else None
  }

  predicate Loadable(names: seq<string>, types: TypeAttrs) {
    forall k :: 0 <= k < |names| ==> Unloadable(names[k], types).None?
  }

  /** `"{}({}.{})".format(udf, alias, n)`. */
  function UdfCall(types: TypeAttrs, alias: string, n: string): string
    requires Unloadable(n, types).None?
  {
    UdfName(types[n]).value + "(" + alias + "." + n + ")"
  }

  /** The printing calls of `names`, in order, or the first name's problem. */
  function UdfCalls(types: TypeAttrs, alias: string, names: seq<string>): (r: Result<seq<string>>)
    ensures r.Ok? <==> Loadable(names, types)
    ensures r.Ok? ==> |r.value| == |names|
                      && forall k :: 0 <= k < |names| ==> r.value[k] == UdfCall(types, alias, names[k])
    ensures r.Err? ==> exists k :: 0 <= k < |names| && Loadable(names[..k], types)
                                   && Unloadable(names[k], types) == Some(r.error)
  {
    if names == [] then Ok([])
    else match Unloadable(names[0], types)
      case Some(e) =>
        assert Loadable(names[..0], types);
        Err(e)
      case None =>
        var rest := UdfCalls(types, alias, names[1..]);
        assert forall k :: 0 < k < |names| ==> names[1..][k - 1] == names[k];
        assert forall k :: 0 < k <= |names| ==> names[..k] == [names[0]] + names[1..][..k - 1];
        match rest
        case Err(e) => Err(e)
        case Ok(calls) => Ok([UdfCall(types, alias, names[0])] + calls)
  }

  /** The replacement for one attribute placeholder: the calls joined by
      `+","+` when there are attributes, otherwise the placeholder together
      with the separator in front of it is deleted. */
  function AttrsEntry(placeholder: string, types: TypeAttrs, alias: string, names: seq<string>): (r: Result<(string, string)>)
    ensures r.Ok? <==> Loadable(names, types)
    ensures r.Ok? && names == [] ==> r.value == ("+ \",\" + " + placeholder, "")
    ensures r.Ok? && names != [] ==> r.value.0 == placeholder && r.value.1 == Join("+\",\"+", UdfCalls(types, alias, names).value)
    ensures r.Err? ==> r == UdfCalls(types, alias, names).PropagateFailure()
  {
    var calls :- UdfCalls(types, alias, names);
    if names != [] then Ok((placeholder, Join("+\",\"+", calls)))
    else Ok(("+ \",\" + " + placeholder, ""))
  }

  /** `_install_query`'s replacement table: the query-name suffix, and
      one placeholder entry for each side the loader's query reads. */
  datatype Replacements = Replacements(suffix: string, vertexAttrs: Option<(string, string)>,
                                       edgeAttrs: Option<(string, string)>)

  /** `_install_query`'s replacement table. The suffix joins every selected
      name with `_`; each side the loader reads gets one placeholder entry,
      typed by the first type of its schema. */
  function QueryReplacements(kind: LoaderKind, vNames: seq<string>, eNames: seq<string>,
                             vSchema: Schema, eSchema: Schema): (r: Result<Replacements>)
    ensures r.Ok? <==> && (ReadsVertices(kind) ==> |vSchema| > 0 && Loadable(vNames, vSchema[0].1))
                       && (ReadsEdges(kind) ==> |eSchema| > 0 && Loadable(eNames, eSchema[0].1))
    ensures r.Err? ==> r.error == NoTypes || r.error.KeyMissing?
    ensures r.Ok? ==> r.value.suffix == Join("_", if kind.VertexLoader? then vNames
                                                  else if kind.EdgeLoader? then eNames
                                                  else vNames + eNames)
    ensures r.Ok? ==> (r.value.vertexAttrs.Some? <==> ReadsVertices(kind))
                      && (r.value.edgeAttrs.Some? <==> ReadsEdges(kind))
    ensures r.Ok? && ReadsVertices(kind) ==>
              r.value.vertexAttrs == Some(AttrsEntry("{VERTEXATTRS}", vSchema[0].1, "s", vNames).value)
    ensures r.Ok? && ReadsEdges(kind) ==>
              r.value.edgeAttrs == Some(AttrsEntry("{EDGEATTRS}", eSchema[0].1, "e", eNames).value)
  {
    match kind
    case VertexLoader =>
      var vTypes :- FirstTypeAttrs(vSchema);
      var v :- AttrsEntry("{VERTEXATTRS}", vTypes, "s", vNames);
      Ok(Replacements(Join("_", vNames), Some(v), None))
    case EdgeLoader =>
      var eTypes :- FirstTypeAttrs(eSchema);
      var e :- AttrsEntry("{EDGEATTRS}", eTypes, "e", eNames);
      Ok(Replacements(Join("_", eNames), None, Some(e)))
    case _ =>
      var vTypes :- FirstTypeAttrs(vSchema);
      var eTypes :- FirstTypeAttrs(eSchema);
      var v :- AttrsEntry("{VERTEXATTRS}", vTypes, "s", vNames);
      var e :- AttrsEntry("{EDGEATTRS}", eTypes, "e", eNames);
      Ok(Replacements(Join("_", vNames + eNames), Some(v), Some(e)))
  }

  /** The replacement text is empty exactly when there are no names; then
      the key is the placeholder with the separator in front of it, so the
      separator disappears from the query along with the placeholder. */
  lemma AttrsEntryEmptyIffNoNames(placeholder: string, types: TypeAttrs, alias: string, names: seq<string>)
    requires Loadable(names, types)
    ensures var e := AttrsEntry(placeholder, types, alias, names).value;
            && (e.1 == [] <==> names == [])
            && (e.0 == placeholder <==> names != [])
  {
    if names != [] {
      var calls := UdfCalls(types, alias, names).value;
      JoinNonEmpty("+\",\"+", calls);
    }
  }

  lemma {:induction false} JoinNonEmpty(sep: string, parts: seq<string>)
    requires parts != [] && parts[0] != []
    ensures Join(sep, parts) != []
  {
    if |parts| > 1 {
      assert Join(sep, parts) == parts[0] + sep + Join(sep, parts[1..]);
    }
  }

  /** Every attribute the query can print has a type the batch reader
      accepts as a feature: no printable type is a string type. */
  lemma LoadableIsNumericTyped(names: seq<string>, types: TypeAttrs)
    requires Loadable(names, types)
    ensures NumericTyped(names, types)
  {
    assert Lower("INT") == "int" && Lower("BOOL") == "bool";
    assert Lower("FLOAT") == "float" && Lower("DOUBLE") == "double";
    forall k | 0 <= k < |names| ensures !IsStringType(types[names[k]]) {
      assert Unloadable(names[k], types).None?;
      var ty := types[names[k]];
      assert ty[0] in "IBFD" && Lower(ty)[0] == LowerChar(ty[0]);
    }
  }

  /** A loader whose query installs reads only non-string attributes. */
  lemma ReplacementsNumeric(kind: LoaderKind, vNames: seq<string>, eNames: seq<string>, vSchema: Schema, eSchema: Schema)
    requires QueryReplacements(kind, vNames, eNames, vSchema, eSchema).Ok?
    ensures ReadsVertices(kind) ==> |vSchema| > 0 && NumericTyped(vNames, vSchema[0].1)
    ensures ReadsEdges(kind) ==> |eSchema| > 0 && NumericTyped(eNames, eSchema[0].1)
  {
    if ReadsVertices(kind) { LoadableIsNumericTyped(vNames, vSchema[0].1); }
    if ReadsEdges(kind) { LoadableIsNumericTyped(eNames, eSchema[0].1); }
  }

  /** The query file each loader installs: `<kind>_kloader.gsql` when the
      query writes to the broker, `<kind>_hloader.gsql` when it answers
      over HTTP. */
  function QueryTemplate(kind: LoaderKind, producer: string): (path: string)
    ensures |path| > 13
    ensures producer != [] ==> path[|path| - 13..] == "_kloader.gsql"
    ensures producer == [] ==> path[|path| - 13..] == "_hloader.gsql"
  {
    var stem := match kind
      case NeighborLoader => "neighbor"
      case EdgeLoader => "edge"
      case VertexLoader => "vertex"
      case GraphLoader => "graph";
    stem + (if producer != [] then "_kloader.gsql" else "_hloader.gsql")
  }

  /** Different loaders, or the same loader with and without a producer,
      install different queries. */
  lemma QueryTemplateInjective(k1: LoaderKind, p1: string, k2: LoaderKind, p2: string)
    requires QueryTemplate(k1, p1) == QueryTemplate(k2, p2)
    ensures k1 == k2 && (p1 != [] <==> p2 != [])
  {
    var t := QueryTemplate(k1, p1);
    assert |t| == |QueryTemplate(k2, p2)|;
    var n := |t| - 12;
    assert t[n] == QueryTemplate(k2, p2)[n];
  }

  // ---------------------------------------------------------------------
  // Construction

  /** The constructor arguments the model observes. For the vertex loader
      `vIn` holds its `attributes`, for the edge loader `eIn` does; the
      other selections are ignored by those two. */
  datatype LoaderArgs = LoaderArgs(
    vIn: Attributes.Selection, vOut: Attributes.Selection, vExtra: Attributes.Selection,
    eIn: Attributes.Selection, eOut: Attributes.Selection, eExtra: Attributes.Selection,
    batchSize: int, numBatches: int, numNeighbors: int, numHops: int,
    shuffle: bool, filterBy: string, outputFormat: string, addSelfLoop: bool,
    loaderId: string, kafkaAddress: string, consumerAddress: string, producerAddress: string)

  /** A constructed loader. */
  datatype Loader = Loader(
    kind: LoaderKind, loaderId: string, numBatches: int, outputFormat: string,
    consumer: string, producer: string,
    vIn: seq<string>, vOut: seq<string>, vExtra: seq<string>,
    eIn: seq<string>, eOut: seq<string>, eExtra: seq<string>,
    addSelfLoop: bool, params: Params, vSchema: Schema, eSchema: Schema,
    template: string, replacements: Replacements)

  function VNames(l: Loader): seq<string> { l.vIn + l.vOut + l.vExtra }
  function ENames(l: Loader): seq<string> { l.eIn + l.eOut + l.eExtra }

  /** What every constructed loader satisfies and `_start` keeps: the
      schema side the query reads is not empty and types every selected
      name with a non-string type; a side the query does not read has no
      names; the parameters carry the batch count (and, for the neighbour
      loader, the sampling parameters `fetch` copies). */
  predicate Wf(l: Loader) {
    && (ReadsVertices(l.kind) ==> |l.vSchema| > 0 && NumericTyped(VNames(l), l.vSchema[0].1))
    && (ReadsEdges(l.kind) ==> |l.eSchema| > 0 && NumericTyped(ENames(l), l.eSchema[0].1))
    && (!ReadsVertices(l.kind) ==> VNames(l) == [])
    && (!ReadsEdges(l.kind) ==> ENames(l) == [])
    && (l.kind.VertexLoader? ==> l.vOut == [] && l.vExtra == [])
    && (l.kind.EdgeLoader? ==> l.eOut == [] && l.eExtra == [])
    && l.params.numBatches == l.numBatches
    && (l.kind.NeighborLoader? ==> l.params.numNeighbors.Some? && l.params.numHops.Some?)
  }

  /** The six validated attribute lists of a constructor, in its order. */
  datatype Selected = Selected(vIn: seq<string>, vOut: seq<string>, vExtra: seq<string>,
                               eIn: seq<string>, eOut: seq<string>, eExtra: seq<string>)

  /** The loaders that validate all six selections. */
  predicate ReadsBoth(kind: LoaderKind) {
    kind.NeighborLoader? || kind.GraphLoader?
  }

  /** The validations a constructor runs, in its order: the neighbour and
      graph loaders validate six selections, the vertex loader its vertex
      attributes, the edge loader its edge attributes. */
  function Validations(kind: LoaderKind, args: LoaderArgs, vSchema: Schema, eSchema: Schema): (vs: seq<Result<seq<string>>>)
    ensures |vs| == if ReadsBoth(kind) then 6 else 1
  {
    match kind
    case VertexLoader => [Attributes.ValidateVertexAttributes(args.vIn, vSchema)]
    case EdgeLoader => [Attributes.ValidateEdgeAttributes(args.eIn, vSchema, eSchema)]
    case _ => [Attributes.ValidateVertexAttributes(args.vIn, vSchema),
               Attributes.ValidateVertexAttributes(args.vOut, vSchema),
               Attributes.ValidateVertexAttributes(args.vExtra, vSchema),
               Attributes.ValidateEdgeAttributes(args.eIn, vSchema, eSchema),
               Attributes.ValidateEdgeAttributes(args.eOut, vSchema, eSchema),
               Attributes.ValidateEdgeAttributes(args.eExtra, vSchema, eSchema)]
  }

  /** The error of the first failed result, if one failed. */
  function FirstError<T>(rs: seq<Result<T>>): (e: Option<Error>)
    ensures e.None? <==> forall k :: 0 <= k < |rs| ==> rs[k].Ok?
    ensures e.Some? ==> exists k :: 0 <= k < |rs| && rs[k] == Err(e.value)
                                   && forall j :: 0 <= j < k ==> rs[j].Ok?
  {
    if rs == [] then None
    else if rs[0].Err? then Some(rs[0].error)
    else
      var e := FirstError(rs[1..]);
      assert forall k :: 0 < k < |rs| ==> rs[k] == rs[1..][k - 1];
      e
  }

  /** The attribute resolution of a constructor: its validations run one
      after another, the first to raise ends the constructor, and when none
      raises the loader keeps each validated list. */
  function SelectAttributes(kind: LoaderKind, args: LoaderArgs, vSchema: Schema, eSchema: Schema): (r: Result<Selected>)
    ensures r.Ok? && ReadsVertices(kind) ==>
              && Attributes.AvailableEverywhere(r.value.vIn, vSchema)
              && Attributes.AvailableEverywhere(r.value.vOut, vSchema)
              && Attributes.AvailableEverywhere(r.value.vExtra, vSchema)
    ensures r.Ok? && ReadsEdges(kind) ==>
              && Attributes.AvailableEverywhere(r.value.eIn, eSchema)
              && Attributes.AvailableEverywhere(r.value.eOut, eSchema)
              && Attributes.AvailableEverywhere(r.value.eExtra, eSchema)
    ensures r.Ok? && kind.VertexLoader? ==>
              r.value.vOut == r.value.vExtra == r.value.eIn == r.value.eOut == r.value.eExtra == []
    ensures r.Ok? && kind.EdgeLoader? ==>
              r.value.vIn == r.value.vOut == r.value.vExtra == r.value.eOut == r.value.eExtra == []
    ensures kind.VertexLoader? ==> (r.Ok? <==> Attributes.ValidateVertexAttributes(args.vIn, vSchema).Ok?)
    ensures kind.EdgeLoader? ==> (r.Ok? <==> Attributes.ValidateEdgeAttributes(args.eIn, vSchema, eSchema).Ok?)
    ensures r.Ok? <==> FirstError(Validations(kind, args, vSchema, eSchema)).None?
    ensures r.Ok? && !kind.EdgeLoader? ==> Ok(r.value.vIn) == Attributes.ValidateVertexAttributes(args.vIn, vSchema)
    ensures r.Ok? && kind.EdgeLoader? ==> Ok(r.value.eIn) == Attributes.ValidateEdgeAttributes(args.eIn, vSchema, eSchema)
    ensures r.Ok? && ReadsBoth(kind) ==>
              && Ok(r.value.vOut) == Attributes.ValidateVertexAttributes(args.vOut, vSchema)
              && Ok(r.value.vExtra) == Attributes.ValidateVertexAttributes(args.vExtra, vSchema)
              && Ok(r.value.eIn) == Attributes.ValidateEdgeAttributes(args.eIn, vSchema, eSchema)
              && Ok(r.value.eOut) == Attributes.ValidateEdgeAttributes(args.eOut, vSchema, eSchema)
              && Ok(r.value.eExtra) == Attributes.ValidateEdgeAttributes(args.eExtra, vSchema, eSchema)
    ensures r.Err? ==> Some(r.error) == FirstError(Validations(kind, args, vSchema, eSchema))
  {
    var vs := Validations(kind, args, vSchema, eSchema);
    match FirstError(vs)
    case Some(e) => Err(e)
    case None =>
      assert vs[0].Ok?;
      match kind
      case VertexLoader => Ok(Selected(vs[0].value, [], [], [], [], []))
      case EdgeLoader => Ok(Selected([], [], [], vs[0].value, [], []))
      case _ =>
        assert vs[1].Ok? && vs[2].Ok? && vs[3].Ok? && vs[4].Ok? && vs[5].Ok?;
        Ok(Selected(vs[0].value, vs[1].value, vs[2].value, vs[3].value, vs[4].value, vs[5].value))
  }

  /** The selections of a vertex or edge loader leave the other lists empty. */
  predicate Shaped(kind: LoaderKind, sel: Selected) {
    && (kind.VertexLoader? ==> sel.vOut == sel.vExtra == sel.eIn == sel.eOut == sel.eExtra == [])
    && (kind.EdgeLoader? ==> sel.vIn == sel.vOut == sel.vExtra == sel.eOut == sel.eExtra == [])
  }

  /** A constructor after attribute resolution: the batch count, the
      parameters, then the query it installs. */
  function Configure(kind: LoaderKind, args: LoaderArgs, sel: Selected, vSchema: Schema, eSchema: Schema,
                     randomId: string, counts: Counts): (r: Result<Loader>)
    requires Shaped(kind, sel)
    ensures r.Ok? ==> Wf(r.value) && r.value.kind == kind
    ensures r.Ok? ==> r.value.loaderId == (if args.loaderId != [] then args.loaderId else randomId)
    ensures r.Ok? ==> r.value.consumer == ResolveAddress(args.consumerAddress, args.kafkaAddress)
                      && r.value.producer == ResolveAddress(args.producerAddress, args.kafkaAddress)
    ensures r.Ok? ==> r.value.vSchema == vSchema && r.value.eSchema == eSchema
    ensures r.Ok? ==> Ok(r.value.numBatches) == BatchCount(kind, args.batchSize, args.numBatches, args.filterBy, counts)
    ensures r.Ok? ==> r.value.params == BaseParams(kind, r.value.numBatches, args.numNeighbors, args.numHops,
                                                   args.filterBy, args.shuffle, r.value.producer)
    ensures r.Ok? ==> Ok(r.value.replacements) == QueryReplacements(kind, VNames(r.value), ENames(r.value), vSchema, eSchema)
    ensures r.Ok? ==> r.value.template == QueryTemplate(kind, r.value.producer)
    ensures r.Ok? ==> r.value.addSelfLoop == (args.addSelfLoop && !kind.EdgeLoader? && !kind.VertexLoader?)
    ensures BatchCount(kind, args.batchSize, args.numBatches, args.filterBy, counts).Err? ==> r == Err(NotImplemented)
    ensures r.Ok? ==> Selected(r.value.vIn, r.value.vOut, r.value.vExtra, r.value.eIn, r.value.eOut, r.value.eExtra) == sel
    ensures r.Ok? <==> && BatchCount(kind, args.batchSize, args.numBatches, args.filterBy, counts).Ok?
                       && QueryReplacements(kind, sel.vIn + sel.vOut + sel.vExtra, sel.eIn + sel.eOut + sel.eExtra,
                                            vSchema, eSchema).Ok?
    ensures r.Err? && BatchCount(kind, args.batchSize, args.numBatches, args.filterBy, counts).Ok? ==>
              r.error == QueryReplacements(kind, sel.vIn + sel.vOut + sel.vExtra, sel.eIn + sel.eOut + sel.eExtra,
                                           vSchema, eSchema).error
  {
    var n :- BatchCount(kind, args.batchSize, args.numBatches, args.filterBy, counts);
    var producer := ResolveAddress(args.producerAddress, args.kafkaAddress);
    var params := BaseParams(kind, n, args.numNeighbors, args.numHops, args.filterBy, args.shuffle, producer);
    var vNames := sel.vIn + sel.vOut + sel.vExtra;
    var eNames := sel.eIn + sel.eOut + sel.eExtra;
    var reps :- QueryReplacements(kind, vNames, eNames, vSchema, eSchema);
    ReplacementsNumeric(kind, vNames, eNames, vSchema, eSchema);
    Ok(Loader(kind, if args.loaderId != [] then args.loaderId else randomId, n, args.outputFormat,
              ResolveAddress(args.consumerAddress, args.kafkaAddress), producer,
              sel.vIn, sel.vOut, sel.vExtra, sel.eIn, sel.eOut, sel.eExtra,
              args.addSelfLoop && !kind.EdgeLoader? && !kind.VertexLoader?,
              params, vSchema, eSchema, QueryTemplate(kind, producer), reps))
  }

  /** A loader's constructor, engine calls aside: attribute resolution, the
      batch count, the parameters, then the query it installs. `randomId`
      is the identifier `random_string(6)` would have drawn; `counts` are
      the count queries' answers. */
  function NewLoader(kind: LoaderKind, args: LoaderArgs, vSchema: Schema, eSchema: Schema,
                     randomId: string, counts: Counts): (r: Result<Loader>)
    ensures r.Ok? ==> Wf(r.value) && r.value.kind == kind
    ensures r.Ok? ==> r.value.loaderId == (if args.loaderId != [] then args.loaderId else randomId)
    ensures r.Ok? ==> r.value.consumer == ResolveAddress(args.consumerAddress, args.kafkaAddress)
                      && r.value.producer == ResolveAddress(args.producerAddress, args.kafkaAddress)
    ensures r.Ok? && args.batchSize == 0 ==> r.value.numBatches == args.numBatches
    ensures r.Ok? && args.batchSize != 0 ==> IsCeiling(r.value.numBatches, BatchedTotal(args.filterBy, counts), args.batchSize)
    ensures r.Ok? && ReadsVertices(kind) ==>
              && Attributes.AvailableEverywhere(r.value.vIn, vSchema)
              && Attributes.AvailableEverywhere(r.value.vOut, vSchema)
              && Attributes.AvailableEverywhere(r.value.vExtra, vSchema)
    ensures r.Ok? && ReadsEdges(kind) ==>
              && Attributes.AvailableEverywhere(r.value.eIn, eSchema)
              && Attributes.AvailableEverywhere(r.value.eOut, eSchema)
              && Attributes.AvailableEverywhere(r.value.eExtra, eSchema)
    ensures r.Ok? ==> SelectAttributes(kind, args, vSchema, eSchema).Ok?
    ensures r.Ok? ==> SelectAttributes(kind, args, vSchema, eSchema)
                      == Ok(Selected(r.value.vIn, r.value.vOut, r.value.vExtra, r.value.eIn, r.value.eOut, r.value.eExtra))
    ensures r.Ok? <==> var s := SelectAttributes(kind, args, vSchema, eSchema);
                       && s.Ok?
                       && BatchCount(kind, args.batchSize, args.numBatches, args.filterBy, counts).Ok?
                       && QueryReplacements(kind, s.value.vIn + s.value.vOut + s.value.vExtra,
                                            s.value.eIn + s.value.eOut + s.value.eExtra, vSchema, eSchema).Ok?
    ensures SelectAttributes(kind, args, vSchema, eSchema).Err? ==>
              r == Err(SelectAttributes(kind, args, vSchema, eSchema).error)
    ensures (SelectAttributes(kind, args, vSchema, eSchema).Ok? && args.batchSize != 0
             && args.filterBy != [] && CountsEdges(kind)) ==> r == Err(NotImplemented)
  {
    var sel :- SelectAttributes(kind, args, vSchema, eSchema);
    Configure(kind, args, sel, vSchema, eSchema, randomId, counts)
  }

  // ---------------------------------------------------------------------
  // Starting a traversal

  /** What `_start` hands to the stages of one traversal. */
  datatype Plan = Plan(
    topic: Option<string>,   // the broker topic, when a consumer address is set
    params: Params,          // the parameters the requesting stage sends
    respType: string,        // the HTTP stage's response type
    outTuple: bool,          // whether the broker stage pairs vertex and edge messages
    reader: ParseConfig)     // the reading stage's configuration

  datatype Started = Started(loader: Loader, plan: Plan)

  /** `"{}_{}".format(loader_id, iterations)`: the loader's id, an
      underscore, then the decimal digits of the counter. */
  function Topic(loaderId: string, iterations: nat): (t: string)
    ensures loaderId + "_" <= t && |t| > |loaderId| + 1
    ensures forall k :: |loaderId| < k < |t| ==> '0' <= t[k] <= '9'
  {
    var digits := NatToString(iterations);
    assert forall k :: |loaderId| < k < |loaderId + "_" + digits| ==> (loaderId + "_" + digits)[k] == digits[k - |loaderId| - 1];
    loaderId + "_" + digits
  }

  /** Two traversals of one loader never share a topic. */
  lemma TopicsDistinct(loaderId: string, m: nat, n: nat)
    requires m != n
    ensures Topic(loaderId, m) != Topic(loaderId, n)
  {
    if Topic(loaderId, m) == Topic(loaderId, n) {
      var k := |loaderId| + 1;
      assert Topic(loaderId, m)[k..] == NatToString(m);
      assert Topic(loaderId, n)[k..] == NatToString(n);
      NatToStringInjective(m, n);
    }
  }

  /** Setting one more attribute's type keeps a name list non-string typed
      when the new type is not a string type, or names no listed attribute. */
  lemma NumericTypedUpdate(names: seq<string>, t: TypeAttrs, k: string, ty: string)
    requires NumericTyped(names, t)
    requires !IsStringType(ty) || k !in names
    ensures NumericTyped(names, t[k := ty])
  {
  }

  lemma NumericTypedParts(a: seq<string>, b: seq<string>, c: seq<string>, t: TypeAttrs)
    requires NumericTyped(a + b + c, t)
    ensures NumericTyped(a, t) && NumericTyped(b, t) && NumericTyped(c, t)
  {
    assert forall k :: 0 <= k < |a| ==> (a + b + c)[k] == a[k];
    assert forall k :: 0 <= k < |b| ==> (a + b + c)[|a| + k] == b[k];
    assert forall k :: 0 <= k < |c| ==> (a + b + c)[|a| + |b| + k] == c[k];
  }

  lemma BoolIsNotString()
    ensures !IsStringType("bool")
  {
    assert Lower("bool")[0] == 'b';
  }

  /** `_start`: the plan of the traversal numbered `iterations`. The
      neighbour loader marks `is_seed` as a `bool` attribute of the first
      vertex type, in the cached schema itself, and asks the reader for it
      as an extra vertex column. With a consumer address the topic is
      recorded in the loader's parameters. */
  function Start(l: Loader, iterations: nat): (r: Started)
    requires Wf(l)
    ensures Wf(r.loader)
    ensures r.plan.topic.Some? <==> l.consumer != []
    ensures r.plan.topic.Some? ==> r.plan.topic.value == Topic(l.loaderId, iterations)
    ensures r.loader.params == l.params.(kafkaTopic := if r.plan.topic.Some? then r.plan.topic else l.params.kafkaTopic)
    ensures r.plan.params == r.loader.params
    ensures r.loader == l.(vSchema := r.loader.vSchema, params := r.loader.params)
    ensures l.kind.NeighborLoader? ==> Ok(r.loader.vSchema) == SetFirstTypeAttr(l.vSchema, "is_seed", "bool")
    ensures !l.kind.NeighborLoader? ==> r.loader.vSchema == l.vSchema
    ensures KnownFormat(r.plan.reader.inFormat)
    ensures GraphFormat(r.plan.reader.inFormat) <==> r.plan.respType == "both"
    ensures GraphFormat(r.plan.reader.inFormat) <==> r.plan.outTuple
    ensures GraphFormat(r.plan.reader.inFormat) <==> (l.kind.NeighborLoader? || l.kind.GraphLoader?)
    ensures VertexFormat(r.plan.reader.inFormat) <==> l.kind.VertexLoader?
    ensures (r.plan.reader.inFormat in ["graph_bytes", "edge_bytes", "vertex_bytes"]) <==> l.consumer != []
    ensures r.plan.reader.reindex && r.plan.reader.primaryId == []
    ensures r.plan.reader.vIn == l.vIn && r.plan.reader.vOut == l.vOut
    ensures r.plan.reader.vExtra == l.vExtra + (if l.kind.NeighborLoader? then ["is_seed"] else [])
    ensures r.plan.reader.eIn == l.eIn && r.plan.reader.eOut == l.eOut && r.plan.reader.eExtra == l.eExtra
    ensures r.plan.reader.addSelfLoop == l.addSelfLoop
    ensures && NumericTyped(r.plan.reader.vIn, r.plan.reader.vTypes) && NumericTyped(r.plan.reader.vOut, r.plan.reader.vTypes)
            && NumericTyped(r.plan.reader.eIn, r.plan.reader.eTypes) && NumericTyped(r.plan.reader.eOut, r.plan.reader.eTypes)
  {
    var broker := l.consumer != [];
    var topic := if broker then Some(Topic(l.loaderId, iterations)) else None;
    var l' := StartLoader(l, topic);
    var graph := l.kind.NeighborLoader? || l.kind.GraphLoader?;
    Started(l', Plan(topic, l'.params, RespType(l.kind), graph, ReaderConfig(l, l', broker)))
  }

  /** The `resp_type` `_start` gives the HTTP stage. */
  function RespType(kind: LoaderKind): (t: string)
    ensures t == "both" <==> (kind.NeighborLoader? || kind.GraphLoader?)
    ensures t == "vertex" <==> kind.VertexLoader?
    ensures t == "edge" <==> kind.EdgeLoader?
  {
    match kind
    case VertexLoader => "vertex"
    case EdgeLoader => "edge"
    case _ => "both"
  }

  /** The loader as `_start` leaves it: the topic recorded in the parameters,
      and `is_seed` typed `bool` for the neighbour loader. */
  function StartLoader(l: Loader, topic: Option<string>): (l': Loader)
    requires Wf(l)
    ensures Wf(l') && l'.kind == l.kind && l'.eSchema == l.eSchema
    ensures l'.params == l.params.(kafkaTopic := if topic.Some? then topic else l.params.kafkaTopic)
    ensures l' == l.(vSchema := l'.vSchema, params := l'.params)
    ensures l.kind.NeighborLoader? ==> Ok(l'.vSchema) == SetFirstTypeAttr(l.vSchema, "is_seed", "bool")
    ensures !l.kind.NeighborLoader? ==> l'.vSchema == l.vSchema
    ensures ReadsVertices(l.kind) ==> NumericTyped(l.vIn, l'.vSchema[0].1) && NumericTyped(l.vOut, l'.vSchema[0].1)
    ensures ReadsEdges(l.kind) ==> NumericTyped(l.eIn, l.eSchema[0].1) && NumericTyped(l.eOut, l.eSchema[0].1)
  {
    var params := if topic.Some? then l.params.(kafkaTopic := topic) else l.params;
    var vSchema := if l.kind.NeighborLoader? then SetFirstTypeAttr(l.vSchema, "is_seed", "bool").value else l.vSchema;
    var l' := l.(vSchema := vSchema, params := params);
    StartKeepsWf(l, l');
    l'
  }

  /** The `raw_format` of `_start`: bytes from the broker, text over HTTP. */
  function InFormat(kind: LoaderKind, broker: bool): (f: string)
    ensures KnownFormat(f)
    ensures GraphFormat(f) <==> (kind.NeighborLoader? || kind.GraphLoader?)
    ensures VertexFormat(f) <==> kind.VertexLoader?
    ensures (f in ["graph_bytes", "edge_bytes", "vertex_bytes"]) <==> broker
  {
    match kind
    case VertexLoader => if broker then "vertex_bytes" else "vertex_str"
    case EdgeLoader => if broker then "edge_bytes" else "edge_str"
    case _ => if broker then "graph_bytes" else "graph_str"
  }

  /** The reading stage's arguments in `_start`, given the loader with its
      updated schema. */
  function ReaderConfig(l: Loader, l': Loader, broker: bool): (cfg: ParseConfig)
    requires Wf(l) && Wf(l') && l'.kind == l.kind && l'.eSchema == l.eSchema
    requires ReadsVertices(l.kind) ==> NumericTyped(l.vIn, l'.vSchema[0].1) && NumericTyped(l.vOut, l'.vSchema[0].1)
    requires ReadsEdges(l.kind) ==> NumericTyped(l.eIn, l.eSchema[0].1) && NumericTyped(l.eOut, l.eSchema[0].1)
    ensures cfg.inFormat == InFormat(l.kind, broker)
    ensures cfg.reindex && cfg.primaryId == [] && cfg.addSelfLoop == l.addSelfLoop
    ensures cfg.vIn == l.vIn && cfg.vOut == l.vOut
    ensures cfg.vExtra == l.vExtra + (if l.kind.NeighborLoader? then ["is_seed"] else [])
    ensures cfg.eIn == l.eIn && cfg.eOut == l.eOut && cfg.eExtra == l.eExtra
    ensures ReadsVertices(l.kind) ==> cfg.vTypes == l'.vSchema[0].1
    ensures ReadsEdges(l.kind) ==> cfg.eTypes == l.eSchema[0].1
    ensures && NumericTyped(cfg.vIn, cfg.vTypes) && NumericTyped(cfg.vOut, cfg.vTypes)
            && NumericTyped(cfg.eIn, cfg.eTypes) && NumericTyped(cfg.eOut, cfg.eTypes)
    ensures NumericTyped(cfg.eExtra, cfg.eTypes)
  {
    WfEdgeExtras(l);
    var vTypes := if ReadsVertices(l.kind) then l'.vSchema[0].1 else map[];
    var eTypes := if ReadsEdges(l.kind) then l.eSchema[0].1 else map[];
    var vExtra := l.vExtra + (if l.kind.NeighborLoader? then ["is_seed"] else []);
    ParseConfig(InFormat(l.kind, broker), l.vIn, l.vOut, vExtra, vTypes, l.eIn, l.eOut, l.eExtra, eTypes,
                l.addSelfLoop, true, [])
  }

  /** The edge extras of a well-formed loader are typed, and not as
      strings, by the first edge type. */
  lemma WfEdgeExtras(l: Loader)
    requires Wf(l)
    ensures NumericTyped(l.eExtra, if ReadsEdges(l.kind) then l.eSchema[0].1 else map[])
  {
    if ReadsEdges(l.kind) {
      NumericTypedParts(l.eIn, l.eOut, l.eExtra, l.eSchema[0].1);
    }
  }

  /** The schema change of `_start` keeps every selected name non-string
      typed. */
  lemma StartKeepsWf(l: Loader, l': Loader)
    requires Wf(l)
    requires l' == l.(vSchema := l'.vSchema, params := l'.params)
    requires l'.params.numBatches == l.params.numBatches
    requires l'.params.numNeighbors == l.params.numNeighbors && l'.params.numHops == l.params.numHops
    requires l.kind.NeighborLoader? ==> Ok(l'.vSchema) == SetFirstTypeAttr(l.vSchema, "is_seed", "bool")
    requires !l.kind.NeighborLoader? ==> l'.vSchema == l.vSchema
    ensures Wf(l')
    ensures ReadsVertices(l.kind) ==> NumericTyped(l.vIn, l'.vSchema[0].1) && NumericTyped(l.vOut, l'.vSchema[0].1)
    ensures ReadsEdges(l.kind) ==> NumericTyped(l.eIn, l.eSchema[0].1) && NumericTyped(l.eOut, l.eSchema[0].1)
  {
    if l.kind.NeighborLoader? {
      BoolIsNotString();
      NumericTypedUpdate(VNames(l), l.vSchema[0].1, "is_seed", "bool");
    }
    if ReadsVertices(l.kind) {
      NumericTypedParts(l.vIn, l.vOut, l.vExtra, l'.vSchema[0].1);
    }
    if ReadsEdges(l.kind) {
      NumericTypedParts(l.eIn, l.eOut, l.eExtra, l.eSchema[0].1);
    }
  }

  /** Where the raw units of a traversal come from: the query's records
      over HTTP, or the polls of the broker consumer. */
  datatype Source = Http(records: seq<Record>) | Broker(polls: seq<seq<Message>>)

  /** The queue the requesting stages fill: `_request_rest` on the records,
      or `_download_from_kafka` on the polls. */
  function Upstream(l: Loader, p: Plan, src: Source): (o: StageOutcome<Raw>)
    ensures WellTerminated(o)
  {
    match src
    case Http(records) => RequestRest(records, p.respType)
    case Broker(polls) => Download(Equal, polls, l.numBatches, p.outTuple)
  }

  /** The stages agree on the shape of a raw unit: every unit the
      requesting stages queue is a vertex/edge pair exactly when the
      reader's input format is a graph format. So the reader can only
      fail to decode a unit on its contents (duplicate columns, a ragged
      row, a primary-id count), never on its shape or format. */
  lemma ShapesAgree(l: Loader, iterations: nat, src: Source)
    requires Wf(l)
    ensures var st := Start(l, iterations);
            var up := Upstream(st.loader, st.plan, src);
            forall i :: 0 <= i < |Payload(up)| ==>
              && (Payload(up)[i].Both? <==> GraphFormat(st.plan.reader.inFormat))
              && (DecodeRaw(Payload(up)[i], st.plan.reader).Err? ==>
                    var e := DecodeRaw(Payload(up)[i], st.plan.reader).error;
                    e.DuplicateColumns? || e.RowWidthMismatch? || e.LengthMismatch?)
  {
    var st := Start(l, iterations);
    var up := Upstream(st.loader, st.plan, src);
    forall i | 0 <= i < |Payload(up)|
      ensures Payload(up)[i].Both? <==> GraphFormat(st.plan.reader.inFormat)
    {
      if src.Http? {
        assert Shape(src.records[i], st.plan.respType) == Ok(Payload(up)[i]);
      }
    }
  }

  /** What the reading stage does with one raw unit: `_parse_data` with the
      plan's configuration; the parsed batch is what reaches the data queue.
      Its kind follows the output format, read case-insensitively: frames
      (two exactly for a graph format), a PyG store or a DGL graph, and a
      graph output only from a graph format with non-string features. */
  function ReadBatch(cfg: ParseConfig, outFormat: string, raw: Raw): (r: Result<Parsed>)
    ensures r.Ok? <==> ParseData(raw, cfg, outFormat).Ok?
    ensures r.Ok? ==> r.value == ParseData(raw, cfg, outFormat).value.data
    ensures !KnownFormat(cfg.inFormat) ==> r == Err(NotImplemented)
    ensures !GraphOutput(Lower(outFormat)) && Lower(outFormat) != "dataframe" ==> r.Err?
    ensures r.Ok? ==> (raw.Both? <==> GraphFormat(cfg.inFormat))
    ensures r.Ok? ==> (r.value.Pyg? <==> Lower(outFormat) == "pyg") && (r.value.Dgl? <==> Lower(outFormat) == "dgl")
    ensures r.Ok? && Lower(outFormat) == "dataframe" ==>
              (r.value.Frame? <==> !GraphFormat(cfg.inFormat)) && (r.value.Frames? <==> GraphFormat(cfg.inFormat))
    ensures r.Ok? && GraphOutput(Lower(outFormat)) ==>
              && GraphFormat(cfg.inFormat)
              && NumericTyped(cfg.eIn, cfg.eTypes) && NumericTyped(cfg.eOut, cfg.eTypes)
              && NumericTyped(cfg.vIn, cfg.vTypes) && NumericTyped(cfg.vOut, cfg.vTypes)
    ensures r.Ok? && Lower(outFormat) == "dgl" ==> DglConsistent(r.value.graph)
  {
    var p :- ParseData(raw, cfg, outFormat);
    Ok(p.data)
  }

  /** With `reindex`, a graph batch only has edges between vertices of its
      own vertex table. */
  lemma ReadBatchEdgesWithin(cfg: ParseConfig, outFormat: string, raw: Raw)
    requires cfg.reindex && GraphOutput(Lower(outFormat))
    requires Lower(outFormat) == "dgl" || ("edge_index" !in cfg.eExtra && "edge_index" !in cfg.vExtra)
    ensures ReadBatch(cfg, outFormat, raw).Ok? ==> EdgesWithin(ReadBatch(cfg, outFormat, raw).value, |raw.vertexBlob|)
  {
  }

  /** The data queue of one traversal: the reading stage behind the
      requesting stages. */
  function Traversal(l: Loader, p: Plan, src: Source): (o: StageOutcome<Parsed>)
    ensures WellTerminated(o)
    ensures o.ending.Finished? <==>
              && Upstream(l, p, src).ending.Finished?
              && forall i :: 0 <= i < |Payload(Upstream(l, p, src))| ==>
                   ReadBatch(p.reader, l.outputFormat, Payload(Upstream(l, p, src))[i]).Ok?
    ensures |Payload(o)| <= |Payload(Upstream(l, p, src))|
  {
    var up := Upstream(l, p, src);
    var parse := (raw: Raw) => ReadBatch(p.reader, l.outputFormat, raw);
    ReaderBehindStage(up, parse);
    ReadData(up.queue, parse)
  }

  // ---------------------------------------------------------------------
  // NeighborLoader.fetch

  /** What a caller can pass to `fetch`. */
  datatype FetchArg =
    | NoneArg                       // None
    | NotAList(truthy: bool)        // any other non-list object
    | AList(items: seq<FetchItem>)

  datatype FetchItem = NotADict | ADict(entries: Dict<string, string>)

  predicate FalsyArg(a: FetchArg) {
    a.NoneArg? || (a.NotAList? && !a.truthy) || (a.AList? && a.items == [])
  }

  /** Every element is a dictionary with exactly two keys. */
  predicate WellFormedItems(items: seq<FetchItem>) {
    forall k :: 0 <= k < |items| ==> items[k].ADict? && |items[k].entries| == 2
  }

  /** `(i["primary_id"], i["type"])` for one seed. */
  function Seed(d: Dict<string, string>): (r: Result<(string, string)>)
    ensures r.Ok? <==> Get(d, "primary_id").Some? && Get(d, "type").Some?
    ensures Get(d, "primary_id").None? ==> r == Err(KeyMissing("primary_id"))
    ensures Get(d, "primary_id").Some? && Get(d, "type").None? ==> r == Err(KeyMissing("type"))
    ensures r.Ok? ==> r.value == (Get(d, "primary_id").value, Get(d, "type").value)
  {
    match Get(d, "primary_id")
    case None => Err(KeyMissing("primary_id"))
    case Some(id) =>
      match Get(d, "type")
      case None => Err(KeyMissing("type"))
      case Some(t) => Ok((id, t))
  }

  /** The `input_vertices` list, in the caller's order. */
  function Seeds(items: seq<FetchItem>): (r: Result<seq<(string, string)>>)
    requires WellFormedItems(items)
    ensures r.Ok? <==> forall k :: 0 <= k < |items| ==> Seed(items[k].entries).Ok?
    ensures r.Ok? ==> |r.value| == |items|
                      && forall k :: 0 <= k < |items| ==> Ok(r.value[k]) == Seed(items[k].entries)
    ensures r.Err? ==> r.error == KeyMissing("primary_id") || r.error == KeyMissing("type")
  {
    if items == [] then Ok([])
    else
      var s :- Seed(items[0].entries);
      var rest :- Seeds(items[1..]);
      SeedsCons(items, s, rest);
      Ok([s] + rest)
  }

  /** A seed put in front of the seeds of the other items gives the seeds
      of all of them. */
  lemma SeedsCons(items: seq<FetchItem>, s: (string, string), rest: seq<(string, string)>)
    requires WellFormedItems(items) && items != [] && Seed(items[0].entries) == Ok(s)
    requires |rest| == |items| - 1
    requires forall k :: 0 <= k < |items| - 1 ==> Ok(rest[k]) == Seed(items[1..][k].entries)
    ensures forall k :: 0 <= k < |items| ==> Ok(([s] + rest)[k]) == Seed(items[k].entries)
  {
    forall k | 0 < k < |items| ensures Ok(([s] + rest)[k]) == Seed(items[k].entries) {
      SeedShifted(items, s, rest, k);
    }
  }

  lemma SeedShifted(items: seq<FetchItem>, s: (string, string), rest: seq<(string, string)>, k: int)
    requires WellFormedItems(items) && 0 < k < |items| && |rest| == |items| - 1
    requires Ok(rest[k - 1]) == Seed(items[1..][k - 1].entries)
    ensures Ok(([s] + rest)[k]) == Seed(items[k].entries)
  {
    assert ([s] + rest)[k] == rest[k - 1] && items[1..][k - 1] == items[k];
  }

  /** The request half of `fetch`: `None` for a falsy argument, a
      `ValueError` unless it is a list of two-key dictionaries, then the
      parameters of a one-batch query over the given seeds with the
      loader's sampling parameters. */
  function FetchRequest(l: Loader, arg: FetchArg): (r: Result<Option<Params>>)
    requires Wf(l) && l.kind.NeighborLoader?
    ensures FalsyArg(arg) ==> r == Ok(None)
    ensures !FalsyArg(arg) && !arg.AList? ==> r == Err(BadFetchInput)
    ensures !FalsyArg(arg) && arg.AList? && !WellFormedItems(arg.items) ==> r == Err(BadFetchInput)
    ensures r.Ok? && r.value.Some? ==>
              && arg.AList? && WellFormedItems(arg.items) && Seeds(arg.items).Ok?
              && r.value.value == Params(1, l.params.numNeighbors, l.params.numHops, None, None, None, None,
                                         Some(Seeds(arg.items).value))
    ensures r.Ok? && r.value.None? ==> FalsyArg(arg)
  {
    if FalsyArg(arg) then Ok(None)
    else if !arg.AList? || !WellFormedItems(arg.items) then Err(BadFetchInput)
    else
      var seeds :- Seeds(arg.items);
      Ok(Some(Params(1, l.params.numNeighbors, l.params.numHops, None, None, None, None, Some(seeds))))
  }

  /** The vertex schema `fetch` leaves behind: `is_seed` as `bool` and
      `primary_id` as `str` in the first vertex type. */
  function FetchSchema(s: Schema): (r: Schema)
    requires |s| > 0
    ensures Keys(r) == Keys(s) && r[1..] == s[1..]
    ensures r[0].1 == s[0].1["is_seed" := "bool"]["primary_id" := "str"]
  {
    SetFirstTypeAttr(SetFirstTypeAttr(s, "is_seed", "bool").value, "primary_id", "str").value
  }

  /** The reader configuration of `fetch`: the graph string format, the
      loader's lists with `is_seed` as an extra vertex column, and the
      batch's vertex keys as primary ids, read against the schema `fetch`
      leaves behind. So `is_seed` is read as a tensor and the injected
      `primary_id` column as a plain list, and every selected edge name
      stays non-string; the vertex features and labels do too unless one
      of them is itself called `primary_id`. */
  function FetchConfig(l: Loader, vertexKeys: seq<string>): (cfg: ParseConfig)
    requires Wf(l) && l.kind.NeighborLoader?
    ensures cfg.inFormat == "graph_str" && cfg.reindex && cfg.primaryId == vertexKeys
    ensures cfg.vExtra == l.vExtra + ["is_seed"]
    ensures cfg.vTypes == FetchSchema(l.vSchema)[0].1 && cfg.eTypes == l.eSchema[0].1
    ensures "is_seed" in cfg.vTypes && !IsStringType(cfg.vTypes["is_seed"])
    ensures "primary_id" in cfg.vTypes && IsStringType(cfg.vTypes["primary_id"])
    ensures NumericTyped(cfg.eIn, cfg.eTypes) && NumericTyped(cfg.eOut, cfg.eTypes) && NumericTyped(cfg.eExtra, cfg.eTypes)
    ensures "primary_id" !in VNames(l) ==> NumericTyped(cfg.vIn, cfg.vTypes) && NumericTyped(cfg.vOut, cfg.vTypes)
  {
    FetchTypes(l);
    ParseConfig("graph_str", l.vIn, l.vOut, l.vExtra + ["is_seed"], FetchSchema(l.vSchema)[0].1,
                l.eIn, l.eOut, l.eExtra, l.eSchema[0].1, l.addSelfLoop, true, vertexKeys)
  }

  /** The types `fetch` reads with: `is_seed` non-string, `primary_id` a
      string, and the selected names as in the loader unless a vertex one
      is called `primary_id`. */
  lemma FetchTypes(l: Loader)
    requires Wf(l) && l.kind.NeighborLoader?
    ensures var vt := FetchSchema(l.vSchema)[0].1;
            && "is_seed" in vt && !IsStringType(vt["is_seed"])
            && "primary_id" in vt && IsStringType(vt["primary_id"])
            && NumericTyped(l.eIn, l.eSchema[0].1) && NumericTyped(l.eOut, l.eSchema[0].1)
            && NumericTyped(l.eExtra, l.eSchema[0].1)
            && ("primary_id" !in VNames(l) ==> NumericTyped(l.vIn, vt) && NumericTyped(l.vOut, vt))
  {
    var vt := FetchSchema(l.vSchema)[0].1;
    BoolIsNotString();
    assert Lower("str") == "str";
    NumericTypedParts(l.eIn, l.eOut, l.eExtra, l.eSchema[0].1);
    if "primary_id" !in VNames(l) {
      NumericTypedUpdate(VNames(l), l.vSchema[0].1, "is_seed", "bool");
      NumericTypedUpdate(VNames(l), l.vSchema[0].1["is_seed" := "bool"], "primary_id", "str");
      NumericTypedParts(l.vIn, l.vOut, l.vExtra, vt);
    }
  }

  /** What `fetch` leaves and returns: the loader (its schema possibly
      changed), the parameters of the query if it was sent, and the batch. */
  datatype Fetched = Fetched(loader: Loader, sent: Option<Params>, result: Result<Option<Parsed>>)

  /** `NeighborLoader.fetch`, with `resp` the records the query answers. */
  function Fetch(l: Loader, arg: FetchArg, resp: seq<Record>): (r: Fetched)
    requires Wf(l) && l.kind.NeighborLoader?
    ensures FalsyArg(arg) ==> r == Fetched(l, None, Ok(None))
    ensures r.sent.None? ==> r.loader == l
    ensures FetchRequest(l, arg).Err? ==> r.result == Err(FetchRequest(l, arg).error)
    ensures r.sent.Some? <==> FetchRequest(l, arg).Ok? && FetchRequest(l, arg).value.Some?
    ensures r.sent.Some? ==> r.sent == FetchRequest(l, arg).value
    ensures r.sent.Some? ==> r.loader == l.(vSchema := FetchSchema(l.vSchema))
    ensures r.sent.Some? && resp == [] ==> r.result == Err(EmptyResponse)
    ensures r.sent.Some? && resp != [] && Shape(resp[0], "both").Err? ==> r.result.Err?
    ensures r.sent.Some? && resp != [] && Shape(resp[0], "both").Ok? ==>
              r.result == (var cfg := FetchConfig(l, Keys(resp[0].vertexBatch.value));
                           match ReadBatch(cfg, l.outputFormat, Shape(resp[0], "both").value)
                           case Ok(d) => Ok(Some(d))
                           case Err(e) => Err(e))
  {
    match FetchRequest(l, arg)
    case Err(e) => Fetched(l, None, Err(e))
    case Ok(None) => Fetched(l, None, Ok(None))
    case Ok(Some(params)) =>
      var l' := l.(vSchema := FetchSchema(l.vSchema));
      if resp == [] then Fetched(l', Some(params), Err(EmptyResponse))
      else match Shape(resp[0], "both")
        case Err(e) => Fetched(l', Some(params), Err(e))
        case Ok(raw) =>
          var cfg := FetchConfig(l, Keys(resp[0].vertexBatch.value));
          match ReadBatch(cfg, l.outputFormat, raw)
          case Ok(d) => Fetched(l', Some(params), Ok(Some(d)))
          case Err(e) => Fetched(l', Some(params), Err(e))
  }

  /** The schema change of `fetch` keeps the loader well formed unless a
      selected vertex attribute is itself called `primary_id`, which it
      retypes as a string. */
  lemma FetchKeepsWf(l: Loader, arg: FetchArg, resp: seq<Record>)
    requires Wf(l) && l.kind.NeighborLoader?
    requires "primary_id" !in VNames(l)
    ensures Wf(Fetch(l, arg, resp).loader)
  {
    var r := Fetch(l, arg, resp);
    if r.sent.Some? {
      BoolIsNotString();
      NumericTypedUpdate(VNames(l), l.vSchema[0].1, "is_seed", "bool");
      NumericTypedUpdate(VNames(l), l.vSchema[0].1["is_seed" := "bool"], "primary_id", "str");
    }
  }

  /** A fetched graph batch only has edges between vertices of the
      answer's vertex batch, and the seeds are sent in the caller's order. */
  lemma FetchedEdgesWithin(l: Loader, arg: FetchArg, resp: seq<Record>)
    requires Wf(l) && l.kind.NeighborLoader?
    requires GraphOutput(Lower(l.outputFormat))
    requires Lower(l.outputFormat) == "dgl" || ("edge_index" !in l.eExtra && "edge_index" !in l.vExtra)
    ensures var r := Fetch(l, arg, resp);
            r.result.Ok? && r.result.value.Some? ==>
              && resp != [] && resp[0].vertexBatch.Some?
              && EdgesWithin(r.result.value.value, |Concat(Values(resp[0].vertexBatch.value))|)
              && r.sent.value.inputVertices.value == Seeds(arg.items).value
  {
    var r := Fetch(l, arg, resp);
    if r.result.Ok? && r.result.value.Some? {
      assert r.sent.Some? && resp != [] && Shape(resp[0], "both").Ok?;
      var raw := Shape(resp[0], "both").value;
      var cfg := FetchConfig(l, Keys(resp[0].vertexBatch.value));
      ReadBatchEdgesWithin(cfg, l.outputFormat, raw);
    }
  }
}

=== FILE: parser.dfy ===
/** `_parse_data`: decode one raw unit into tables by the input format,
    then hand them back as data frames or assemble a PyG store or a DGL
    graph from them by the output format. Casting cells to tensors is
    outside the model: a tensor is the list of its columns' cells. */
module Parser {
  import opened Errors
  import opened Dicts
  import opened Text
  import opened Tables
  import opened Schema
  import opened Columns
  import opened Reindex

  /** The arguments of one `_parse_data` call besides the raw unit and the
      output format. */
  datatype ParseConfig = ParseConfig(
    inFormat: string,
    vIn: seq<string>, vOut: seq<string>, vExtra: seq<string>, vTypes: TypeAttrs,
    eIn: seq<string>, eOut: seq<string>, eExtra: seq<string>, eTypes: TypeAttrs,
    addSelfLoop: bool, reindex: bool, primaryId: seq<string>)

  predicate VertexFormat(f: string) { f == "vertex_bytes" || f == "vertex_str" }
  predicate EdgeFormat(f: string) { f == "edge_bytes" || f == "edge_str" }
  predicate GraphFormat(f: string) { f == "graph_bytes" || f == "graph_str" }
  predicate KnownFormat(f: string) { VertexFormat(f) || EdgeFormat(f) || GraphFormat(f) }

  datatype Decoded = Single(table: Table) | Pair(vertices: Table, edges: Table)

  /** The decoded data and `v_extra_feats` as the call leaves it. */
  datatype Decoding = Decoding(data: Decoded, vExtra: seq<string>)

  /** The first half of `_parse_data`: pick the column layout and decoder
      for the input format. A vertex or edge format needs one blob, a graph
      format a vertex/edge pair; `graph_str` with primary ids also sets the
      `primary_id` column and appends its name to the vertex extras. */
  function DecodeRaw(raw: Raw, cfg: ParseConfig): (r: Result<Decoding>)
    ensures !KnownFormat(cfg.inFormat) ==> r == Err(NotImplemented)
    ensures KnownFormat(cfg.inFormat) && (raw.Both? != GraphFormat(cfg.inFormat)) ==> r == Err(NotATuple)
    ensures r.Err? && KnownFormat(cfg.inFormat) && (raw.Both? == GraphFormat(cfg.inFormat)) ==>
              r.error.DuplicateColumns? || r.error.RowWidthMismatch? || r.error.LengthMismatch?
    ensures r.Ok? ==> (r.value.data.Pair? <==> GraphFormat(cfg.inFormat))
    ensures r.Ok? && VertexFormat(cfg.inFormat) ==>
              r.value.data == Single(Table(VertexColumns(cfg.vIn, cfg.vOut, cfg.vExtra), raw.blob))
    ensures r.Ok? && EdgeFormat(cfg.inFormat) ==>
              r.value.data == Single(Table(EdgeColumns(cfg.eIn, cfg.eOut, cfg.eExtra), raw.blob))
    ensures r.Ok? && r.value.data.Pair? ==>
              && r.value.data.edges == Table(EdgeColumns(cfg.eIn, cfg.eOut, cfg.eExtra), raw.edgeBlob)
              && |r.value.data.vertices.columns| >= 1 && r.value.data.vertices.columns[0] == "vid"
              && Rectangular(r.value.data.vertices) && Rectangular(r.value.data.edges)
              && |r.value.data.vertices.rows| == |raw.vertexBlob|
    ensures r.Ok? && (cfg.inFormat == "graph_bytes" || cfg.primaryId == []) ==>
              r.value.vExtra == cfg.vExtra
              && (r.value.data.Pair? ==>
                    r.value.data.vertices == Table(VertexColumns(cfg.vIn, cfg.vOut, cfg.vExtra), raw.vertexBlob))
    ensures r.Ok? && cfg.inFormat == "graph_str" && cfg.primaryId != [] ==>
              r.value.vExtra == cfg.vExtra + ["primary_id"]
              && |cfg.primaryId| == |raw.vertexBlob|
              && "primary_id" in r.value.data.vertices.columns
  {
    var vCols := VertexColumns(cfg.vIn, cfg.vOut, cfg.vExtra);
    var eCols := EdgeColumns(cfg.eIn, cfg.eOut, cfg.eExtra);
    if !KnownFormat(cfg.inFormat) then Err(NotImplemented)
    else if raw.Both? != GraphFormat(cfg.inFormat) then Err(NotATuple)
    else if VertexFormat(cfg.inFormat) then
      var t :- Decode(raw.blob, vCols);
      Ok(Decoding(Single(t), cfg.vExtra))
    else if EdgeFormat(cfg.inFormat) then
      var t :- Decode(raw.blob, eCols);
      Ok(Decoding(Single(t), cfg.vExtra))
    else
      var vertices :- Decode(raw.vertexBlob, vCols);
      if cfg.inFormat == "graph_str" && cfg.primaryId != [] then
        var withIds :- InjectPrimaryId(vertices, cfg.primaryId);
        var edges :- Decode(raw.edgeBlob, eCols);
        Ok(Decoding(Pair(withIds, edges), cfg.vExtra + ["primary_id"]))
      else
        var edges :- Decode(raw.edgeBlob, eCols);
        Ok(Decoding(Pair(vertices, edges), cfg.vExtra))
  }

  /** A declared type that, lowercased, starts with `str`. */
  predicate IsStringType(ty: string) {
    "str" <= Lower(ty)
  }

  /** What `attr_to_tensor` objects to in one feature column, checked in its
      order: the declared type, then string-ness, then the column itself. */
  function FeatureProblem(n: string, types: TypeAttrs, t: Table): Option<Error> {
    if n !in types then Some(KeyMissing(n))
    else if IsStringType(types[n]) then Some(StringFeature(n))
    else if n !in t.columns then Some(KeyMissing(n))
    else None
  }

  /** `attr_to_tensor`: the columns of the named features, or the first
      feature's problem. */
  function AttrToTensor(names: seq<string>, types: TypeAttrs, t: Table): (r: Result<seq<seq<Value>>>)
    requires Rectangular(t)
    ensures r.Ok? <==> forall k :: 0 <= k < |names| ==> FeatureProblem(names[k], types, t).None?
    ensures r.Ok? ==> |r.value| == |names|
    ensures r.Ok? ==> forall k :: 0 <= k < |names| ==> ColumnValues(t, names[k]) == Ok(r.value[k])
    ensures r.Err? ==> exists k :: 0 <= k < |names| && FeatureProblem(names[k], types, t) == Some(r.error)
                                   && forall j :: 0 <= j < k ==> FeatureProblem(names[j], types, t).None?
  {
    if names == [] then Ok([])
    else
      assert forall k :: 0 < k < |names| ==> names[1..][k - 1] == names[k];
      match FeatureProblem(names[0], types, t)
      case Some(e) => Err(e)
      case None =>
        match AttrToTensor(names[1..], types, t)
        case Err(e) =>
          assert forall k :: 0 <= k < |names| - 1 && FeatureProblem(names[1..][k], types, t) == Some(e)
                             ==> FeatureProblem(names[k + 1], types, t) == Some(e);
          Err(e)
        case Ok(rest) => Ok([ColumnValues(t, names[0]).value] + rest)
  }

  /** A string-typed input feature or label is rejected, whatever else the
      list holds after it. */
  lemma StringFeatureRejected(names: seq<string>, types: TypeAttrs, t: Table, k: int)
    requires Rectangular(t)
    requires 0 <= k < |names| && names[k] in types && IsStringType(types[names[k]])
    requires forall j :: 0 <= j < k ==> FeatureProblem(names[j], types, t).None?
    ensures AttrToTensor(names, types, t) == Err(StringFeature(names[k]))
  {
  }

  /** The problems of one extra column: its declared type, then the column. */
  function ExtraProblem(n: string, types: TypeAttrs, t: Table): Option<Error> {
    if n !in types then Some(KeyMissing(n))
    else if n !in t.columns then Some(KeyMissing(n))
    else None
  }

  /** One feature as stored on the output. */
  datatype Field =
    | EdgeIndex(pairs: seq<(int, int)>, selfLoops: bool)  // the edge list; self loops added on request
    | Tensor(columns: seq<seq<Value>>)                   // the cells of each column, cast to a tensor
    | Plain(values: seq<Value>)                          // `to_list()`: the cells as a Python list

  /** The extra-feature loop: a string-typed column stays a plain list,
      any other becomes a tensor. */
  function ExtraFields(names: seq<string>, types: TypeAttrs, t: Table): (r: Result<seq<(string, Field)>>)
    requires Rectangular(t)
    ensures r.Ok? <==> forall k :: 0 <= k < |names| ==> ExtraProblem(names[k], types, t).None?
    ensures r.Ok? ==> ExtrasOf(r.value, names, types, t)
    ensures r.Ok? ==> forall k :: 0 <= k < |names| ==> (r.value[k].1.Plain? <==> IsStringType(types[names[k]]))
    ensures r.Err? ==> exists k :: 0 <= k < |names| && ExtraProblem(names[k], types, t) == Some(r.error)
                                   && forall j :: 0 <= j < k ==> ExtraProblem(names[j], types, t).None?
  {
    if names == [] then Ok([])
    else
      assert forall k :: 0 < k < |names| ==> names[1..][k - 1] == names[k];
      match ExtraProblem(names[0], types, t)
      case Some(e) => Err(e)
      case None =>
        var n := names[0];
        var values := ColumnValues(t, n).value;
        var field := if IsStringType(types[n]) then Plain(values) else Tensor([values]);
        var rest :- ExtraFields(names[1..], types, t);
        Ok([(n, field)] + rest)
  }

  /** The field extra `n` stores: its cells as a plain list when its
      declared type is a string type, else as a one-column tensor. */
  predicate ExtraFieldOf(e: (string, Field), n: string, types: TypeAttrs, t: Table)
    requires Rectangular(t)
  {
    && e.0 == n && n in types && ColumnValues(t, n).Ok?
    && e.1 == (if IsStringType(types[n]) then Plain(ColumnValues(t, n).value)
               else Tensor([ColumnValues(t, n).value]))
  }

  /** One field per extra name, in order. */
  predicate ExtrasOf(extras: seq<(string, Field)>, names: seq<string>, types: TypeAttrs, t: Table)
    requires Rectangular(t)
  {
    |extras| == |names| && forall k :: 0 <= k < |names| ==> ExtraFieldOf(extras[k], names[k], types, t)
  }

  /** `cols` holds the cells of each named column of `t`, in order. */
  predicate ColumnsOf(cols: seq<seq<Value>>, names: seq<string>, t: Table)
    requires Rectangular(t)
  {
    |cols| == |names| && forall k :: 0 <= k < |names| ==> ColumnValues(t, names[k]) == Ok(cols[k])
  }

  /** A tensor of the named columns, built exactly when there are names. */
  predicate ReadsColumns(opt: Option<seq<seq<Value>>>, names: seq<string>, t: Table)
    requires Rectangular(t)
  {
    (opt.Some? <==> names != []) && (opt.Some? ==> ColumnsOf(opt.value, names, t))
  }

  /** `attr_to_tensor` behind its `if names:` guard. */
  function OptionalTensor(names: seq<string>, types: TypeAttrs, t: Table): (r: Result<Option<seq<seq<Value>>>>)
    requires Rectangular(t)
    ensures r.Ok? ==> ReadsColumns(r.value, names, t)
    ensures r.Ok? <==> forall k :: 0 <= k < |names| ==> FeatureProblem(names[k], types, t).None?
  {
    if names == [] then Ok(None)
    else
      var columns :- AttrToTensor(names, types, t);
      Ok(Some(columns))
  }

  /** The features read from the merged edge table and the vertex table:
      input features and labels as tensor columns, extras by name. */
  datatype Features = Features(
    edgeFeat: Option<seq<seq<Value>>>, edgeLabel: Option<seq<seq<Value>>>, edgeExtras: seq<(string, Field)>,
    nodeFeat: Option<seq<seq<Value>>>, nodeLabel: Option<seq<seq<Value>>>, nodeExtras: seq<(string, Field)>)

  /** Every input feature and label is declared, not string-typed, and a
      column of its table. */
  predicate Usable(names: seq<string>, types: TypeAttrs, t: Table) {
    forall k :: 0 <= k < |names| ==> FeatureProblem(names[k], types, t).None?
  }

  /** Every name is declared with a type that is not a string type. */
  predicate NumericTyped(names: seq<string>, types: TypeAttrs) {
    forall k :: 0 <= k < |names| ==> names[k] in types && !IsStringType(types[names[k]])
  }

  /** What the feature reads leave: each input feature and label tensor
      holds its table's columns, and each extra its column's cells as a
      list or a tensor by its declared type. */
  predicate Gathered(f: Features, cfg: ParseConfig, vExtra: seq<string>, vt: Table, et: Table)
    requires Rectangular(vt) && Rectangular(et)
  {
    && ReadsColumns(f.edgeFeat, cfg.eIn, et) && ReadsColumns(f.edgeLabel, cfg.eOut, et)
    && ExtrasOf(f.edgeExtras, cfg.eExtra, cfg.eTypes, et)
    && ReadsColumns(f.nodeFeat, cfg.vIn, vt) && ReadsColumns(f.nodeLabel, cfg.vOut, vt)
    && ExtrasOf(f.nodeExtras, vExtra, cfg.vTypes, vt)
  }

  /** The feature reads of `_parse_data`, in its order: edge features,
      labels and extras, then vertex features, labels and extras. */
  function GatherFeatures(cfg: ParseConfig, vExtra: seq<string>, vt: Table, et: Table): (r: Result<Features>)
    requires Rectangular(vt) && Rectangular(et)
    ensures r.Ok? ==> && Usable(cfg.eIn, cfg.eTypes, et) && Usable(cfg.eOut, cfg.eTypes, et)
                      && Usable(cfg.vIn, cfg.vTypes, vt) && Usable(cfg.vOut, cfg.vTypes, vt)
    ensures r.Ok? ==> Gathered(r.value, cfg, vExtra, vt, et)
  {
    var ef :- OptionalTensor(cfg.eIn, cfg.eTypes, et);
    var el :- OptionalTensor(cfg.eOut, cfg.eTypes, et);
    var ex :- ExtraFields(cfg.eExtra, cfg.eTypes, et);
    var nf :- OptionalTensor(cfg.vIn, cfg.vTypes, vt);
    var nl :- OptionalTensor(cfg.vOut, cfg.vTypes, vt);
    var nx :- ExtraFields(vExtra, cfg.vTypes, vt);
    Ok(Features(ef, el, ex, nf, nl, nx))
  }

  /** `obj[key] = tensor` when the tensor was built. */
  function OptWrite(key: string, f: Option<seq<seq<Value>>>): (w: seq<(string, Field)>)
    ensures forall i :: 0 <= i < |w| ==> w[i].0 == key && w[i].1.Tensor?
    ensures LastWrite(w, key) == if f.Some? then Some(Tensor(f.value)) else None
  {
    if f.Some? then [(key, Tensor(f.value))] else []
  }

  /** No extra of the list is called `n`. */
  predicate NoExtraNamed(extras: seq<(string, Field)>, n: string) {
    forall k :: 0 <= k < |extras| ==> extras[k].0 != n
  }

  /** The assignments to the PyG `Data` object, in program order: the
      edge list, the edge features, the vertex features. */
  function PygWrites(pairs: seq<(int, int)>, selfLoops: bool, f: Features): seq<(string, Field)> {
    [("edge_index", EdgeIndex(pairs, selfLoops))] + (EdgeWrites(f) + NodeWrites(f))
  }

  function EdgeWrites(f: Features): seq<(string, Field)> {
    OptWrite("edge_feat", f.edgeFeat) + (OptWrite("edge_label", f.edgeLabel) + f.edgeExtras)
  }

  function NodeWrites(f: Features): seq<(string, Field)> {
    OptWrite("x", f.nodeFeat) + (OptWrite("y", f.nodeLabel) + f.nodeExtras)
  }

  /** The PyG `Data` object: each attribute holds its last assignment. */
  function PygStore(pairs: seq<(int, int)>, selfLoops: bool, f: Features): (store: map<string, Field>)
    ensures "edge_index" in store
    ensures NoExtraNamed(f.edgeExtras, "edge_index") && NoExtraNamed(f.nodeExtras, "edge_index")
            ==> store["edge_index"] == EdgeIndex(pairs, selfLoops)
    ensures f.nodeFeat.Some? && NoExtraNamed(f.nodeExtras, "x") ==> "x" in store && store["x"] == Tensor(f.nodeFeat.value)
    ensures f.nodeLabel.Some? && NoExtraNamed(f.nodeExtras, "y") ==> "y" in store && store["y"] == Tensor(f.nodeLabel.value)
    ensures f.edgeFeat.Some? && NoExtraNamed(f.edgeExtras, "edge_feat") && NoExtraNamed(f.nodeExtras, "edge_feat")
            ==> "edge_feat" in store && store["edge_feat"] == Tensor(f.edgeFeat.value)
    ensures f.edgeLabel.Some? && NoExtraNamed(f.edgeExtras, "edge_label") && NoExtraNamed(f.nodeExtras, "edge_label")
            ==> "edge_label" in store && store["edge_label"] == Tensor(f.edgeLabel.value)
    ensures StoresExtras(store, f)
    ensures forall n :: n in store <==> PygKey(f, n)
  {
    PygLastWrites(pairs, selfLoops, f);
    PygEdgeLast(pairs, selfLoops, f);
    PygKeys(pairs, selfLoops, f);
    PygExtrasLast(pairs, selfLoops, f);
    Assign(map[], PygWrites(pairs, selfLoops, f))
  }

  /** Each extra is stored under its name unless a later assignment
      reuses the name: a later extra, or for an edge extra a vertex extra
      or `x`/`y`. */
  predicate StoresExtras(store: map<string, Field>, f: Features) {
    && (forall k :: 0 <= k < |f.edgeExtras| && LastNamed(f.edgeExtras, k) && NoExtraNamed(f.nodeExtras, f.edgeExtras[k].0)
                    && f.edgeExtras[k].0 != "x" && f.edgeExtras[k].0 != "y"
                    ==> f.edgeExtras[k].0 in store && store[f.edgeExtras[k].0] == f.edgeExtras[k].1)
    && (forall k :: 0 <= k < |f.nodeExtras| && LastNamed(f.nodeExtras, k)
                    ==> f.nodeExtras[k].0 in store && store[f.nodeExtras[k].0] == f.nodeExtras[k].1)
  }

  lemma PygExtrasLast(pairs: seq<(int, int)>, selfLoops: bool, f: Features)
    ensures StoresExtras(Assign(map[], PygWrites(pairs, selfLoops, f)), f)
  {
    forall k | 0 <= k < |f.edgeExtras| && LastNamed(f.edgeExtras, k) && NoExtraNamed(f.nodeExtras, f.edgeExtras[k].0)
                && f.edgeExtras[k].0 != "x" && f.edgeExtras[k].0 != "y"
      ensures LastWrite(PygWrites(pairs, selfLoops, f), f.edgeExtras[k].0) == Some(f.edgeExtras[k].1)
    {
      PygEdgeExtraLast(pairs, selfLoops, f, k);
    }
    forall k | 0 <= k < |f.nodeExtras| && LastNamed(f.nodeExtras, k)
      ensures LastWrite(PygWrites(pairs, selfLoops, f), f.nodeExtras[k].0) == Some(f.nodeExtras[k].1)
    {
      PygNodeExtraLast(pairs, selfLoops, f, k);
    }
  }

  /** No extra after position `k` reuses the name of extra `k`. */
  predicate LastNamed(extras: seq<(string, Field)>, k: int)
    requires 0 <= k < |extras|
  {
    forall j :: k < j < |extras| ==> extras[j].0 != extras[k].0
  }

  /** The attributes a PyG store carries: the edge list, every tensor that
      was built, and every extra. */
  predicate PygKey(f: Features, n: string) {
    || n == "edge_index"
    || (n == "edge_feat" && f.edgeFeat.Some?) || (n == "edge_label" && f.edgeLabel.Some?)
    || (n == "x" && f.nodeFeat.Some?) || (n == "y" && f.nodeLabel.Some?)
    || !NoExtraNamed(f.edgeExtras, n) || !NoExtraNamed(f.nodeExtras, n)
  }

  /** Exactly the attributes of `PygKey` are assigned. */
  lemma PygKeys(pairs: seq<(int, int)>, selfLoops: bool, f: Features)
    ensures forall n :: LastWrite(PygWrites(pairs, selfLoops, f), n).Some? <==> PygKey(f, n)
  {
    var head: seq<(string, Field)> := [("edge_index", EdgeIndex(pairs, selfLoops))];
    var ef, el, xw, yw := OptWrite("edge_feat", f.edgeFeat), OptWrite("edge_label", f.edgeLabel),
                          OptWrite("x", f.nodeFeat), OptWrite("y", f.nodeLabel);
    forall n ensures LastWrite(PygWrites(pairs, selfLoops, f), n).Some? <==> PygKey(f, n) {
      LastWriteAppend(head, EdgeWrites(f) + NodeWrites(f), n);
      LastWriteAppend(EdgeWrites(f), NodeWrites(f), n);
      LastWriteAppend(ef, el + f.edgeExtras, n);
      LastWriteAppend(el, f.edgeExtras, n);
      LastWriteAppend(xw, yw + f.nodeExtras, n);
      LastWriteAppend(yw, f.nodeExtras, n);
    }
  }

  /** `edge_feat` and `edge_label` keep the edge tensors unless an extra
      reuses the name. */
  lemma PygEdgeLast(pairs: seq<(int, int)>, selfLoops: bool, f: Features)
    ensures var w := PygWrites(pairs, selfLoops, f);
            && (f.edgeFeat.Some? && NoExtraNamed(f.edgeExtras, "edge_feat") && NoExtraNamed(f.nodeExtras, "edge_feat")
                ==> LastWrite(w, "edge_feat") == Some(Tensor(f.edgeFeat.value)))
            && (f.edgeLabel.Some? && NoExtraNamed(f.edgeExtras, "edge_label") && NoExtraNamed(f.nodeExtras, "edge_label")
                ==> LastWrite(w, "edge_label") == Some(Tensor(f.edgeLabel.value)))
  {
    var head: seq<(string, Field)> := [("edge_index", EdgeIndex(pairs, selfLoops))];
    var e, n := EdgeWrites(f), NodeWrites(f);
    var ef, el, xw, yw := OptWrite("edge_feat", f.edgeFeat), OptWrite("edge_label", f.edgeLabel),
                          OptWrite("x", f.nodeFeat), OptWrite("y", f.nodeLabel);
    if f.edgeFeat.Some? && NoExtraNamed(f.edgeExtras, "edge_feat") && NoExtraNamed(f.nodeExtras, "edge_feat") {
      NoKeyAfter(el, f.edgeExtras, "edge_feat");
      LastWriteAppend(ef, el + f.edgeExtras, "edge_feat");
      NoKeyAfter(yw, f.nodeExtras, "edge_feat");
      NoKeyAfter(xw, yw + f.nodeExtras, "edge_feat");
      LastWriteAppend(e, n, "edge_feat");
      LastWriteAppend(head, e + n, "edge_feat");
    }
    if f.edgeLabel.Some? && NoExtraNamed(f.edgeExtras, "edge_label") && NoExtraNamed(f.nodeExtras, "edge_label") {
      LastWriteAppend(el, f.edgeExtras, "edge_label");
      LastWriteAppend(ef, el + f.edgeExtras, "edge_label");
      NoKeyAfter(yw, f.nodeExtras, "edge_label");
      NoKeyAfter(xw, yw + f.nodeExtras, "edge_label");
      LastWriteAppend(e, n, "edge_label");
      LastWriteAppend(head, e + n, "edge_label");
    }
  }

  /** An edge extra keeps its field unless a later extra or a vertex
      tensor reuses its name. */
  lemma PygEdgeExtraLast(pairs: seq<(int, int)>, selfLoops: bool, f: Features, k: int)
    requires 0 <= k < |f.edgeExtras| && LastNamed(f.edgeExtras, k)
    requires NoExtraNamed(f.nodeExtras, f.edgeExtras[k].0) && f.edgeExtras[k].0 != "x" && f.edgeExtras[k].0 != "y"
    ensures LastWrite(PygWrites(pairs, selfLoops, f), f.edgeExtras[k].0) == Some(f.edgeExtras[k].1)
  {
    var key := f.edgeExtras[k].0;
    var head: seq<(string, Field)> := [("edge_index", EdgeIndex(pairs, selfLoops))];
    var e, n := EdgeWrites(f), NodeWrites(f);
    var ef, el, xw, yw := OptWrite("edge_feat", f.edgeFeat), OptWrite("edge_label", f.edgeLabel),
                          OptWrite("x", f.nodeFeat), OptWrite("y", f.nodeLabel);
    LastWriteAt(f.edgeExtras, k);
    LastWriteAppend(el, f.edgeExtras, key);
    LastWriteAppend(ef, el + f.edgeExtras, key);
    NoKeyAfter(yw, f.nodeExtras, key);
    NoKeyAfter(xw, yw + f.nodeExtras, key);
    LastWriteAppend(e, n, key);
    LastWriteAppend(head, e + n, key);
  }

  /** A vertex extra keeps its field unless a later vertex extra reuses
      its name. */
  lemma PygNodeExtraLast(pairs: seq<(int, int)>, selfLoops: bool, f: Features, k: int)
    requires 0 <= k < |f.nodeExtras| && LastNamed(f.nodeExtras, k)
    ensures LastWrite(PygWrites(pairs, selfLoops, f), f.nodeExtras[k].0) == Some(f.nodeExtras[k].1)
  {
    var key := f.nodeExtras[k].0;
    var head: seq<(string, Field)> := [("edge_index", EdgeIndex(pairs, selfLoops))];
    var e, n := EdgeWrites(f), NodeWrites(f);
    var xw, yw := OptWrite("x", f.nodeFeat), OptWrite("y", f.nodeLabel);
    LastWriteAt(f.nodeExtras, k);
    LastWriteAppend(yw, f.nodeExtras, key);
    LastWriteAppend(xw, yw + f.nodeExtras, key);
    LastWriteAppend(e, n, key);
    LastWriteAppend(head, e + n, key);
  }

  lemma PygLastWrites(pairs: seq<(int, int)>, selfLoops: bool, f: Features)
    ensures var w := PygWrites(pairs, selfLoops, f);
            && LastWrite(w, "edge_index").Some?
            && (NoExtraNamed(f.edgeExtras, "edge_index") && NoExtraNamed(f.nodeExtras, "edge_index")
                ==> LastWrite(w, "edge_index") == Some(EdgeIndex(pairs, selfLoops)))
            && (f.nodeFeat.Some? && NoExtraNamed(f.nodeExtras, "x") ==> LastWrite(w, "x") == Some(Tensor(f.nodeFeat.value)))
            && (f.nodeLabel.Some? && NoExtraNamed(f.nodeExtras, "y") ==> LastWrite(w, "y") == Some(Tensor(f.nodeLabel.value)))
  {
    PygEdgeIndexLast(pairs, selfLoops, f);
    PygNodeLast(pairs, selfLoops, f);
  }

  /** `edge_index` is assigned first and only an extra of that name reassigns it. */
  lemma PygEdgeIndexLast(pairs: seq<(int, int)>, selfLoops: bool, f: Features)
    ensures var w := PygWrites(pairs, selfLoops, f);
            && LastWrite(w, "edge_index").Some?
            && (NoExtraNamed(f.edgeExtras, "edge_index") && NoExtraNamed(f.nodeExtras, "edge_index")
                ==> LastWrite(w, "edge_index") == Some(EdgeIndex(pairs, selfLoops)))
  {
    var head: seq<(string, Field)> := [("edge_index", EdgeIndex(pairs, selfLoops))];
    var e, n := EdgeWrites(f), NodeWrites(f);
    LastWriteAppend(head, e + n, "edge_index");
    if NoExtraNamed(f.edgeExtras, "edge_index") && NoExtraNamed(f.nodeExtras, "edge_index") {
      NoKeyAfter(OptWrite("edge_label", f.edgeLabel), f.edgeExtras, "edge_index");
      NoKeyAfter(OptWrite("edge_feat", f.edgeFeat), OptWrite("edge_label", f.edgeLabel) + f.edgeExtras, "edge_index");
      NoKeyAfter(OptWrite("y", f.nodeLabel), f.nodeExtras, "edge_index");
      NoKeyAfter(OptWrite("x", f.nodeFeat), OptWrite("y", f.nodeLabel) + f.nodeExtras, "edge_index");
      NoKeyAfter(e, n, "edge_index");
    }
  }

  /** `x` and `y` keep the vertex features and labels unless a vertex extra
      reuses the name. */
  lemma PygNodeLast(pairs: seq<(int, int)>, selfLoops: bool, f: Features)
    ensures var w := PygWrites(pairs, selfLoops, f);
            && (f.nodeFeat.Some? && NoExtraNamed(f.nodeExtras, "x") ==> LastWrite(w, "x") == Some(Tensor(f.nodeFeat.value)))
            && (f.nodeLabel.Some? && NoExtraNamed(f.nodeExtras, "y") ==> LastWrite(w, "y") == Some(Tensor(f.nodeLabel.value)))
  {
    var head: seq<(string, Field)> := [("edge_index", EdgeIndex(pairs, selfLoops))];
    var e, n := EdgeWrites(f), NodeWrites(f);
    var xw, yw := OptWrite("x", f.nodeFeat), OptWrite("y", f.nodeLabel);
    if f.nodeFeat.Some? && NoExtraNamed(f.nodeExtras, "x") {
      NoKeyAfter(yw, f.nodeExtras, "x");
      LastWriteAppend(xw, yw + f.nodeExtras, "x");
      LastWriteAppend(e, n, "x");
      LastWriteAppend(head, e + n, "x");
    }
    if f.nodeLabel.Some? && NoExtraNamed(f.nodeExtras, "y") {
      LastWriteAppend(yw, f.nodeExtras, "y");
      LastWriteAppend(xw, yw + f.nodeExtras, "y");
      LastWriteAppend(e, n, "y");
      LastWriteAppend(head, e + n, "y");
    }
  }

  /** Two runs of assignments that avoid `k` avoid it together. */
  lemma NoKeyAfter(a: seq<(string, Field)>, b: seq<(string, Field)>, k: string)
    requires LastWrite(a, k).None? && LastWrite(b, k).None?
    ensures LastWrite(a + b, k).None?
  {
    LastWriteAppend(a, b, k);
  }

  /** The non-string extras, which go to `edata`/`ndata`. */
  function TensorsOf(extras: seq<(string, Field)>): (r: seq<(string, Field)>)
    ensures forall i :: 0 <= i < |r| ==> r[i] in extras && !r[i].1.Plain?
    ensures forall k :: 0 <= k < |extras| && !extras[k].1.Plain? ==> extras[k] in r
  {
    if extras == [] then []
    else (if extras[0].1.Plain? then [] else [extras[0]]) + TensorsOf(extras[1..])
  }

  /** The string extras, which go to `extra_data` as plain lists. */
  function ListsOf(extras: seq<(string, Field)>): (r: seq<(string, seq<Value>)>)
    ensures forall i :: 0 <= i < |r| ==> (r[i].0, Plain(r[i].1)) in extras
    ensures forall k :: 0 <= k < |extras| && extras[k].1.Plain? ==> (extras[k].0, extras[k].1.values) in r
  {
    if extras == [] then []
    else (if extras[0].1.Plain? then [(extras[0].0, extras[0].1.values)] else []) + ListsOf(extras[1..])
  }

  /** A DGL graph: its edges, its node count, whether self loops were
      added, edge and node data, and the `extra_data` attribute when one
      was set. */
  datatype DglGraph = DglGraph(
    edges: seq<(int, int)>, numNodes: nat, selfLoops: bool,
    edata: map<string, Field>, ndata: map<string, Field>,
    extraData: Option<map<string, seq<Value>>>)

  /** `extra_data` once the edge extras are stored: a fresh dict holding
      the string edge extras, when there are edge extras at all. */
  function EdgeExtraData(f: Features): (r: Option<map<string, seq<Value>>>)
    ensures r.Some? <==> f.edgeExtras != []
  {
    if f.edgeExtras != [] then Some(Assign(map[], ListsOf(f.edgeExtras))) else None
  }

  /** `extra_data` as written: the vertex side starts a fresh dict again. */
  function DglExtraDataAsWritten(f: Features): (r: Option<map<string, seq<Value>>>)
    ensures f.nodeExtras != [] ==> r.Some? && forall n :: n in r.value ==> LastWrite(ListsOf(f.nodeExtras), n).Some?
    ensures f.nodeExtras == [] ==> r == EdgeExtraData(f)
  {
    if f.nodeExtras != [] then Some(Assign(map[], ListsOf(f.nodeExtras))) else EdgeExtraData(f)
  }

  /** `extra_data` with the vertex side adding to the dict the edge side
      started, so both sides' string extras are kept. */
  function DglExtraData(f: Features): (r: Option<map<string, seq<Value>>>)
    ensures r.Some? <==> f.edgeExtras != [] || f.nodeExtras != []
    ensures r.Some? ==> forall k :: 0 <= k < |f.nodeExtras| && f.nodeExtras[k].1.Plain? ==> f.nodeExtras[k].0 in r.value
    ensures r.Some? ==> forall k :: 0 <= k < |f.edgeExtras| && f.edgeExtras[k].1.Plain? ==> f.edgeExtras[k].0 in r.value
  {
    ListsWritten(f.nodeExtras);
    ListsWritten(f.edgeExtras);
    var afterEdges := EdgeExtraData(f);
    if f.nodeExtras != [] then
      Some(Assign(if afterEdges.Some? then afterEdges.value else map[], ListsOf(f.nodeExtras)))
    else afterEdges
  }

  /** Every string extra is assigned by its lists. */
  lemma ListsWritten(extras: seq<(string, Field)>)
    ensures forall k :: 0 <= k < |extras| && extras[k].1.Plain? ==> LastWrite(ListsOf(extras), extras[k].0).Some?
  {
    var r := ListsOf(extras);
    forall k | 0 <= k < |extras| && extras[k].1.Plain?
      ensures LastWrite(r, extras[k].0).Some?
    {
      var i :| 0 <= i < |r| && r[i] == (extras[k].0, extras[k].1.values);
      assert r[i].0 == extras[k].0;
    }
  }

  /** The assignments to `edata` (or `ndata`), in program order: `feat`,
      `label`, then the non-string extras. */
  function DataWrites(feat: Option<seq<seq<Value>>>, lab: Option<seq<seq<Value>>>, extras: seq<(string, Field)>): (w: seq<(string, Field)>)
    ensures forall i :: 0 <= i < |w| ==> !w[i].1.Plain?
    ensures feat.Some? && NoExtraNamed(extras, "feat") ==> LastWrite(w, "feat") == Some(Tensor(feat.value))
    ensures lab.Some? && NoExtraNamed(extras, "label") ==> LastWrite(w, "label") == Some(Tensor(lab.value))
  {
    var fw, lw, tw := OptWrite("feat", feat), OptWrite("label", lab), TensorsOf(extras);
    DataWritesLast(fw, lw, tw, feat, lab, extras);
    fw + lw + tw
  }

  lemma DataWritesLast(fw: seq<(string, Field)>, lw: seq<(string, Field)>, tw: seq<(string, Field)>,
                       feat: Option<seq<seq<Value>>>, lab: Option<seq<seq<Value>>>, extras: seq<(string, Field)>)
    requires fw == OptWrite("feat", feat) && lw == OptWrite("label", lab) && tw == TensorsOf(extras)
    ensures forall i :: 0 <= i < |fw + lw + tw| ==> !(fw + lw + tw)[i].1.Plain?
    ensures feat.Some? && NoExtraNamed(extras, "feat") ==> LastWrite(fw + lw + tw, "feat") == Some(Tensor(feat.value))
    ensures lab.Some? && NoExtraNamed(extras, "label") ==> LastWrite(fw + lw + tw, "label") == Some(Tensor(lab.value))
  {
    var rest := lw + tw;
    TensorsAvoid(extras, "feat");
    TensorsAvoid(extras, "label");
    NoPlainConcat(lw, tw);
    NoPlainConcat(fw, rest);
    assert fw + lw + tw == fw + rest;
    if feat.Some? && NoExtraNamed(extras, "feat") {
      NoKeyConcat(lw, tw, "feat");
      WrittenFirstStays(fw, rest, "feat");
    }
    if lab.Some? && NoExtraNamed(extras, "label") {
      LastWriteDecidedBy(fw, lw, tw, "label");
    }
  }

  lemma TensorsAvoid(extras: seq<(string, Field)>, n: string)
    ensures NoExtraNamed(extras, n) ==> NoExtraNamed(TensorsOf(extras), n)
  {
    var t := TensorsOf(extras);
    if NoExtraNamed(extras, n) {
      forall i | 0 <= i < |t| ensures t[i].0 != n {
        var k :| 0 <= k < |extras| && extras[k] == t[i];
      }
    }
  }

  predicate NoPlain(w: seq<(string, Field)>) {
    forall i :: 0 <= i < |w| ==> !w[i].1.Plain?
  }

  lemma NoPlainConcat(a: seq<(string, Field)>, b: seq<(string, Field)>)
    requires NoPlain(a) && NoPlain(b)
    ensures NoPlain(a + b)
  {
    forall i | 0 <= i < |a + b| ensures !(a + b)[i].1.Plain? {
      if i >= |a| {
        assert (a + b)[i] == b[i - |a|];
      }
    }
  }

  lemma NoKeyConcat(a: seq<(string, Field)>, b: seq<(string, Field)>, n: string)
    requires NoExtraNamed(a, n) && NoExtraNamed(b, n)
    ensures NoExtraNamed(a + b, n)
  {
    forall i | 0 <= i < |a + b| ensures (a + b)[i].0 != n {
      if i >= |a| {
        assert (a + b)[i] == b[i - |a|];
      }
    }
  }

  /** A key written by the first run of assignments and never again. */
  lemma WrittenFirstStays(first: seq<(string, Field)>, rest: seq<(string, Field)>, k: string)
    requires LastWrite(first, k).Some?
    requires forall i :: 0 <= i < |rest| ==> rest[i].0 != k
    ensures LastWrite(first + rest, k) == LastWrite(first, k)
  {
    assert first + rest == [] + first + rest;
    LastWriteDecidedBy([], first, rest, k);
  }

  /** A store built from assignments of tensors holds no plain list. */
  lemma NoListAssigned(w: seq<(string, Field)>)
    requires forall i :: 0 <= i < |w| ==> !w[i].1.Plain?
    ensures forall n :: n in Assign(map[], w) ==> !Assign(map[], w)[n].Plain?
  {
    forall n | n in Assign(map[], w) ensures !Assign(map[], w)[n].Plain? {
      var v := LastWrite(w, n).value;
      var i :| 0 <= i < |w| && w[i] == (n, v);
    }
  }

  /** The node count `dgl.graph((u, v))` infers when `num_nodes` is not
      given: one more than the largest endpoint, and none without edges. */
  function InferredNodes(pairs: seq<(int, int)>): (n: nat)
    ensures forall k :: 0 <= k < |pairs| ==> pairs[k].0 < n && pairs[k].1 < n
    ensures n > 0 ==> exists k :: 0 <= k < |pairs| && (pairs[k].0 == n - 1 || pairs[k].1 == n - 1)
  {
    if pairs == [] then 0
    else
      var rest := InferredNodes(pairs[1..]);
      var top := if pairs[0].0 > pairs[0].1 then pairs[0].0 + 1 else pairs[0].1 + 1;
      assert forall k :: 1 <= k < |pairs| ==> pairs[k] == pairs[1..][k - 1];
      if top > rest then top else rest
  }

  /** The edges `edata` is sized by: `dgl.add_self_loop` adds one loop per
      node. */
  function NumEdges(g: DglGraph): nat {
    |g.edges| + if g.selfLoops then g.numNodes else 0
  }

  /** A tensor with one row per element: every column has `n` cells. */
  predicate Fits(fd: Field, n: int) {
    fd.Tensor? && |fd.columns| > 0 && forall k :: 0 <= k < |fd.columns| ==> |fd.columns[k]| == n
  }

  predicate WritesFit(w: seq<(string, Field)>, n: int) {
    forall i :: 0 <= i < |w| ==> Fits(w[i].1, n)
  }

  /** DGL's checks on `edata[key] = t` and `ndata[key] = t`: every edge
      tensor has one row per edge, every node tensor one per node. */
  predicate DglSizesAgree(f: Features, nodes: nat, edges: nat) {
    && WritesFit(DataWrites(f.edgeFeat, f.edgeLabel, f.edgeExtras), edges)
    && WritesFit(DataWrites(f.nodeFeat, f.nodeLabel, f.nodeExtras), nodes)
  }

  /** A DGL graph whose node count is the inferred one and whose data has
      one row per edge and one per node. */
  predicate DglConsistent(g: DglGraph) {
    && g.numNodes == InferredNodes(g.edges)
    && (forall n :: n in g.edata ==> Fits(g.edata[n], NumEdges(g)))
    && (forall n :: n in g.ndata ==> Fits(g.ndata[n], g.numNodes))
  }

  /** The DGL graph `_parse_data` assembles, with `extra_data` chosen by
      `extra`. */
  function DglWith(pairs: seq<(int, int)>, selfLoops: bool, f: Features, extra: Option<map<string, seq<Value>>>): (g: DglGraph)
    ensures g.edges == pairs && g.selfLoops == selfLoops && g.extraData == extra
    ensures g.numNodes == InferredNodes(pairs)
    ensures DglSizesAgree(f, g.numNodes, NumEdges(g)) ==> DglConsistent(g)
    ensures f.edgeFeat.Some? && NoExtraNamed(f.edgeExtras, "feat") ==> "feat" in g.edata && g.edata["feat"] == Tensor(f.edgeFeat.value)
    ensures f.nodeFeat.Some? && NoExtraNamed(f.nodeExtras, "feat") ==> "feat" in g.ndata && g.ndata["feat"] == Tensor(f.nodeFeat.value)
    ensures f.edgeLabel.Some? && NoExtraNamed(f.edgeExtras, "label") ==> "label" in g.edata && g.edata["label"] == Tensor(f.edgeLabel.value)
    ensures f.nodeLabel.Some? && NoExtraNamed(f.nodeExtras, "label") ==> "label" in g.ndata && g.ndata["label"] == Tensor(f.nodeLabel.value)
    ensures forall n :: n in g.edata ==> !g.edata[n].Plain?
    ensures forall n :: n in g.ndata ==> !g.ndata[n].Plain?
  {
    var ew := DataWrites(f.edgeFeat, f.edgeLabel, f.edgeExtras);
    var nw := DataWrites(f.nodeFeat, f.nodeLabel, f.nodeExtras);
    NoListAssigned(ew);
    NoListAssigned(nw);
    var nodes := InferredNodes(pairs);
    var g := DglGraph(pairs, nodes, selfLoops, Assign(map[], ew), Assign(map[], nw), extra);
    AssignedFit(ew, NumEdges(g));
    AssignedFit(nw, nodes);
    g
  }

  /** A store built from assignments that all fit holds only fitting tensors. */
  lemma AssignedFit(w: seq<(string, Field)>, n: int)
    ensures WritesFit(w, n) ==> forall k :: k in Assign(map[], w) ==> Fits(Assign(map[], w)[k], n)
  {
    forall k | WritesFit(w, n) && k in Assign(map[], w) ensures Fits(Assign(map[], w)[k], n) {
      var v := LastWrite(w, k).value;
      var i :| 0 <= i < |w| && w[i] == (k, v);
    }
  }

  lemma WritesFitConcat(a: seq<(string, Field)>, b: seq<(string, Field)>, n: int)
    requires WritesFit(a, n) && WritesFit(b, n)
    ensures WritesFit(a + b, n)
  {
    forall i | 0 <= i < |a + b| ensures Fits((a + b)[i].1, n) {
      if i >= |a| {
        assert (a + b)[i] == b[i - |a|];
      }
    }
  }

  /** Nonempty writes fit one row count only. */
  lemma WritesFitUnique(w: seq<(string, Field)>, n: int, m: int)
    requires w != [] && WritesFit(w, n) && WritesFit(w, m)
    ensures n == m
  {
    var cs := w[0].1.columns;
    assert Fits(w[0].1, n) && Fits(w[0].1, m);
    assert |cs[0]| == n && |cs[0]| == m;
  }

  /** Whether `_parse_data` assigns any tensor on one side: features,
      labels, or an extra declared with a non-string type. */
  predicate WritesData(ins: seq<string>, outs: seq<string>, extras: seq<string>, types: TypeAttrs) {
    ins != [] || outs != [] || exists k :: 0 <= k < |extras| && extras[k] in types && !IsStringType(types[extras[k]])
  }

  /** The tensors read from a table have one row per table row, and there
      is one exactly when the side writes data. */
  lemma SideWritesFit(feat: Option<seq<seq<Value>>>, lab: Option<seq<seq<Value>>>, extras: seq<(string, Field)>,
                      ins: seq<string>, outs: seq<string>, names: seq<string>, types: TypeAttrs, t: Table)
    requires Rectangular(t)
    requires ReadsColumns(feat, ins, t) && ReadsColumns(lab, outs, t) && ExtrasOf(extras, names, types, t)
    ensures WritesFit(DataWrites(feat, lab, extras), |t.rows|)
    ensures WritesData(ins, outs, names, types) ==> DataWrites(feat, lab, extras) != []
  {
    var fw, lw, tw := OptWrite("feat", feat), OptWrite("label", lab), TensorsOf(extras);
    OptWriteFits("feat", feat, ins, t);
    OptWriteFits("label", lab, outs, t);
    TensorExtrasFit(extras, names, types, t);
    ConcatFits(fw, lw, tw, |t.rows|);
    assert DataWrites(feat, lab, extras) == fw + lw + tw;
  }

  lemma ConcatFits(a: seq<(string, Field)>, b: seq<(string, Field)>, c: seq<(string, Field)>, n: int)
    requires WritesFit(a, n) && WritesFit(b, n) && WritesFit(c, n)
    ensures WritesFit(a + b + c, n)
    ensures a + b + c == [] <==> a == [] && b == [] && c == []
  {
    WritesFitConcat(a, b, n);
    WritesFitConcat(a + b, c, n);
    if a + b + c == [] {
      assert |a + b + c| == |a| + |b| + |c|;
    }
  }

  /** The non-string extras are one-column tensors of their table, and
      there is one whenever an extra is declared with a non-string type. */
  lemma TensorExtrasFit(extras: seq<(string, Field)>, names: seq<string>, types: TypeAttrs, t: Table)
    requires Rectangular(t) && ExtrasOf(extras, names, types, t)
    ensures WritesFit(TensorsOf(extras), |t.rows|)
    ensures (exists k :: 0 <= k < |names| && names[k] in types && !IsStringType(types[names[k]]))
            ==> TensorsOf(extras) != []
  {
    var tw := TensorsOf(extras);
    forall i | 0 <= i < |tw| ensures Fits(tw[i].1, |t.rows|) {
      var k :| 0 <= k < |extras| && extras[k] == tw[i];
      assert ExtraFieldOf(extras[k], names[k], types, t);
    }
    if exists k :: 0 <= k < |names| && names[k] in types && !IsStringType(types[names[k]]) {
      var k :| 0 <= k < |names| && names[k] in types && !IsStringType(types[names[k]]);
      assert ExtraFieldOf(extras[k], names[k], types, t);
      assert extras[k] in tw;
    }
  }

  lemma OptWriteFits(key: string, opt: Option<seq<seq<Value>>>, names: seq<string>, t: Table)
    requires Rectangular(t) && ReadsColumns(opt, names, t)
    ensures WritesFit(OptWrite(key, opt), |t.rows|)
    ensures names != [] ==> OptWrite(key, opt) != []
  {
    if opt.Some? {
      var cols := opt.value;
      forall k | 0 <= k < |cols| ensures |cols[k]| == |t.rows| {
        assert ColumnValues(t, names[k]) == Ok(cols[k]);
      }
    }
  }

  /** The extras carry exactly the listed names, so their lists assign
      only listed names. */
  lemma ExtrasNamed(extras: seq<(string, Field)>, names: seq<string>, types: TypeAttrs, t: Table)
    requires Rectangular(t) && ExtrasOf(extras, names, types, t)
    ensures forall n :: n !in names ==> NoExtraNamed(extras, n)
    ensures forall n :: LastWrite(ListsOf(extras), n).Some? ==> n in names
  {
    forall n | n !in names ensures NoExtraNamed(extras, n) {
      assert forall k :: 0 <= k < |names| ==> ExtraFieldOf(extras[k], names[k], types, t);
    }
    var l := ListsOf(extras);
    forall n | LastWrite(l, n).Some? ensures n in names {
      var i :| 0 <= i < |l| && l[i] == (n, LastWrite(l, n).value);
      var k :| 0 <= k < |extras| && extras[k] == (l[i].0, Plain(l[i].1));
      assert ExtraFieldOf(extras[k], names[k], types, t);
    }
  }

  /** A graph result holds the vertex table's feature and label columns
      under `x` and `y` (PyG) or `feat` and `label` (DGL), unless a vertex
      extra takes the name. */
  predicate KeepsVertexColumns(p: Parsed, cfg: ParseConfig, vExtra: seq<string>, vt: Table)
    requires Rectangular(vt)
  {
    match p
    case Pyg(store) =>
      && (cfg.vIn != [] && "x" !in vExtra ==>
            "x" in store && store["x"].Tensor? && ColumnsOf(store["x"].columns, cfg.vIn, vt))
      && (cfg.vOut != [] && "y" !in vExtra ==>
            "y" in store && store["y"].Tensor? && ColumnsOf(store["y"].columns, cfg.vOut, vt))
    case Dgl(g) =>
      && (cfg.vIn != [] && "feat" !in vExtra ==>
            "feat" in g.ndata && g.ndata["feat"].Tensor? && ColumnsOf(g.ndata["feat"].columns, cfg.vIn, vt))
      && (cfg.vOut != [] && "label" !in vExtra ==>
            "label" in g.ndata && g.ndata["label"].Tensor? && ColumnsOf(g.ndata["label"].columns, cfg.vOut, vt))
    case _ => true
  }

  /** As written, a DGL graph has `extra_data` exactly when either side has
      extras, and once the vertex side has extras it names vertex extras
      only. */
  predicate ExtraDataAsWritten(p: Parsed, cfg: ParseConfig, vExtra: seq<string>) {
    p.Dgl? ==>
      && (p.graph.extraData.Some? <==> cfg.eExtra != [] || vExtra != [])
      && (vExtra != [] && p.graph.extraData.Some? ==> forall n :: n in p.graph.extraData.value ==> n in vExtra)
  }

  /** The PyG store's `x` and `y` are the vertex table's feature and label
      columns unless an extra takes the name. */
  lemma PygFromColumns(pairs: seq<(int, int)>, selfLoops: bool, f: Features, cfg: ParseConfig,
                       vExtra: seq<string>, vt: Table, et: Table)
    requires Rectangular(vt) && Rectangular(et) && Gathered(f, cfg, vExtra, vt, et)
    ensures KeepsVertexColumns(Pyg(PygStore(pairs, selfLoops, f)), cfg, vExtra, vt)
  {
    ExtrasNamed(f.nodeExtras, vExtra, cfg.vTypes, vt);
  }

  /** The DGL graph's vertex `feat` and `label` are the vertex table's
      columns unless an extra takes the name, and as written `extra_data`
      then holds vertex extras only. */
  lemma DglFromColumns(pairs: seq<(int, int)>, selfLoops: bool, f: Features, cfg: ParseConfig,
                       vExtra: seq<string>, vt: Table, et: Table)
    requires Rectangular(vt) && Rectangular(et) && Gathered(f, cfg, vExtra, vt, et)
    ensures KeepsVertexColumns(Dgl(DglWith(pairs, selfLoops, f, DglExtraDataAsWritten(f))), cfg, vExtra, vt)
    ensures ExtraDataAsWritten(Dgl(DglWith(pairs, selfLoops, f, DglExtraDataAsWritten(f))), cfg, vExtra)
  {
    ExtrasNamed(f.nodeExtras, vExtra, cfg.vTypes, vt);
  }

  /** The result of `_parse_data`, with the vertex extras it leaves. */
  datatype Parsed =
    | Frame(table: Table)
    | Frames(vertices: Table, edges: Table)
    | Pyg(store: map<string, Field>)
    | Dgl(graph: DglGraph)

  datatype ParseResult = ParseResult(data: Parsed, vExtra: seq<string>)

  predicate GraphOutput(mode: string) { mode == "pyg" || mode == "dgl" }

  /** Every edge of a graph result joins two of the first `n` positions. */
  predicate EdgesWithin(p: Parsed, n: nat) {
    match p
    case Pyg(store) =>
      && "edge_index" in store && store["edge_index"].EdgeIndex?
      && forall k :: 0 <= k < |store["edge_index"].pairs| ==>
           0 <= store["edge_index"].pairs[k].0 < n && 0 <= store["edge_index"].pairs[k].1 < n
    case Dgl(g) =>
      forall k :: 0 <= k < |g.edges| ==> 0 <= g.edges[k].0 < n && 0 <= g.edges[k].1 < n
    case _ => true
  }

  lemma UsableIsNumericTyped(names: seq<string>, types: TypeAttrs, t: Table)
    requires Usable(names, types, t)
    ensures NumericTyped(names, types)
  {
    forall k | 0 <= k < |names| ensures names[k] in types && !IsStringType(types[names[k]]) {
      assert FeatureProblem(names[k], types, t).None?;
    }
  }

  /** The graph half of `_parse_data`: the edge list, then the features,
      then the PyG store or the DGL graph. */
  function AssembleGraph(vt: Table, et: Table, cfg: ParseConfig, vExtra: seq<string>, mode: string): (r: Result<Parsed>)
    requires Rectangular(vt) && |vt.columns| >= 1 && Rectangular(et) && |et.columns| >= 2
    requires GraphOutput(mode)
    ensures r.Ok? ==> (r.value.Pyg? <==> mode == "pyg") && (r.value.Dgl? <==> mode == "dgl")
    ensures r.Ok? ==> && NumericTyped(cfg.eIn, cfg.eTypes) && NumericTyped(cfg.eOut, cfg.eTypes)
                      && NumericTyped(cfg.vIn, cfg.vTypes) && NumericTyped(cfg.vOut, cfg.vTypes)
    ensures r.Ok? && cfg.reindex && (mode == "dgl" || ("edge_index" !in cfg.eExtra && "edge_index" !in vExtra))
            ==> EdgesWithin(r.value, |vt.rows|)
    ensures r.Ok? ==> KeepsVertexColumns(r.value, cfg, vExtra, vt)
    ensures r.Ok? ==> ExtraDataAsWritten(r.value, cfg, vExtra)
  {
    var el :- BuildEdgeList(vt, et, cfg.reindex);
    var f :- GatherFeatures(cfg, vExtra, vt, el.table);
    UsableIsNumericTyped(cfg.eIn, cfg.eTypes, el.table);
    UsableIsNumericTyped(cfg.eOut, cfg.eTypes, el.table);
    UsableIsNumericTyped(cfg.vIn, cfg.vTypes, vt);
    UsableIsNumericTyped(cfg.vOut, cfg.vTypes, vt);
    assert "edge_index" !in cfg.eExtra ==> NoExtraNamed(f.edgeExtras, "edge_index");
    assert "edge_index" !in vExtra ==> NoExtraNamed(f.nodeExtras, "edge_index");
    CheckedGraph(el.pairs, f, cfg, vExtra, vt, el.table, mode)
  }

  /** A DGL graph `_parse_data` returns is consistent: its node count is
      the inferred one, which is the vertex count once the vertex side
      assigns data; with edge data its edge count is the edge rows', so
      no self loops were added to a nonempty graph; and its edges are the
      edge list's. */
  lemma AssembledDglSized(vt: Table, et: Table, cfg: ParseConfig, vExtra: seq<string>)
    requires Rectangular(vt) && |vt.columns| >= 1 && Rectangular(et) && |et.columns| >= 2
    ensures var r := AssembleGraph(vt, et, cfg, vExtra, "dgl");
            && (r.Ok? ==> r.value.Dgl? && DglConsistent(r.value.graph) && r.value.graph.selfLoops == cfg.addSelfLoop)
            && (r.Ok? && WritesData(cfg.vIn, cfg.vOut, vExtra, cfg.vTypes) ==> r.value.graph.numNodes == |vt.rows|)
            && (r.Ok? && WritesData(cfg.eIn, cfg.eOut, cfg.eExtra, cfg.eTypes) ==> NumEdges(r.value.graph) == |r.value.graph.edges|)
            && (r.Ok? ==> BuildEdgeList(vt, et, cfg.reindex).Ok?
                          && r.value.graph.edges == BuildEdgeList(vt, et, cfg.reindex).value.pairs)
  {
    var r := AssembleGraph(vt, et, cfg, vExtra, "dgl");
    if r.Ok? {
      var el := BuildEdgeList(vt, et, cfg.reindex).value;
      var f := GatherFeatures(cfg, vExtra, vt, el.table).value;
      assert r == CheckedGraph(el.pairs, f, cfg, vExtra, vt, el.table, "dgl");
    }
  }

  /** As written, `dgl.graph((u, v))` infers the node count from the
      largest endpoint, so a reindexed DGL batch whose last vertex has no
      edge has fewer nodes than vertex rows, and the first vertex tensor
      assigned to `ndata` raises. For example vertex ids 7 and 8 with the
      `is_seed` extra typed `BOOL` and the one edge 7 to 7. */
  lemma TrailingIsolatedVertexFails(vt: Table, et: Table, cfg: ParseConfig, vExtra: seq<string>)
    requires Rectangular(vt) && |vt.columns| >= 1 && Rectangular(et) && |et.columns| >= 2
    requires cfg.reindex && |vt.rows| > 0 && WritesData(cfg.vIn, cfg.vOut, vExtra, cfg.vTypes)
    requires forall j :: 0 <= j < |et.rows| ==>
               et.rows[j][0] != vt.rows[|vt.rows| - 1][0] && et.rows[j][1] != vt.rows[|vt.rows| - 1][0]
    ensures AssembleGraph(vt, et, cfg, vExtra, "dgl").Err?
  {
    AssembledDglSized(vt, et, cfg, vExtra);
    PairsAvoidLast(vt, et);
  }

  /** When no edge row names the last vertex, the reindexed edge list
      infers fewer nodes than there are vertices. */
  lemma PairsAvoidLast(vt: Table, et: Table)
    requires Rectangular(vt) && |vt.columns| >= 1 && Rectangular(et) && |et.columns| >= 2 && |vt.rows| > 0
    requires forall j :: 0 <= j < |et.rows| ==>
               et.rows[j][0] != vt.rows[|vt.rows| - 1][0] && et.rows[j][1] != vt.rows[|vt.rows| - 1][0]
    ensures BuildEdgeList(vt, et, true).Ok? ==> InferredNodes(BuildEdgeList(vt, et, true).value.pairs) != |vt.rows|
  {
    var b := BuildEdgeList(vt, et, true);
    if b.Ok? {
      EndpointsAvoidLast(vt, et, b.value.pairs, b.value.table.rows);
      InferredNodesAvoiding(b.value.pairs, |vt.rows|);
    }
  }

  /** Pairs that point at the vertices their edge rows name, for edge rows
      that never name the last vertex, never reach the last position. */
  lemma EndpointsAvoidLast(vt: Table, et: Table, pairs: seq<(int, int)>, rows: seq<Row>)
    requires Rectangular(vt) && Rectangular(et) && |et.columns| >= 2 && |vt.columns| >= 1 && |vt.rows| > 0
    requires forall j :: 0 <= j < |et.rows| ==>
               et.rows[j][0] != vt.rows[|vt.rows| - 1][0] && et.rows[j][1] != vt.rows[|vt.rows| - 1][0]
    requires |pairs| == |rows| && forall k :: 0 <= k < |rows| ==> rows[k] in et.rows
    requires forall k :: 0 <= k < |pairs| ==>
               && 0 <= pairs[k].0 < |vt.rows| && 0 <= pairs[k].1 < |vt.rows|
               && vt.rows[pairs[k].0][0] == rows[k][0] && vt.rows[pairs[k].1][0] == rows[k][1]
    ensures forall k :: 0 <= k < |pairs| ==> pairs[k].0 != |vt.rows| - 1 && pairs[k].1 != |vt.rows| - 1
  {
    forall k | 0 <= k < |pairs| ensures pairs[k].0 != |vt.rows| - 1 && pairs[k].1 != |vt.rows| - 1 {
      assert rows[k] in et.rows;
      var j :| 0 <= j < |et.rows| && et.rows[j] == rows[k];
    }
  }

  /** A node count is inferred only when some endpoint is its last node. */
  lemma InferredNodesAvoiding(pairs: seq<(int, int)>, m: nat)
    requires m > 0 && forall k :: 0 <= k < |pairs| ==> pairs[k].0 != m - 1 && pairs[k].1 != m - 1
    ensures InferredNodes(pairs) != m
  {
  }

  /** As written, `dgl.add_self_loop` adds a loop per node before the edge
      data is assigned, so with self loops and any edge data a reindexed
      DGL batch is accepted only when it has no edges at all. */
  lemma SelfLoopsLeaveNoEdges(vt: Table, et: Table, cfg: ParseConfig, vExtra: seq<string>)
    requires Rectangular(vt) && |vt.columns| >= 1 && Rectangular(et) && |et.columns| >= 2
    requires cfg.reindex && cfg.addSelfLoop && WritesData(cfg.eIn, cfg.eOut, cfg.eExtra, cfg.eTypes)
    ensures var r := AssembleGraph(vt, et, cfg, vExtra, "dgl");
            r.Ok? ==> r.value.graph.edges == [] && r.value.graph.numNodes == 0
  {
    AssembledDglSized(vt, et, cfg, vExtra);
    var b := BuildEdgeList(vt, et, true);
    if b.Ok? && b.value.pairs != [] {
      assert 0 <= b.value.pairs[0].0 < InferredNodes(b.value.pairs);
    }
  }

  /** The DGL graph as evidently intended: `num_nodes` is the vertex count
      and the self loops are added after the edge data, which DGL then
      pads for the new edges. */
  function DglIntended(pairs: seq<(int, int)>, numNodes: nat, selfLoops: bool, f: Features,
                       extra: Option<map<string, seq<Value>>>): (g: DglGraph)
    ensures g.edges == pairs && g.numNodes == numNodes && g.selfLoops == selfLoops && g.extraData == extra
    ensures DglSizesAgree(f, numNodes, |pairs|) ==>
              && (forall n :: n in g.edata ==> Fits(g.edata[n], |pairs|))
              && (forall n :: n in g.ndata ==> Fits(g.ndata[n], numNodes))
  {
    var ew := DataWrites(f.edgeFeat, f.edgeLabel, f.edgeExtras);
    var nw := DataWrites(f.nodeFeat, f.nodeLabel, f.nodeExtras);
    AssignedFit(ew, |pairs|);
    AssignedFit(nw, numNodes);
    DglGraph(pairs, numNodes, selfLoops, Assign(map[], ew), Assign(map[], nw), extra)
  }

  /** With `num_nodes=len(vertices)` and the data assigned before the self
      loops, every feature read from the tables fits its graph: DGL accepts
      every batch whose edge list has one pair per edge row. */
  lemma CorrectedDglDataFits(f: Features, cfg: ParseConfig, vExtra: seq<string>, vt: Table, et: Table, pairs: seq<(int, int)>)
    requires Rectangular(vt) && Rectangular(et) && Gathered(f, cfg, vExtra, vt, et)
    requires |pairs| == |et.rows|
    ensures DglSizesAgree(f, |vt.rows|, |pairs|)
    ensures var g := DglIntended(pairs, |vt.rows|, cfg.addSelfLoop, f, DglExtraData(f));
            && (forall n :: n in g.edata ==> Fits(g.edata[n], |et.rows|))
            && (forall n :: n in g.ndata ==> Fits(g.ndata[n], |vt.rows|))
  {
    SideWritesFit(f.nodeFeat, f.nodeLabel, f.nodeExtras, cfg.vIn, cfg.vOut, vExtra, cfg.vTypes, vt);
    SideWritesFit(f.edgeFeat, f.edgeLabel, f.edgeExtras, cfg.eIn, cfg.eOut, cfg.eExtra, cfg.eTypes, et);
  }

  /** The graph once the features are read; DGL refuses a feature whose
      row count is not the graph's node or edge count. */
  function CheckedGraph(pairs: seq<(int, int)>, f: Features, cfg: ParseConfig, vExtra: seq<string>,
                        vt: Table, et: Table, mode: string): (r: Result<Parsed>)
    requires Rectangular(vt) && Rectangular(et) && Gathered(f, cfg, vExtra, vt, et)
    requires GraphOutput(mode)
    ensures mode == "pyg" ==> r == Ok(GraphOf(pairs, f, cfg, vExtra, vt, et, mode))
    ensures r.Ok? ==> r.value == GraphOf(pairs, f, cfg, vExtra, vt, et, mode)
    ensures r.Err? ==> r.error == FeatureSizeMismatch && mode == "dgl"
    ensures r.Ok? && mode == "dgl" ==> DglConsistent(r.value.graph)
    ensures r.Ok? && mode == "dgl" && WritesData(cfg.vIn, cfg.vOut, vExtra, cfg.vTypes) ==> r.value.graph.numNodes == |vt.rows|
    ensures r.Ok? && mode == "dgl" && WritesData(cfg.eIn, cfg.eOut, cfg.eExtra, cfg.eTypes)
            ==> NumEdges(r.value.graph) == |et.rows|
  {
    var nodes := InferredNodes(pairs);
    var edges := |pairs| + if cfg.addSelfLoop then nodes else 0;
    if mode == "dgl" && !DglSizesAgree(f, nodes, edges) then Err(FeatureSizeMismatch)
    else
      DglSidesFit(f, cfg, vExtra, vt, et, nodes, edges);
      Ok(GraphOf(pairs, f, cfg, vExtra, vt, et, mode))
  }

  /** When DGL accepts every assignment, a side that assigns anything has
      one row per node (vertex side) or per edge (edge side). */
  lemma DglSidesFit(f: Features, cfg: ParseConfig, vExtra: seq<string>, vt: Table, et: Table, nodes: nat, edges: nat)
    requires Rectangular(vt) && Rectangular(et) && Gathered(f, cfg, vExtra, vt, et)
    ensures DglSizesAgree(f, nodes, edges) && WritesData(cfg.vIn, cfg.vOut, vExtra, cfg.vTypes) ==> nodes == |vt.rows|
    ensures DglSizesAgree(f, nodes, edges) && WritesData(cfg.eIn, cfg.eOut, cfg.eExtra, cfg.eTypes) ==> edges == |et.rows|
  {
    var nw := DataWrites(f.nodeFeat, f.nodeLabel, f.nodeExtras);
    var ew := DataWrites(f.edgeFeat, f.edgeLabel, f.edgeExtras);
    SideWritesFit(f.nodeFeat, f.nodeLabel, f.nodeExtras, cfg.vIn, cfg.vOut, vExtra, cfg.vTypes, vt);
    SideWritesFit(f.edgeFeat, f.edgeLabel, f.edgeExtras, cfg.eIn, cfg.eOut, cfg.eExtra, cfg.eTypes, et);
    if DglSizesAgree(f, nodes, edges) && WritesData(cfg.vIn, cfg.vOut, vExtra, cfg.vTypes) {
      WritesFitUnique(nw, nodes, |vt.rows|);
    }
    if DglSizesAgree(f, nodes, edges) && WritesData(cfg.eIn, cfg.eOut, cfg.eExtra, cfg.eTypes) {
      WritesFitUnique(ew, edges, |et.rows|);
    }
  }

  /** The PyG store or the DGL graph built from the edge list and the
      features read. */
  function GraphOf(pairs: seq<(int, int)>, f: Features, cfg: ParseConfig, vExtra: seq<string>,
                   vt: Table, et: Table, mode: string): (p: Parsed)
    requires Rectangular(vt) && Rectangular(et) && Gathered(f, cfg, vExtra, vt, et)
    requires GraphOutput(mode)
    ensures (p.Pyg? <==> mode == "pyg") && (p.Dgl? <==> mode == "dgl")
    ensures p.Dgl? ==> p.graph.edges == pairs
    ensures p.Dgl? ==> p.graph.numNodes == InferredNodes(pairs) && p.graph.selfLoops == cfg.addSelfLoop
    ensures p.Dgl? && DglSizesAgree(f, p.graph.numNodes, NumEdges(p.graph)) ==> DglConsistent(p.graph)
    ensures p.Pyg? && NoExtraNamed(f.edgeExtras, "edge_index") && NoExtraNamed(f.nodeExtras, "edge_index")
            ==> "edge_index" in p.store && p.store["edge_index"] == EdgeIndex(pairs, cfg.addSelfLoop)
    ensures KeepsVertexColumns(p, cfg, vExtra, vt)
    ensures ExtraDataAsWritten(p, cfg, vExtra)
  {
    if mode == "pyg" then
      PygFromColumns(pairs, cfg.addSelfLoop, f, cfg, vExtra, vt, et);
      Pyg(PygStore(pairs, cfg.addSelfLoop, f))
    else
      DglFromColumns(pairs, cfg.addSelfLoop, f, cfg, vExtra, vt, et);
      Dgl(DglWith(pairs, cfg.addSelfLoop, f, DglExtraDataAsWritten(f)))
  }

  /** `_parse_data` once `out_format` is lowercased. */
  function ParseLowered(raw: Raw, cfg: ParseConfig, mode: string): (r: Result<ParseResult>)
    ensures !KnownFormat(cfg.inFormat) ==> r == Err(NotImplemented)
    ensures r.Ok? ==> (raw.Both? <==> GraphFormat(cfg.inFormat))
    ensures GraphOutput(mode) && !GraphFormat(cfg.inFormat) ==> r.Err?
    ensures GraphOutput(mode) && !GraphFormat(cfg.inFormat) && DecodeRaw(raw, cfg).Ok?
            ==> r == Err(GraphFormatNeedsGraph)
    ensures !GraphOutput(mode) && mode != "dataframe" ==> r.Err?
    ensures r.Ok? && mode == "dataframe" ==>
              && (VertexFormat(cfg.inFormat) ==> r.value.data == Frame(Table(VertexColumns(cfg.vIn, cfg.vOut, cfg.vExtra), raw.blob)))
              && (EdgeFormat(cfg.inFormat) ==> r.value.data == Frame(Table(EdgeColumns(cfg.eIn, cfg.eOut, cfg.eExtra), raw.blob)))
              && (cfg.inFormat == "graph_bytes" ==>
                    r.value.data == Frames(Table(VertexColumns(cfg.vIn, cfg.vOut, cfg.vExtra), raw.vertexBlob),
                                           Table(EdgeColumns(cfg.eIn, cfg.eOut, cfg.eExtra), raw.edgeBlob)))
    ensures r.Ok? ==> (r.value.data.Pyg? <==> mode == "pyg") && (r.value.data.Dgl? <==> mode == "dgl")
    ensures r.Ok? && mode == "dataframe" ==>
              (r.value.data.Frame? <==> !GraphFormat(cfg.inFormat)) && (r.value.data.Frames? <==> GraphFormat(cfg.inFormat))
    ensures r.Ok? && cfg.primaryId == [] ==> r.value.vExtra == cfg.vExtra
    ensures r.Ok? && GraphOutput(mode) ==>
              && NumericTyped(cfg.eIn, cfg.eTypes) && NumericTyped(cfg.eOut, cfg.eTypes)
              && NumericTyped(cfg.vIn, cfg.vTypes) && NumericTyped(cfg.vOut, cfg.vTypes)
    ensures r.Ok? && GraphOutput(mode) && cfg.reindex
            && (mode == "dgl" || ("edge_index" !in cfg.eExtra && "edge_index" !in cfg.vExtra))
            ==> EdgesWithin(r.value.data, |raw.vertexBlob|)
    ensures r.Ok? && mode == "dgl" ==> DglConsistent(r.value.data.graph) && r.value.data.graph.selfLoops == cfg.addSelfLoop
    ensures r.Ok? && mode == "dgl" && WritesData(cfg.vIn, cfg.vOut, r.value.vExtra, cfg.vTypes)
            ==> r.value.data.graph.numNodes == |raw.vertexBlob|
    ensures r.Ok? && mode == "dgl" && WritesData(cfg.eIn, cfg.eOut, cfg.eExtra, cfg.eTypes)
            ==> NumEdges(r.value.data.graph) == |r.value.data.graph.edges|
  {
    var d :- DecodeRaw(raw, cfg);
    if GraphOutput(mode) then
      match d.data
      case Single(_) => Err(GraphFormatNeedsGraph)
      case Pair(vt, et) =>
        assert "edge_index" !in cfg.vExtra ==> "edge_index" !in d.vExtra;
        AssembledDglSized(vt, et, cfg, d.vExtra);
        var out :- AssembleGraph(vt, et, cfg, d.vExtra, mode);
        Ok(ParseResult(out, d.vExtra))
    else if mode == "dataframe" then
      Ok(ParseResult(match d.data
                     case Single(t) => Frame(t)
                     case Pair(vt, et) => Frames(vt, et), d.vExtra))
    else Err(NotImplemented)
  }

  /** `_parse_data`: the output format is matched on its lowercase form,
      so the result's kind follows `out_format` whatever its case; an
      unknown input or output format raises. */
  function ParseData(raw: Raw, cfg: ParseConfig, outFormat: string): (r: Result<ParseResult>)
    ensures !KnownFormat(cfg.inFormat) ==> r == Err(NotImplemented)
    ensures !GraphOutput(Lower(outFormat)) && Lower(outFormat) != "dataframe" ==> r.Err?
    ensures r.Ok? ==> (raw.Both? <==> GraphFormat(cfg.inFormat))
    ensures r.Ok? ==> (r.value.data.Pyg? <==> Lower(outFormat) == "pyg") && (r.value.data.Dgl? <==> Lower(outFormat) == "dgl")
    ensures r.Ok? && Lower(outFormat) == "dataframe" ==>
              (r.value.data.Frame? <==> !GraphFormat(cfg.inFormat)) && (r.value.data.Frames? <==> GraphFormat(cfg.inFormat))
    ensures r.Ok? && GraphOutput(Lower(outFormat)) ==>
              && GraphFormat(cfg.inFormat)
              && NumericTyped(cfg.eIn, cfg.eTypes) && NumericTyped(cfg.eOut, cfg.eTypes)
              && NumericTyped(cfg.vIn, cfg.vTypes) && NumericTyped(cfg.vOut, cfg.vTypes)
    ensures r.Ok? && Lower(outFormat) == "dgl" ==>
              DglConsistent(r.value.data.graph) && r.value.data.graph.selfLoops == cfg.addSelfLoop
    ensures r.Ok? && Lower(outFormat) == "dgl" && WritesData(cfg.vIn, cfg.vOut, r.value.vExtra, cfg.vTypes)
            ==> r.value.data.graph.numNodes == |raw.vertexBlob|
    ensures r.Ok? && Lower(outFormat) == "dgl" && WritesData(cfg.eIn, cfg.eOut, cfg.eExtra, cfg.eTypes)
            ==> NumEdges(r.value.data.graph) == |r.value.data.graph.edges|
  {
    ParseLowered(raw, cfg, Lower(outFormat))
  }

  /** `out_format` is matched case-insensitively. */
  lemma OutFormatCaseInsensitive(raw: Raw, cfg: ParseConfig, outFormat: string)
    ensures ParseData(raw, cfg, outFormat) == ParseData(raw, cfg, Lower(outFormat))
  {
    LowerIdempotent(outFormat);
  }

  /** A string-typed input feature rejects the whole batch in the graph
      formats. */
  lemma StringFeatureFailsParse(raw: Raw, cfg: ParseConfig, mode: string, k: int)
    requires GraphOutput(mode)
    requires 0 <= k < |cfg.vIn| && cfg.vIn[k] in cfg.vTypes && IsStringType(cfg.vTypes[cfg.vIn[k]])
    ensures ParseLowered(raw, cfg, mode).Err?
  {
  }

  /** `extra_data` as written loses the string edge extras whenever the
      vertex side has extras of its own. */
  lemma DglExtraDataDropsEdgeLists(f: Features, k: int)
    requires 0 <= k < |f.edgeExtras| && f.edgeExtras[k].1.Plain?
    requires f.nodeExtras != [] && NoExtraNamed(f.nodeExtras, f.edgeExtras[k].0)
    ensures f.edgeExtras[k].0 !in DglExtraDataAsWritten(f).value
    ensures f.edgeExtras[k].0 in DglExtraData(f).value
  {
  }

  /** A direct `_parse_data` call for DGL with a string edge extra `text`
      and the vertex extra `is_seed`: as written the edge list disappears
      from `extra_data`. */
  lemma SeedExtraHidesEdgeText()
    ensures var f := Features(None, None, [("text", Plain([Str("a")]))],
                              None, None, [("is_seed", Tensor([[Int(1)]]))]);
            && DglExtraDataAsWritten(f) == Some(map[])
            && DglExtraData(f) == Some(map["text" := [Str("a")]])
  {
    var f := Features(None, None, [("text", Plain([Str("a")]))],
                      None, None, [("is_seed", Tensor([[Int(1)]]))]);
    assert ListsOf(f.nodeExtras) == [];
    assert ListsOf(f.edgeExtras) == [("text", [Str("a")])];
    var m := Assign(map[], ListsOf(f.edgeExtras));
    assert m == map["text" := [Str("a")]];
  }

  /** With no string edge extra the reset loses nothing: the two
      definitions of `extra_data` agree. */
  lemma ExtraDataAgreesWithoutEdgeLists(f: Features)
    requires forall k :: 0 <= k < |f.edgeExtras| ==> !f.edgeExtras[k].1.Plain?
    ensures DglExtraDataAsWritten(f) == DglExtraData(f)
  {
    NoListsWithoutStrings(f.edgeExtras);
    assert Assign(map[], ListsOf(f.edgeExtras)) == map[];
  }

  lemma {:induction false} NoListsWithoutStrings(extras: seq<(string, Field)>)
    requires forall k :: 0 <= k < |extras| ==> !extras[k].1.Plain?
    ensures ListsOf(extras) == []
  {
    if extras != [] {
      assert forall k :: 0 <= k < |extras[1..]| ==> extras[1..][k] == extras[k + 1];
      NoListsWithoutStrings(extras[1..]);
    }
  }

  /** Edge extras declared with non-string types are read as tensors, so
      for them the reset of `extra_data` is invisible. */
  lemma ResetLatentForNumericExtras(cfg: ParseConfig, vExtra: seq<string>, vt: Table, et: Table)
    requires Rectangular(vt) && Rectangular(et)
    requires NumericTyped(cfg.eExtra, cfg.eTypes)
    requires GatherFeatures(cfg, vExtra, vt, et).Ok?
    ensures var f := GatherFeatures(cfg, vExtra, vt, et).value;
            DglExtraDataAsWritten(f) == DglExtraData(f)
  {
    var f := GatherFeatures(cfg, vExtra, vt, et).value;
    forall k | 0 <= k < |f.edgeExtras| ensures !f.edgeExtras[k].1.Plain? {
      assert ExtraFieldOf(f.edgeExtras[k], cfg.eExtra[k], cfg.eTypes, et);
    }
    ExtraDataAgreesWithoutEdgeLists(f);
  }
}

=== FILE: reindex.dfy ===
/** The edge list of `_parse_data`. With `reindex`, the vertices are
    numbered by position and the edge table is inner-merged on `vid` twice,
    once for the source and once for the target, so each endpoint becomes
    the position of a vertex with that id and an edge whose endpoint has no
    vertex is dropped. Without it the raw endpoints are cast to integers. */
module Reindex {
  import opened Errors
  import opened Tables
  import opened Columns

  /** Edge rows carry at least the source and target cells. */
  predicate EdgeRows(edges: seq<Row>) {
    forall k :: 0 <= k < |edges| ==> |edges[k]| >= 2
  }

  /** The positions of `vids` holding `v`, ascending: the id-map rows one
      edge row meets in a merge on `vid`. */
  function Matches(vids: seq<Value>, v: Value): (r: seq<nat>)
    ensures forall k :: 0 <= k < |r| ==> r[k] < |vids| && vids[r[k]] == v
    ensures forall i :: 0 <= i < |vids| && vids[i] == v ==> i in r
    ensures forall j, k :: 0 <= j < k < |r| ==> r[j] < r[k]
  {
    if vids == [] then []
    else
      var rest := Matches(vids[..|vids| - 1], v);
      if vids[|vids| - 1] == v then rest + [|vids| - 1] else rest
  }

  /** With distinct ids a present id matches once and an absent one never. */
  lemma MatchesUnique(vids: seq<Value>, v: Value)
    requires forall i, j :: 0 <= i < j < |vids| ==> vids[i] != vids[j]
    ensures v in vids ==> exists i :: 0 <= i < |vids| && Matches(vids, v) == [i]
    ensures v !in vids ==> Matches(vids, v) == []
  {
    if v in vids {
      var i :| 0 <= i < |vids| && vids[i] == v;
      MatchesAt(vids, v, i);
    } else {
      MatchesAbsent(vids, v);
    }
  }

  lemma {:induction false} MatchesAbsent(vids: seq<Value>, v: Value)
    requires v !in vids
    ensures Matches(vids, v) == []
  {
    if vids != [] {
      MatchesAbsent(vids[..|vids| - 1], v);
    }
  }

  /** With distinct ids, the one position holding `v` is its only match. */
  lemma {:induction false} MatchesAt(vids: seq<Value>, v: Value, i: int)
    requires forall i, j :: 0 <= i < j < |vids| ==> vids[i] != vids[j]
    requires 0 <= i < |vids| && vids[i] == v
    ensures Matches(vids, v) == [i]
  {
    var init := vids[..|vids| - 1];
    if i == |vids| - 1 {
      assert forall j :: 0 <= j < |init| ==> init[j] == vids[j] != v;
      MatchesAbsent(init, v);
    } else {
      assert vids[|vids| - 1] != v;
      assert forall a, b :: 0 <= a < b < |init| ==> init[a] == vids[a] && init[b] == vids[b];
      MatchesAt(init, v, i);
    }
  }

  /** One row of the merged edge table and the two positions it was given. */
  datatype Joined = Joined(row: Row, src: nat, dst: nat)

  /** The merged rows one edge row produces: every source match paired with
      every target match. */
  function Product(row: Row, srcs: seq<nat>, dsts: seq<nat>): (r: seq<Joined>)
    ensures |r| == |srcs| * |dsts|
    ensures forall k :: 0 <= k < |r| ==> r[k].row == row && r[k].src in srcs && r[k].dst in dsts
  {
    if srcs == [] then []
    else
      var rest := Product(row, srcs[1..], dsts);
      seq(|dsts|, j requires 0 <= j < |dsts| => Joined(row, srcs[0], dsts[j])) + rest
  }

  /** `edges.merge(id_map, left_on="source")` followed by
      `.merge(id_map, left_on="target")`, in edge-row order. */
  function Join(vids: seq<Value>, edges: seq<Row>): (r: seq<Joined>)
    requires EdgeRows(edges)
    ensures forall k :: 0 <= k < |r| ==>
              && r[k].row in edges
              && r[k].src < |vids| && vids[r[k].src] == r[k].row[0]
              && r[k].dst < |vids| && vids[r[k].dst] == r[k].row[1]
  {
    if edges == [] then []
    else
      var e := edges[0];
      Product(e, Matches(vids, e[0]), Matches(vids, e[1])) + Join(vids, edges[1..])
  }

  /** Every edge whose endpoints both have a vertex survives the merge, once
      for each pair of vertices carrying those ids. */
  lemma {:induction false} JoinComplete(vids: seq<Value>, edges: seq<Row>, k: int, i: nat, j: nat)
    requires EdgeRows(edges)
    requires 0 <= k < |edges|
    requires i < |vids| && vids[i] == edges[k][0]
    requires j < |vids| && vids[j] == edges[k][1]
    ensures Joined(edges[k], i, j) in Join(vids, edges)
  {
    if k == 0 {
      ProductContains(edges[0], Matches(vids, edges[0][0]), Matches(vids, edges[0][1]), i, j);
    } else {
      assert edges[1..][k - 1] == edges[k];
      JoinComplete(vids, edges[1..], k - 1, i, j);
    }
  }

  lemma {:induction false} ProductContains(row: Row, srcs: seq<nat>, dsts: seq<nat>, i: nat, j: nat)
    requires i in srcs && j in dsts
    ensures Joined(row, i, j) in Product(row, srcs, dsts)
  {
    var head := seq(|dsts|, t requires 0 <= t < |dsts| => Joined(row, srcs[0], dsts[t]));
    if srcs[0] == i {
      var t :| 0 <= t < |dsts| && dsts[t] == j;
      assert head[t] == Joined(row, i, j);
    } else {
      ProductContains(row, srcs[1..], dsts, i, j);
    }
  }

  /** Both endpoints of the edge are vertex ids of the batch. */
  predicate Present(vids: seq<Value>, e: Row)
    requires |e| >= 2
  {
    e[0] in vids && e[1] in vids
  }

  /** The edge rows whose endpoints are both present, in order. */
  function KeepPresent(vids: seq<Value>, edges: seq<Row>): (r: seq<Row>)
    requires EdgeRows(edges)
  {
    if edges == [] then []
    else (if Present(vids, edges[0]) then [edges[0]] else []) + KeepPresent(vids, edges[1..])
  }

  function RowsOf(js: seq<Joined>): (rows: seq<Row>)
    ensures |rows| == |js|
  {
    seq(|js|, k requires 0 <= k < |js| => js[k].row)
  }

  /** With distinct vertex ids the merge is a filter: exactly the edges
      with both endpoints present remain, each once, in order. */
  lemma {:induction false} JoinFiltersWhenIdsDistinct(vids: seq<Value>, edges: seq<Row>)
    requires forall i, j :: 0 <= i < j < |vids| ==> vids[i] != vids[j]
    requires EdgeRows(edges)
    ensures RowsOf(Join(vids, edges)) == KeepPresent(vids, edges)
  {
    if edges != [] {
      var e := edges[0];
      var p := Product(e, Matches(vids, e[0]), Matches(vids, e[1]));
      var rest := Join(vids, edges[1..]);
      JoinFiltersWhenIdsDistinct(vids, edges[1..]);
      ProductOfUniqueIds(vids, e);
      RowsOfAppend(p, rest);
    }
  }

  /** One edge row's share of the merge, with distinct ids. */
  lemma ProductOfUniqueIds(vids: seq<Value>, e: Row)
    requires forall i, j :: 0 <= i < j < |vids| ==> vids[i] != vids[j]
    requires |e| >= 2
    ensures RowsOf(Product(e, Matches(vids, e[0]), Matches(vids, e[1]))) == if Present(vids, e) then [e] else []
  {
    MatchesUnique(vids, e[0]);
    MatchesUnique(vids, e[1]);
    var p := Product(e, Matches(vids, e[0]), Matches(vids, e[1]));
    if Present(vids, e) {
      assert |p| == 1;
    }
  }

  lemma RowsOfAppend(a: seq<Joined>, b: seq<Joined>)
    ensures RowsOf(a + b) == RowsOf(a) + RowsOf(b)
  {
  }

  /** The vertex ids: column `vid`, the first column of the vertex table. */
  function Vids(vertices: Table): (vids: seq<Value>)
    requires Rectangular(vertices) && |vertices.columns| >= 1
    ensures |vids| == |vertices.rows|
    ensures forall i :: 0 <= i < |vids| ==> vids[i] == vertices.rows[i][0]
  {
    seq(|vertices.rows|, i requires 0 <= i < |vertices.rows| => vertices.rows[i][0])
  }

  /** `torch.tensor(edges[["source", "target"]].to_numpy().T, dtype=torch.long)`:
      every endpoint must be an integer. */
  function CastEndpoints(edges: seq<Row>): (r: Result<seq<(int, int)>>)
    requires EdgeRows(edges)
    ensures r.Ok? <==> forall k :: 0 <= k < |edges| ==> edges[k][0].Int? && edges[k][1].Int?
    ensures r.Err? ==> r.error == CastError
    ensures r.Ok? ==> |r.value| == |edges|
    ensures r.Ok? ==> forall k :: 0 <= k < |edges| ==> r.value[k] == (edges[k][0].i, edges[k][1].i)
  {
    if edges == [] then Ok([])
    else if !(edges[0][0].Int? && edges[0][1].Int?) then Err(CastError)
    else
      var rest :- CastEndpoints(edges[1..]);
      assert forall k :: 0 < k < |edges| ==> edges[1..][k - 1] == edges[k];
      Ok([(edges[0][0].i, edges[0][1].i)] + rest)
  }

  /** What a merge key column holds, as the merge sees its dtype: no cells,
      only integers (`int64`), or some text (`object`). */
  datatype KeyKind = NoKeys | IntKeys | TextKeys

  function KindOf(cells: seq<Value>): (k: KeyKind)
    ensures k == NoKeys <==> cells == []
    ensures k == IntKeys <==> cells != [] && forall i :: 0 <= i < |cells| ==> cells[i].Int?
    ensures k == TextKeys <==> exists i :: 0 <= i < |cells| && cells[i].Str?
  {
    if cells == [] then NoKeys
    else if forall i :: 0 <= i < |cells| ==> cells[i].Int? then IntKeys
    else TextKeys
  }

  /** Pandas refuses to merge an `int64` key column with an `object` one
      holding strings, in either order. */
  predicate Clash(a: KeyKind, b: KeyKind) {
    (a == IntKeys && b == TextKeys) || (a == TextKeys && b == IntKeys)
  }

  /** Column `i` of the edge rows. */
  function Endpoints(edges: seq<Row>, i: nat): (cells: seq<Value>)
    requires i < 2 && EdgeRows(edges)
    ensures |cells| == |edges|
    ensures forall k :: 0 <= k < |edges| ==> cells[k] == edges[k][i]
  {
    seq(|edges|, k requires 0 <= k < |edges| => edges[k][i])
  }

  /** The two merges' dtype checks: `source` against `vid`, then `target`
      against `vid`. The merged table keeps each edge column's dtype, so
      the second merge sees the target column as the edge table decoded it. */
  predicate MergeKeysAgree(vertices: Table, edges: Table)
    requires Rectangular(vertices) && |vertices.columns| >= 1
    requires Rectangular(edges) && |edges.columns| >= 2
  {
    assert EdgeRows(edges.rows);
    var vk := KindOf(Vids(vertices));
    && !Clash(KindOf(Endpoints(edges.rows, 0)), vk)
    && !Clash(KindOf(Endpoints(edges.rows, 1)), vk)
  }

  /** The edge list and the edge table the edge features are read from. */
  datatype EdgeList = EdgeList(pairs: seq<(int, int)>, table: Table)

  /** The edge-list step of `_parse_data` for a decoded vertex/edge pair. */
  function BuildEdgeList(vertices: Table, edges: Table, reindex: bool): (r: Result<EdgeList>)
    requires Rectangular(vertices) && |vertices.columns| >= 1
    requires Rectangular(edges) && |edges.columns| >= 2
    ensures reindex ==> (r.Ok? <==> MergeKeysAgree(vertices, edges))
    ensures reindex && r.Err? ==> r.error == MergeKeyMismatch
    ensures r.Ok? ==> Rectangular(r.value.table) && r.value.table.columns == edges.columns
    ensures r.Ok? ==> |r.value.pairs| == |r.value.table.rows|
    ensures r.Ok? && reindex ==>
              forall k :: 0 <= k < |r.value.pairs| ==>
                && 0 <= r.value.pairs[k].0 < |vertices.rows|
                && 0 <= r.value.pairs[k].1 < |vertices.rows|
                && vertices.rows[r.value.pairs[k].0][0] == r.value.table.rows[k][0]
                && vertices.rows[r.value.pairs[k].1][0] == r.value.table.rows[k][1]
    ensures r.Ok? && reindex ==> forall k :: 0 <= k < |r.value.table.rows| ==> r.value.table.rows[k] in edges.rows
    ensures !reindex ==> (r.Ok? <==> forall k :: 0 <= k < |edges.rows| ==> edges.rows[k][0].Int? && edges.rows[k][1].Int?)
    ensures r.Ok? && !reindex ==> r.value.table == edges
                                  && forall k :: 0 <= k < |edges.rows| ==>
                                       r.value.pairs[k] == (edges.rows[k][0].i, edges.rows[k][1].i)
  {
    assert EdgeRows(edges.rows);
    if reindex then
      if !MergeKeysAgree(vertices, edges) then Err(MergeKeyMismatch)
      else
        var joined := Join(Vids(vertices), edges.rows);
        var pairs := seq(|joined|, k requires 0 <= k < |joined| => (joined[k].src as int, joined[k].dst as int));
        Ok(EdgeList(pairs, Table(edges.columns, RowsOf(joined))))
    else
      var pairs :- CastEndpoints(edges.rows);
      Ok(EdgeList(pairs, edges))
  }

  /** Integer vertex ids merge with integer endpoints: a batch whose ids
      and endpoints all decode as integers is reindexed without error. */
  lemma IntegerIdsMerge(vertices: Table, edges: Table)
    requires Rectangular(vertices) && |vertices.columns| >= 1
    requires Rectangular(edges) && |edges.columns| >= 2
    requires forall i :: 0 <= i < |vertices.rows| ==> vertices.rows[i][0].Int?
    requires forall k :: 0 <= k < |edges.rows| ==> edges.rows[k][0].Int? && edges.rows[k][1].Int?
    ensures BuildEdgeList(vertices, edges, true).Ok?
  {
    assert EdgeRows(edges.rows);
    var vk := KindOf(Vids(vertices));
    assert vk != TextKeys;
    assert KindOf(Endpoints(edges.rows, 0)) != TextKeys;
    assert KindOf(Endpoints(edges.rows, 1)) != TextKeys;
  }

  /** Integer vertex ids against a text endpoint: the merge raises instead
      of finding no match. */
  lemma TextEndpointAgainstIntegerIds()
    ensures var vertices := Table(["vid"], [[Int(1)]]);
            var edges := Table(["source", "target"], [[Str("a"), Int(1)]]);
            BuildEdgeList(vertices, edges, true) == Err(MergeKeyMismatch)
  {
    var vertices := Table(["vid"], [[Int(1)]]);
    var edges := Table(["source", "target"], [[Str("a"), Int(1)]]);
    assert Rectangular(vertices) && Rectangular(edges) && EdgeRows(edges.rows);
    var vids := Vids(vertices);
    var sources := Endpoints(edges.rows, 0);
    assert |vids| == 1 && vids[0].Int?;
    assert KindOf(vids) == IntKeys;
    assert |sources| == 1 && sources[0].Str?;
    assert KindOf(sources) == TextKeys;
    assert !MergeKeysAgree(vertices, edges);
  }
}

=== FILE: schema.dfy ===
/** The schema cache: the engine's schema description flattened into
    "type name -> attribute name -> declared type", as `_get_schema` does
    once at loader construction. */
module Schema {
  import opened Errors
  import opened Dicts

  /** An attribute type as the engine describes it. Container attributes
      (lists, sets) carry the element type in `ValueTypeName`. */
  datatype AttrType = AttrType(name: string, valueTypeName: Option<string>)

  datatype Attribute = Attribute(name: string, attrType: AttrType)

  datatype PrimaryId = PrimaryId(name: string, attrType: AttrType, asAttribute: bool)

  datatype VertexType = VertexType(name: string, attributes: seq<Attribute>, primaryId: PrimaryId)

  datatype EdgeType = EdgeType(name: string, attributes: seq<Attribute>)

  datatype GraphSchema = GraphSchema(vertexTypes: seq<VertexType>, edgeTypes: seq<EdgeType>)

  /** Attribute name -> declared type name of one vertex or edge type. */
  type TypeAttrs = map<string, string>

  /** Type name -> its attributes, in the order the engine listed the types. */
  type Schema = Dict<string, TypeAttrs>

  /** The type recorded for an attribute: the element type when there is one. */
  function DeclaredType(t: AttrType): string {
    match t.valueTypeName
    case Some(v) => v
    case None => t.name
  }

  /** No later attribute in `attrs` reuses the name of `attrs[i]`. */
  predicate LastOfName(attrs: seq<Attribute>, i: int)
    requires 0 <= i < |attrs|
  {
    forall j :: i < j < |attrs| ==> attrs[j].name != attrs[i].name
  }

  /** The attribute map of one type, filled in list order (a later
      attribute of the same name overwrites an earlier one). */
  function AttrMap(attrs: seq<Attribute>): (m: TypeAttrs)
    ensures m.Keys == set a | a in attrs :: a.name
    ensures forall i :: 0 <= i < |attrs| && LastOfName(attrs, i) ==>
                          m[attrs[i].name] == DeclaredType(attrs[i].attrType)
  {
    if attrs == [] then map[]
    else
      var init := attrs[..|attrs| - 1];
      var last := attrs[|attrs| - 1];
      AttrMapSnoc(attrs);
      AttrMap(init)[last.name := DeclaredType(last.attrType)]
  }

  /** How the last attribute relates to the ones before it. */
  lemma AttrMapSnoc(attrs: seq<Attribute>)
    requires attrs != []
    ensures var init := attrs[..|attrs| - 1];
            && (set a | a in attrs :: a.name) == (set a | a in init :: a.name) + {attrs[|attrs| - 1].name}
            && forall i :: 0 <= i < |init| && LastOfName(attrs, i) ==>
                 LastOfName(init, i) && init[i] == attrs[i] && attrs[i].name != attrs[|attrs| - 1].name
  {
    var init := attrs[..|attrs| - 1];
    assert attrs == init + [attrs[|attrs| - 1]];
  }

  /** The attributes of a vertex type; the primary id joins them, under its
      plain type `Name`, only when it is exposed as an attribute. */
  function VertexAttrs(vt: VertexType): (m: TypeAttrs)
    ensures vt.primaryId.asAttribute ==> vt.primaryId.name in m && m[vt.primaryId.name] == vt.primaryId.attrType.name
    ensures m.Keys == AttrMap(vt.attributes).Keys +
                      (if vt.primaryId.asAttribute then {vt.primaryId.name} else {})
    ensures forall n :: n in m && n != vt.primaryId.name ==> m[n] == AttrMap(vt.attributes)[n]
    ensures !vt.primaryId.asAttribute ==> m == AttrMap(vt.attributes)
  {
    var m := AttrMap(vt.attributes);
    if vt.primaryId.asAttribute then m[vt.primaryId.name := vt.primaryId.attrType.name] else m
  }

  /** `schema[name] = {...}` for each type in turn: a name listed twice
      keeps its first place and takes the attributes of its last listing. */
  function Fill(entries: Schema): (s: Schema)
    ensures UniqueKeys(s)
    ensures forall n :: n in Keys(s) <==> n in Keys(entries)
    ensures forall i :: 0 <= i < |entries| && LastEntry(entries, i) ==> Get(s, entries[i].0) == Some(entries[i].1)
  {
    if entries == [] then []
    else
      var init := entries[..|entries| - 1];
      var last := entries[|entries| - 1];
      FillSnoc(entries);
      Put(Fill(init), last.0, last.1)
  }

  /** No later entry reuses the name of entry `i`. */
  predicate LastEntry(entries: Schema, i: int)
    requires 0 <= i < |entries|
  {
    forall j :: i < j < |entries| ==> entries[j].0 != entries[i].0
  }

  /** How the last entry relates to the ones before it. */
  lemma FillSnoc(entries: Schema)
    requires entries != []
    ensures var init := entries[..|entries| - 1];
            && Keys(entries) == Keys(init) + [entries[|entries| - 1].0]
            && forall i :: 0 <= i < |init| && LastEntry(entries, i) ==>
                 LastEntry(init, i) && init[i] == entries[i] && entries[i].0 != entries[|entries| - 1].0
  {
    var init := entries[..|entries| - 1];
    assert forall i :: 0 <= i < |init| ==> init[i] == entries[i];
  }

  /** With distinct names the filled schema is the list of entries itself. */
  lemma {:induction false} FillInOrder(entries: Schema)
    requires UniqueKeys(entries)
    ensures Fill(entries) == entries
  {
    if entries != [] {
      var init := entries[..|entries| - 1];
      var last := entries[|entries| - 1];
      assert entries == init + [last];
      assert forall i :: 0 <= i < |init| ==> init[i] == entries[i];
      assert forall i :: 0 <= i < |init| ==> Keys(init)[i] == init[i].0 != last.0;
      FillInOrder(init);
      PutAppends(init, last.0, last.1);
    }
  }

  /** One entry per vertex type, in the engine's order. */
  function VertexEntries(vts: seq<VertexType>): (r: Schema)
    ensures |r| == |vts|
    ensures forall i :: 0 <= i < |vts| ==> r[i] == (vts[i].name, VertexAttrs(vts[i]))
  {
    seq(|vts|, i requires 0 <= i < |vts| => (vts[i].name, VertexAttrs(vts[i])))
  }

  /** One entry per edge type, in the engine's order. */
  function EdgeEntries(ets: seq<EdgeType>): (r: Schema)
    ensures |r| == |ets|
    ensures forall i :: 0 <= i < |ets| ==> r[i] == (ets[i].name, AttrMap(ets[i].attributes))
  {
    seq(|ets|, i requires 0 <= i < |ets| => (ets[i].name, AttrMap(ets[i].attributes)))
  }

  /** `n` is the name of one of the entries. */
  predicate Named(entries: Schema, n: string) {
    exists i :: 0 <= i < |entries| && entries[i].0 == n
  }

  /** What `Fill` promises, with its key set stated through the entries. */
  lemma FillNamed(entries: Schema)
    ensures forall n :: n in Keys(Fill(entries)) <==> Named(entries, n)
  {
    forall n ensures n in Keys(entries) <==> Named(entries, n) {
      if n in Keys(entries) {
        var i :| 0 <= i < |entries| && Keys(entries)[i] == n;
      }
      if Named(entries, n) {
        var i :| 0 <= i < |entries| && entries[i].0 == n;
        assert Keys(entries)[i] == n;
      }
    }
  }

  /** The vertex half of `_get_schema`: one key per vertex type name; a
      type listed once maps to exactly its own attributes. */
  function VertexSchema(vts: seq<VertexType>): (s: Schema)
    ensures UniqueKeys(s)
    ensures forall n :: n in Keys(s) <==> Named(VertexEntries(vts), n)
    ensures forall i :: 0 <= i < |vts| && LastEntry(VertexEntries(vts), i) ==> Get(s, vts[i].name) == Some(VertexAttrs(vts[i]))
  {
    FillNamed(VertexEntries(vts));
    Fill(VertexEntries(vts))
  }

  /** The edge half of `_get_schema`: edge types have no primary id. */
  function EdgeSchema(ets: seq<EdgeType>): (s: Schema)
    ensures UniqueKeys(s)
    ensures forall n :: n in Keys(s) <==> Named(EdgeEntries(ets), n)
    ensures forall i :: 0 <= i < |ets| && LastEntry(EdgeEntries(ets), i) ==> Get(s, ets[i].name) == Some(AttrMap(ets[i].attributes))
  {
    FillNamed(EdgeEntries(ets));
    Fill(EdgeEntries(ets))
  }

  /** `_get_schema`: the vertex schema and the edge schema, each with one
      key per type name, a type's attributes under its name, and the
      engine's order when no name repeats. */
  function GetSchema(g: GraphSchema): (r: (Schema, Schema))
    ensures UniqueKeys(r.0) && UniqueKeys(r.1)
    ensures forall n :: n in Keys(r.0) <==> exists i :: 0 <= i < |g.vertexTypes| && g.vertexTypes[i].name == n
    ensures forall n :: n in Keys(r.1) <==> exists i :: 0 <= i < |g.edgeTypes| && g.edgeTypes[i].name == n
    ensures UniqueKeys(VertexEntries(g.vertexTypes)) ==> r.0 == VertexEntries(g.vertexTypes)
    ensures UniqueKeys(EdgeEntries(g.edgeTypes)) ==> r.1 == EdgeEntries(g.edgeTypes)
  {
    var vs, es := VertexEntries(g.vertexTypes), EdgeEntries(g.edgeTypes);
    InOrderWhenUnique(vs);
    InOrderWhenUnique(es);
    VertexTypesNamed(g.vertexTypes);
    EdgeTypesNamed(g.edgeTypes);
    (VertexSchema(g.vertexTypes), EdgeSchema(g.edgeTypes))
  }

  /** An entry is named `n` exactly when a vertex type is. */
  lemma VertexTypesNamed(vts: seq<VertexType>)
    ensures forall n :: Named(VertexEntries(vts), n) <==> exists i :: 0 <= i < |vts| && vts[i].name == n
  {
    var vs := VertexEntries(vts);
    forall n ensures Named(vs, n) <==> exists i :: 0 <= i < |vts| && vts[i].name == n {
      if Named(vs, n) {
        var i :| 0 <= i < |vs| && vs[i].0 == n;
        assert vts[i].name == n;
      }
    }
  }

  /** An entry is named `n` exactly when an edge type is. */
  lemma EdgeTypesNamed(ets: seq<EdgeType>)
    ensures forall n :: Named(EdgeEntries(ets), n) <==> exists i :: 0 <= i < |ets| && ets[i].name == n
  {
    var es := EdgeEntries(ets);
    forall n ensures Named(es, n) <==> exists i :: 0 <= i < |ets| && ets[i].name == n {
      if Named(es, n) {
        var i :| 0 <= i < |es| && es[i].0 == n;
        assert ets[i].name == n;
      }
    }
  }

  lemma InOrderWhenUnique(entries: Schema)
    ensures UniqueKeys(entries) ==> Fill(entries) == entries
  {
    if UniqueKeys(entries) {
      FillInOrder(entries);
    }
  }

  /** With distinct type names, the flattened vertex schema lists the types
      in the engine's order, each with exactly its own attributes (so the
      "first type" the loaders use is the first one the engine listed). */
  lemma VertexSchemaInOrder(vts: seq<VertexType>)
    requires forall i, j :: 0 <= i < j < |vts| ==> vts[i].name != vts[j].name
    ensures VertexSchema(vts) == VertexEntries(vts)
  {
    FillInOrder(VertexEntries(vts));
  }

  /** With distinct type names, the flattened edge schema lists the edge
      types in the engine's order, each with exactly its own attributes. */
  lemma EdgeSchemaInOrder(ets: seq<EdgeType>)
    requires forall i, j :: 0 <= i < j < |ets| ==> ets[i].name != ets[j].name
    ensures EdgeSchema(ets) == EdgeEntries(ets)
  {
    FillInOrder(EdgeEntries(ets));
  }

  /** `next(iter(schema.values()))`: the attribute map of the first type. */
  function FirstTypeAttrs(s: Schema): (r: Result<TypeAttrs>)
    ensures r.Err? <==> |s| == 0
    ensures r.Err? ==> r.error == NoTypes
    ensures r.Ok? ==> Get(s, s[0].0) == Some(r.value)
  {
    if s == [] then Err(NoTypes) else Ok(s[0].1)
  }

  /** `next(iter(schema.values()))[attr] = ty`: the loaders write through the
      first type's map, so the cached schema itself changes. */
  function SetFirstTypeAttr(s: Schema, attr: string, ty: string): (r: Result<Schema>)
    ensures r.Err? <==> |s| == 0
    ensures r.Ok? ==> Keys(r.value) == Keys(s)
    ensures r.Ok? ==> r.value[0].1 == s[0].1[attr := ty]
    ensures r.Ok? ==> r.value[1..] == s[1..]
  {
    if s == [] then Err(NoTypes) else Ok([(s[0].0, s[0].1[attr := ty])] + s[1..])
  }
}

=== FILE: stages.dfy ===
/** The queue discipline of the pipeline stages. Each stage writes items to
    the next stage's queue and signals the end of its stream with one
    `None`. A queue is read here as the finite sequence of what was put on
    it. A stage that raises stops without writing the sentinel; a reader
    whose input runs out before a sentinel is still waiting (or was
    cancelled), and has written none either. */
module Stages {
  import opened Errors
  import opened Dicts
  import opened Tables

  datatype Ending =
    | Finished              // the stage wrote its sentinel and returned
    | Failed(error: Error)  // the stage raised
    | Pending               // input ran out before a sentinel: still waiting or polling

  datatype StageOutcome<T> = StageOutcome(queue: seq<Option<T>>, ending: Ending)

  /** A finished stage wrote exactly one sentinel, as its last item; a stage
      that did not finish wrote none. */
  predicate WellTerminated<T>(o: StageOutcome<T>) {
    && (o.ending.Finished? ==> |o.queue| > 0)
    && forall i :: 0 <= i < |o.queue| ==>
         (o.queue[i].None? <==> o.ending.Finished? && i == |o.queue| - 1)
  }

  /** The items a stage wrote before its sentinel. */
  function Payload<T>(o: StageOutcome<T>): (items: seq<T>)
    requires WellTerminated(o)
    ensures |items| == |o.queue| - (if o.ending.Finished? then 1 else 0)
    ensures forall i :: 0 <= i < |items| ==> o.queue[i] == Some(items[i])
  {
    var n := |o.queue| - (if o.ending.Finished? then 1 else 0);
    seq(n, i requires 0 <= i < n => o.queue[i].value)
  }

  /** The queue contents of a stage that wrote `items` and then ended. */
  function Emit<T>(items: seq<T>, ending: Ending): (o: StageOutcome<T>)
    ensures WellTerminated(o)
    ensures Payload(o) == items
    ensures o.ending == ending
  {
    var wrapped := seq(|items|, i requires 0 <= i < |items| => Some(items[i]));
    StageOutcome(wrapped + (if ending.Finished? then [None] else []), ending)
  }

  /** One record of the query response. Either key may be missing. */
  datatype Record = Record(vertexBatch: Option<Dict<string, Blob>>, edgeBatch: Option<Blob>)

  /** The raw unit `_request_rest` builds from one record for a response type. */
  function Shape(rec: Record, respType: string): (r: Result<Raw>)
    ensures respType == "both" ==>
              (r.Ok? <==> rec.vertexBatch.Some? && rec.edgeBatch.Some?)
    ensures respType == "vertex" ==> (r.Ok? <==> rec.vertexBatch.Some?)
    ensures respType == "edge" ==> (r.Ok? <==> rec.edgeBatch.Some?)
    ensures respType !in ["both", "vertex", "edge"] ==> r == Err(UnboundData)
    ensures r.Ok? ==> (r.value.Both? <==> respType == "both")
    ensures r.Ok? && respType != "edge" ==>
              (if r.value.Both? then r.value.vertexBlob else r.value.blob) == Concat(Values(rec.vertexBatch.value))
    ensures r.Ok? && respType != "vertex" ==>
              (if r.value.Both? then r.value.edgeBlob else r.value.blob) == rec.edgeBatch.value
  {
    if respType == "both" then
      if rec.vertexBatch.None? then Err(KeyMissing("vertex_batch"))
      else if rec.edgeBatch.None? then Err(KeyMissing("edge_batch"))
      else Ok(Both(Concat(Values(rec.vertexBatch.value)), rec.edgeBatch.value))
    else if respType == "vertex" then
      if rec.vertexBatch.None? then Err(KeyMissing("vertex_batch"))
      else Ok(One(Concat(Values(rec.vertexBatch.value))))
    else if respType == "edge" then
      if rec.edgeBatch.None? then Err(KeyMissing("edge_batch"))
      else Ok(One(rec.edgeBatch.value))
    else Err(UnboundData)
  }

  /** The loop of `_request_rest`: shapes records in order and stops at the
      first one that raises. */
  function ShapeAll(records: seq<Record>, respType: string): (r: (seq<Raw>, Option<Error>))
    ensures |r.0| <= |records|
    ensures forall i :: 0 <= i < |r.0| ==> Shape(records[i], respType) == Ok(r.0[i])
    ensures r.1.None? ==> |r.0| == |records|
    ensures r.1.Some? ==> |r.0| < |records| && Shape(records[|r.0|], respType) == Err(r.1.value)
  {
    if records == [] then ([], None)
    else match Shape(records[0], respType)
      case Err(e) => ([], Some(e))
      case Ok(raw) =>
        var rest := ShapeAll(records[1..], respType);
        assert forall i :: 0 < i < |records| ==> records[1..][i - 1] == records[i];
        ([raw] + rest.0, rest.1)
  }

  /** `_request_rest` once the query response is in hand. */
  function RequestRest(records: seq<Record>, respType: string): (o: StageOutcome<Raw>)
    ensures WellTerminated(o)
    ensures o.ending.Finished? <==> forall i :: 0 <= i < |records| ==> Shape(records[i], respType).Ok?
    ensures |Payload(o)| <= |records|
    ensures o.ending.Finished? ==> |Payload(o)| == |records|
    ensures forall i :: 0 <= i < |Payload(o)| ==> Shape(records[i], respType) == Ok(Payload(o)[i])
    ensures o.ending.Failed? ==> |Payload(o)| < |records|
                                 && Shape(records[|Payload(o)|], respType) == Err(o.ending.error)
    ensures !o.ending.Pending?
  {
    var (items, failure) := ShapeAll(records, respType);
    Emit(items, if failure.None? then Finished else Failed(failure.value))
  }

  /** Index of the first sentinel in `input`, or `|input|` when there is none. */
  function FirstSentinel<T>(input: seq<Option<T>>): (n: nat)
    ensures n <= |input|
    ensures forall i :: 0 <= i < n ==> input[i].Some?
    ensures n < |input| ==> input[n].None?
  {
    if input == [] || input[0].None? then 0
    else 1 + FirstSentinel(input[1..])
  }

  /** The loop of `_read_data`: parse until the first sentinel. */
  function ReadLoop<R, D>(input: seq<Option<R>>, parse: R -> Result<D>): (r: (seq<D>, Ending))
    ensures |r.0| <= |input|
    ensures forall i :: 0 <= i < |r.0| ==> input[i].Some? && parse(input[i].value) == Ok(r.0[i])
    ensures r.1.Finished? ==> |r.0| < |input| && input[|r.0|].None?
    ensures r.1.Failed? ==> |r.0| < |input| && input[|r.0|].Some?
                            && parse(input[|r.0|].value) == Err(r.1.error)
    ensures r.1.Pending? ==> |r.0| == |input|
  {
    if input == [] then ([], Pending)
    else match input[0]
      case None => ([], Finished)
      case Some(raw) =>
        match parse(raw)
        case Err(e) => ([], Failed(e))
        case Ok(d) =>
          var rest := ReadLoop(input[1..], parse);
          assert forall i :: 0 < i < |input| ==> input[1..][i - 1] == input[i];
          ([d] + rest.0, rest.1)
  }

  /** `_read_data`: one parsed item per raw unit before the first sentinel,
      then the sentinel forwarded. */
  function ReadData<R, D>(input: seq<Option<R>>, parse: R -> Result<D>): (o: StageOutcome<D>)
    ensures WellTerminated(o)
    ensures |Payload(o)| <= FirstSentinel(input)
    ensures forall i :: 0 <= i < |Payload(o)| ==> parse(input[i].value) == Ok(Payload(o)[i])
    ensures o.ending.Finished? <==>
              FirstSentinel(input) < |input|
              && forall i :: 0 <= i < FirstSentinel(input) ==> parse(input[i].value).Ok?
    ensures o.ending.Finished? || o.ending.Pending? ==> |Payload(o)| == FirstSentinel(input)
    ensures o.ending.Failed? ==> |Payload(o)| < FirstSentinel(input)
                                 && parse(input[|Payload(o)|].value) == Err(o.ending.error)
  {
    var (items, ending) := ReadLoop(input, parse);
    Emit(items, ending)
  }

  /** Whatever follows the first sentinel is never read. */
  lemma {:induction false} ReadDataStopsAtSentinel<R, D>(input: seq<Option<R>>, rest: seq<Option<R>>, parse: R -> Result<D>)
    requires FirstSentinel(input) < |input|
    ensures ReadLoop(input + rest, parse) == ReadLoop(input, parse)
  {
    if input[0].Some? && parse(input[0].value).Ok? {
      assert (input + rest)[1..] == input[1..] + rest;
      ReadDataStopsAtSentinel(input[1..], rest, parse);
    }
  }

  /** Chaining a reader behind any well-terminated stage: the reader ends
      with exactly one sentinel precisely when the stage before it did and
      every item parsed. */
  lemma ReaderBehindStage<R, D>(upstream: StageOutcome<R>, parse: R -> Result<D>)
    requires WellTerminated(upstream)
    ensures var o := ReadData(upstream.queue, parse);
            && WellTerminated(o)
            && (o.ending.Finished? <==>
                  upstream.ending.Finished?
                  && forall i :: 0 <= i < |Payload(upstream)| ==> parse(Payload(upstream)[i]).Ok?)
            && |Payload(o)| <= |Payload(upstream)|
            && (o.ending.Pending? ==> !upstream.ending.Finished?)
  {
    var q := upstream.queue;
    var n := |Payload(upstream)|;
    if upstream.ending.Finished? {
      assert q[n].None?;
      assert FirstSentinel(q) == n;
    } else {
      assert FirstSentinel(q) == |q|;
    }
  }

  /** The REST path end to end: the reader behind `_request_rest` finishes
      exactly when every record has the fields the response type needs and
      parses. */
  lemma RestThenRead<D>(records: seq<Record>, respType: string, parse: Raw -> Result<D>)
    ensures var o := ReadData(RequestRest(records, respType).queue, parse);
            && WellTerminated(o)
            && (o.ending.Finished? <==>
                  forall i :: 0 <= i < |records| ==>
                    Shape(records[i], respType).Ok? && parse(Shape(records[i], respType).value).Ok?)
  {
    var u := RequestRest(records, respType);
    ReaderBehindStage(u, parse);
    var o := ReadData(u.queue, parse);
    if u.ending.Finished? && !o.ending.Finished? {
      var i :| 0 <= i < |Payload(u)| && !parse(Payload(u)[i]).Ok?;
      assert Shape(records[i], respType) == Ok(Payload(u)[i]);
    }
    if !u.ending.Finished? {
      var i :| 0 <= i < |records| && !Shape(records[i], respType).Ok?;
    }
  }
}

=== FILE: tables.dfy ===
/** The data that flows between the loader stages.

    CSV text is seen through the decoder: a blob is the sequence of rows it
    holds, and concatenating CSV pieces that each end in a newline
    concatenates their rows. A raw unit is what the requesting stage (or
    the broker drain) hands to the reader: one blob, or a vertex blob and
    an edge blob of the same batch. */
module Tables {

  /** A decoded CSV cell: the decoder infers integers, everything else is text. */
  datatype Value = Int(i: int) | Str(s: string)

  type Row = seq<Value>

  type Blob = seq<Row>

  datatype Raw = One(blob: Blob) | Both(vertexBlob: Blob, edgeBlob: Blob)

  /** `"".join(pieces)` on CSV text, in rows; also any run of pieces
      taken one after another. */
  function Concat<T>(pieces: seq<seq<T>>): (r: seq<T>)
    ensures pieces == [] ==> r == []
  {
    if pieces == [] then [] else pieces[0] + Concat(pieces[1..])
  }

  lemma {:induction false} ConcatAppend<T>(a: seq<seq<T>>, b: seq<seq<T>>)
    ensures Concat(a + b) == Concat(a) + Concat(b)
  {
    if a != [] {
      assert (a + b)[1..] == a[1..] + b;
      ConcatAppend(a[1..], b);
    } else {
      assert a + b == b;
    }
  }

  /** Pieces of one row each concatenate to one row per piece, in order. */
  lemma {:induction false} ConcatSingles<T>(pieces: seq<seq<T>>)
    requires forall i :: 0 <= i < |pieces| ==> |pieces[i]| == 1
    ensures |Concat(pieces)| == |pieces|
    ensures forall i :: 0 <= i < |pieces| ==> Concat(pieces)[i] == pieces[i][0]
  {
    if pieces != [] {
      ConcatSingles(pieces[1..]);
      forall i | 0 < i < |pieces| ensures Concat(pieces)[i] == pieces[i][0] {
        assert pieces[1..][i - 1] == pieces[i];
      }
    }
  }
}

=== FILE: text.dfy ===
/** The handful of Python `str` operations the loaders use:
    `strip()`, `replace()`, `join()`, `lower()`, `startswith()` and `str(n)`. */
module Text {

  /** `c.isspace()` for a single character, as Python 3 defines it. */
  predicate IsSpace(c: char) {
    var n := c as int;
    (9 <= n <= 13) || (28 <= n <= 32) || n == 0x85 || n == 0xA0 || n == 0x1680
    || (0x2000 <= n <= 0x200A) || n == 0x2028 || n == 0x2029 || n == 0x202F
    || n == 0x205F || n == 0x3000
  }

  /** `s.lstrip()`: the suffix of `s` after its leading whitespace. */
  function TrimLeft(s: string): (r: string)
    ensures |r| <= |s| && r == s[|s| - |r|..]
    ensures forall i :: 0 <= i < |s| - |r| ==> IsSpace(s[i])
    ensures r == [] || !IsSpace(r[0])
  {
    if |s| > 0 && IsSpace(s[0]) then TrimLeft(s[1..]) else s
  }

  /** `s.rstrip()`: the prefix of `s` before its trailing whitespace. */
  function TrimRight(s: string): (r: string)
    ensures |r| <= |s| && r == s[..|r|]
    ensures forall i :: |r| <= i < |s| ==> IsSpace(s[i])
    ensures r == [] || !IsSpace(r[|r| - 1])
  {
    if |s| > 0 && IsSpace(s[|s| - 1]) then TrimRight(s[..|s| - 1]) else s
  }

  /** `s.strip()`: `s` without whitespace at either end. */
  function Strip(s: string): (r: string)
    ensures |r| <= |s|
    ensures r == [] || (!IsSpace(r[0]) && !IsSpace(r[|r| - 1]))
  {
    TrimRight(TrimLeft(s))
  }

  /** What `Strip` removes is whitespace, and what it keeps is one slice of `s`. */
  lemma StripIsInnerSlice(s: string) returns (i: nat, j: nat)
    ensures i <= j <= |s| && Strip(s) == s[i..j]
    ensures forall k :: 0 <= k < i ==> IsSpace(s[k])
    ensures forall k :: j <= k < |s| ==> IsSpace(s[k])
  {
    var t := TrimLeft(s);
    var r := TrimRight(t);
    i, j := |s| - |t|, |s| - |t| + |r|;
    SuffixPrefix(s, i, |r|);
    forall k | j <= k < |s| ensures IsSpace(s[k]) {
      assert s[k] == t[k - i];
    }
  }

  /** A prefix of a suffix is a slice. */
  lemma SuffixPrefix<T>(s: seq<T>, i: nat, n: nat)
    requires i + n <= |s|
    ensures s[i..][..n] == s[i..i + n]
    ensures forall k :: i <= k < |s| ==> s[i..][k - i] == s[k]
  {
  }

  lemma StripIdempotent(s: string)
    ensures Strip(Strip(s)) == Strip(s)
  {
    var r := Strip(s);
    assert TrimLeft(r) == r;
    assert TrimRight(r) == r;
  }

  /** `" x "` and `"x"` strip to the same name. */
  lemma StripIgnoresPadding(pre: string, s: string, post: string)
    requires forall k :: 0 <= k < |pre| ==> IsSpace(pre[k])
    requires forall k :: 0 <= k < |post| ==> IsSpace(post[k])
    ensures Strip(pre + s + post) == Strip(s)
  {
    TrimLeftSkipsSpaces(pre, s + post);
    assert pre + s + post == pre + (s + post);
    var t := TrimLeft(s);
    TrimLeftKeepsTail(s, post);
    TrimRightSkipsSpaces(t, post);
  }

  lemma {:induction false} TrimLeftSkipsSpaces(pre: string, s: string)
    requires forall k :: 0 <= k < |pre| ==> IsSpace(pre[k])
    ensures TrimLeft(pre + s) == TrimLeft(s)
    decreases |pre|
  {
    if pre != [] {
      assert IsSpace(pre[0]) && (pre + s)[0] == pre[0];
      assert (pre + s)[1..] == pre[1..] + s;
      TrimLeftSkipsSpaces(pre[1..], s);
    } else {
      assert pre + s == s;
    }
  }

  /** Trimming the front of `s + post` trims the front of `s` unless all of `s` is space. */
  lemma {:induction false} TrimLeftKeepsTail(s: string, post: string)
    ensures TrimLeft(s) != [] ==> TrimLeft(s + post) == TrimLeft(s) + post
    ensures TrimLeft(s) == [] ==> TrimLeft(s + post) == TrimLeft(post)
    decreases |s|
  {
    if s == [] {
      assert s + post == post;
    } else if IsSpace(s[0]) {
      assert (s + post)[1..] == s[1..] + post;
      TrimLeftKeepsTail(s[1..], post);
    } else {
      assert (s + post)[0] == s[0];
    }
  }

  lemma {:induction false} TrimRightSkipsSpaces(s: string, post: string)
    requires forall k :: 0 <= k < |post| ==> IsSpace(post[k])
    ensures TrimRight(s + post) == TrimRight(s)
    decreases |post|
  {
    if post != [] {
      var p := post[..|post| - 1];
      assert (s + post)[..|s + post| - 1] == s + p;
      TrimRightSkipsSpaces(s, p);
    } else {
      assert s + post == s;
    }
  }

  /** `s.replace(pat, rep)`: every leftmost, non-overlapping occurrence of
      `pat` replaced by `rep`. */
  function ReplaceAll(s: string, pat: string, rep: string): (r: string)
    requires pat != []
    decreases |s|
  {
    if pat <= s then rep + ReplaceAll(s[|pat|..], pat, rep)
    else if s == [] then []
    else [s[0]] + ReplaceAll(s[1..], pat, rep)
  }

  predicate OccursAt(s: string, pat: string, i: int) {
    0 <= i && i + |pat| <= |s| && s[i..i + |pat|] == pat
  }

  /** `pat in s`. */
  predicate Contains(s: string, pat: string) {
    exists i | 0 <= i <= |s| :: OccursAt(s, pat, i)
  }

  lemma {:induction false} ReplaceAllAbsent(s: string, pat: string, rep: string)
    requires pat != []
    requires !Contains(s, pat)
    ensures ReplaceAll(s, pat, rep) == s
    decreases |s|
  {
    if pat <= s {
      assert OccursAt(s, pat, 0);
    } else if s != [] {
      if Contains(s[1..], pat) {
        var i :| 0 <= i <= |s[1..]| && OccursAt(s[1..], pat, i);
        TailSlice(s, i, |pat|);
        assert OccursAt(s, pat, i + 1);
      }
      ReplaceAllAbsent(s[1..], pat, rep);
    }
  }

  /** A slice of the tail is the slice one further along. */
  lemma TailSlice(s: string, i: nat, n: nat)
    requires s != [] && i + n <= |s| - 1
    ensures s[1..][i..i + n] == s[i + 1..i + 1 + n]
  {
    var a, b := s[1..][i..i + n], s[i + 1..i + 1 + n];
    forall k | 0 <= k < n ensures a[k] == b[k] {
      assert a[k] == s[i + 1 + k];
    }
  }

  /** `s` ends with `suffix`. */
  predicate EndsWith(s: string, suffix: string) {
    |suffix| <= |s| && s[|s| - |suffix|..] == suffix
  }

  /** `s` starts with `prefix`. */
  predicate StartsWith(s: string, prefix: string) {
    |prefix| <= |s| && s[..|prefix|] == prefix
  }

  /** Putting text in front keeps the end. */
  lemma EndsWithAppend(p: string, s: string, suffix: string)
    requires EndsWith(s, suffix)
    ensures EndsWith(p + s, suffix)
  {
    assert (p + s)[|p + s| - |suffix|..] == s[|s| - |suffix|..];
  }

  /** `sep.join(parts)`: the parts in order, the separator between
      neighbours. */
  function Join(sep: string, parts: seq<string>): (r: string)
    ensures parts == [] ==> r == []
    ensures |parts| == 1 ==> r == parts[0]
  {
    if parts == [] then []
    else if |parts| == 1 then parts[0]
    else parts[0] + sep + Join(sep, parts[1..])
  }

  /** The first part opens the join, followed by the separator when more
      parts come, and the last part closes it. */
  lemma {:induction false} JoinEnds(sep: string, parts: seq<string>)
    ensures |parts| >= 2 ==> StartsWith(Join(sep, parts), parts[0] + sep)
    ensures parts != [] ==> EndsWith(Join(sep, parts), parts[|parts| - 1])
    decreases |parts|
  {
    if |parts| >= 2 {
      var rest := Join(sep, parts[1..]);
      JoinEnds(sep, parts[1..]);
      assert parts[1..][|parts| - 2] == parts[|parts| - 1];
      EndsWithAppend(parts[0] + sep, rest, parts[|parts| - 1]);
      assert (parts[0] + sep + rest)[..|parts[0] + sep|] == parts[0] + sep;
    }
  }

  /** Joining two nonempty runs of parts is joining each and putting the
      separator between them. */
  lemma {:induction false} JoinSplit(sep: string, a: seq<string>, b: seq<string>)
    requires a != [] && b != []
    ensures Join(sep, a + b) == Join(sep, a) + sep + Join(sep, b)
    decreases |a|
  {
    var ab := a + b;
    if |a| == 1 {
      assert ab[0] == a[0] && ab[1..] == b;
    } else {
      assert ab[0] == a[0] && ab[1..] == a[1..] + b;
      JoinSplit(sep, a[1..], b);
    }
  }

  function LowerChar(c: char): char {
    if 'A' <= c <= 'Z' then (c as int - 'A' as int + 'a' as int) as char else c
  }

  /** `s.lower()` on the ASCII letters. */
  function Lower(s: string): (r: string)
    ensures |r| == |s|
    ensures forall i :: 0 <= i < |s| ==> r[i] == LowerChar(s[i])
  {
    seq(|s|, i requires 0 <= i < |s| => LowerChar(s[i]))
  }

  lemma LowerIdempotent(s: string)
    ensures Lower(Lower(s)) == Lower(s)
  {
  }

  function Digit(d: nat): char
    requires d < 10
  {
    "0123456789"[d]
  }

  /** `str(n)` for a natural number: its decimal digits. */
  function NatToString(n: nat): (r: string)
    ensures r != []
    ensures n < 10 <==> |r| == 1
    ensures forall k :: 0 <= k < |r| ==> '0' <= r[k] <= '9'
  {
    if n < 10 then [Digit(n)] else NatToString(n / 10) + [Digit(n % 10)]
  }

  /** Different numbers print differently. */
  lemma {:induction false} NatToStringInjective(m: nat, n: nat)
    requires NatToString(m) == NatToString(n)
    ensures m == n
  {
    if m >= 10 && n >= 10 {
      var a, b := NatToString(m), NatToString(n);
      assert a[|a| - 1] == Digit(m % 10) && b[|b| - 1] == Digit(n % 10);
      assert NatToString(m / 10) == a[..|a| - 1] == b[..|b| - 1] == NatToString(n / 10);
      NatToStringInjective(m / 10, n / 10);
    } else if m < 10 && n < 10 {
      assert NatToString(m)[0] == Digit(m);
    }
  }
}
